=== FILE: README.md ===
# PontoJovem in Dafny

PontoJovem is a time-clock application for young apprentices. An Express
back end keeps the users (`table_usuario`) and their punches
(`tabela_ponto`) in a Supabase store. It registers entry and exit punches,
attaches justification files to a punch, and generates a PDF report of a
period's punches with the period's and the current month's total hours. It also handles sign-up, login, profile updates and
password recovery by e-mailed token. A React Native front end shows the
day's status, the profile, the report period picker and the profile editor.
It also decides which server address to talk to.

This project models that core as pure Dafny functions over immutable data:

- The store's tables are sequences of rows.
- A store call that can fail is a parameter saying whether it failed (a `bool`, an `Option` error, or a `Result`).
- The clock, randomness and JavaScript's `Date` parser are parameters.

One module per source file:

| module | models |
|---|---|
| `Wrappers`, `Text` | `Option`/`Result`; JavaScript truthiness, `\|\|`, `split`, `trim`, `padStart`, string comparison |
| `Calendar` | proleptic Gregorian day numbers; `getUTCDay`/`getUTCFullYear` on them |
| `PontoTime` | `parseHmsToMinutes`, `diffMinutes`, `minutesToHHMM`, `getISOWeekKey`, `getCurrentMonthBoundsLocal` |
| `PontoRows` | `registrarEntrada`, `registrarSaida`, `uploadJustificativa` |
| `PontoReport` | `gerarRelatorio` up to the PDF: its two queries, the lines and totals it prints, and the per-week totals it computes without printing them |
| `Users` | the user table and the store's `.single()` lookup |
| `UserService` | `getUsersByIdService`, `createUserService`, `authenticateUserService` |
| `UserController` | the current user controller: `normalizeDate`, `getUsersById`, `createUser`, `loginUser`, `updateUser` |
| `LegacyUserController` | the older copy of the user controller under `Backend-Ponto-Jovem/Backend-Ponto-Jovem` |
| `PasswordService` | token generation, reset request, validation, reset, expired-token cleanup |
| `PasswordController` | the reset endpoints, the e-mail pattern, and the reset page with its form check |
| `EditProfile`, `ProfileScreen`, `HomeScreen`, `ReportScreen` | the front-end screens' logic |
| `ReportReply` | the report endpoint's JSON replies and how the report screen shows each |
| `ApiBase` | `getApiBase` and `isPrivateIPv4` of the front end's `utils/api.js` |
| `MobileAuth` | `simpleHash`, `formatDate` and `register` of `Front-Mobile/utils/auth.js` |

## Behaviour worth knowing

- A reset token is still valid in the very millisecond of its expiry, because the code compares `now > expiry` (`PasswordService.ValidAtExpiry`).
- A failed token lookup in `resetPasswordService` replies "Token inválido ou expirado".
- `createUser` does not refuse a birth date it cannot normalise; it leaves the date out of the service call, and only its 201 reply shows null. Only `updateUser` of the current tree answers 400 for such a date.
- `requestPasswordResetService` answers its generic success message also when the e-mail is unknown.
- Sign-up does not store the birth date, although its reply shows one (see Findings).
- `gerarRelatorio` fills a per-week object and sorts its keys, but prints neither and does not send them, although the comment above the function announces weekly totals. Its document holds only the punch lines, the period total and the current month's total.

## Model

| member | source | states |
|---|---|---|
| PontoTime.ParseHmsThree | Backend-Ponto-Jovem/src/controllers/pontoController.js:26-30 | `HH:MM:SS` with decimal parts is hours × 60 + minutes + whole minutes of the seconds |
| PontoTime.ParseHmsTwo | Backend-Ponto-Jovem/src/controllers/pontoController.js:26-30 | a missing seconds part counts as zero |
| PontoTime.ParseHmsOne | Backend-Ponto-Jovem/src/controllers/pontoController.js:26-30 | a lone hours part gives hours × 60; an empty or absent time is 0 minutes |
| PontoTime.SecondsBelowAMinute | Backend-Ponto-Jovem/src/controllers/pontoController.js:26-30 | seconds below 60 do not change the minute count |
| PontoTime.DiffMinutesSpec | Backend-Ponto-Jovem/src/controllers/pontoController.js:31-36 | elapsed minutes are exit − entry when positive and 0 otherwise; a missing exit or an unparsable time contributes 0 |
| PontoTime.ClockTextShape | Backend-Ponto-Jovem/src/controllers/pontoController.js:37-41 | the clock text is at least two hour digits, `:`, two minute digits; the digits read back as the hours and minutes; below 100 hours it is 5 characters |
| PontoTime.MinutesRoundTrip | Backend-Ponto-Jovem/src/controllers/pontoController.js:26-41 | parsing the `HH:MM` rendering of a total gives the total back |
| PontoTime.ClockTextDigits | Backend-Ponto-Jovem/src/controllers/pontoController.js:37-41 | below 100 hours the text is exactly `HH:MM`; from 100 hours on the hour field widens instead of wrapping at 24 |
| PontoTime.RoundDiv7Exact | Backend-Ponto-Jovem/src/controllers/pontoController.js:55 | the rounding of the week computation is exact on multiples of 7 |
| PontoTime.FirstThursday | Backend-Ponto-Jovem/src/controllers/pontoController.js:49-55 | week 1 is anchored on the first Thursday of the year, within its first seven days |
| PontoTime.IsoWeekOf | Backend-Ponto-Jovem/src/controllers/pontoController.js:43-57 | the week is 1 to 53; the date's Thursday lies in the ISO year; the week counts Thursdays from the year's first Thursday |
| PontoTime.IsoWeekOfDay | Backend-Ponto-Jovem/src/controllers/pontoController.js:43-57 | the same characterisation for a day number |
| PontoTime.SameWeekSameKey | Backend-Ponto-Jovem/src/controllers/pontoController.js:43-57 | all days of one Monday-to-Sunday week get the same week and key |
| PontoTime.IsoWeekOrder | Backend-Ponto-Jovem/src/controllers/pontoController.js:43-57 | (ISO year, week) pairs are ordered exactly as the weeks' Mondays |
| PontoTime.WeekOrderDays | Backend-Ponto-Jovem/src/controllers/pontoController.js:43-57 | weeks of day numbers are ordered exactly as their Thursdays |
| PontoTime.WeekKeyOrder | Backend-Ponto-Jovem/src/controllers/pontoController.js:255 | for four-digit years the string order of the keys, which the report sorts by, is the chronological order of the weeks |
| PontoTime.WeekKeyExamples | Backend-Ponto-Jovem/src/controllers/pontoController.js:43-57 | 2024-12-31 and 2025-01-01 are both in week 1 of 2025 and share the key "2025-W01" |
| PontoTime.MonthBoundDates | Backend-Ponto-Jovem/src/controllers/pontoController.js:59-70 | both bounds of the month are valid dates |
| PontoTime.MonthBoundsSpec | Backend-Ponto-Jovem/src/controllers/pontoController.js:59-70 | the bounds are day 1 and the day before the next month's first, spanning exactly the month's length; February ends on the 29th exactly in leap years |
| PontoRows.RegistrarEntrada | Backend-Ponto-Jovem/src/controllers/pontoController.js:75-91 | a store error gives 500 and no change; otherwise 200 and one new row at the end: the user, today, the entry time, no exit, no justification |
| PontoRows.RegistrarSaida | Backend-Ponto-Jovem/src/controllers/pontoController.js:96-114 | on success the exit time is set on every row of the user dated today and on no other row, and no other column changes; a store error changes nothing |
| PontoRows.UploadJustificativa | Backend-Ponto-Jovem/src/controllers/pontoController.js:139-188 | no file gives 400 and no change; success exactly when the upload, the row filter and the update all succeed; then the URL is returned and stored on exactly the addressed rows of the user |
| PontoRows.IdTakesPrecedence | Backend-Ponto-Jovem/src/controllers/pontoController.js:169-170 | when an id is sent, the date sent with it changes nothing |
| PontoReport.AddToWeekSpec | Backend-Ponto-Jovem/src/controllers/pontoController.js:234-235 | adding to a week keeps keys distinct, adds the key, and adds the minutes to the grand total and to that week only |
| PontoReport.GroupSum | Backend-Ponto-Jovem/src/controllers/pontoController.js:228-236 | adding minutes up by key, item by item, ends with each key of the items exactly once, each key's minutes equal to the sum of the items filed under it, and the grand total of all items |
| PontoReport.AggregatePeriod | Backend-Ponto-Jovem/src/controllers/pontoController.js:228-236 | the running total is the sum of every row's elapsed minutes; the per-week object has each week key of the rows once, no other key, the row minutes of that week for each key, and totals to the period total |
| PontoReport.FormatDatePieces | Backend-Ponto-Jovem/src/controllers/pontoController.js:287-290 | `Y-M-D` prints as `D/M/Y`; a text without a dash prints day and month as "undefined" |
| PontoReport.FormatStoredDate | Backend-Ponto-Jovem/src/controllers/pontoController.js:287-290 | a stored date prints as `DD/MM/YYYY` |
| PontoReport.Slice | Backend-Ponto-Jovem/src/controllers/pontoController.js:332 | `slice` takes the substring within bounds and gives "" past the end |
| PontoReport.MonthLabelSpec | Backend-Ponto-Jovem/src/controllers/pontoController.js:332 | the month label is the two-digit month and the four-digit year |
| PontoReport.LineOfSpec | Backend-Ponto-Jovem/src/controllers/pontoController.js:312-321 | a row's line shows the date as `DD/MM/YYYY`, the times or "-", and "Sim" exactly when a justification exists |
| PontoReport.GerarRelatorio | Backend-Ponto-Jovem/src/controllers/pontoController.js:194-345 | 400 exactly when a field is missing; 500 exactly when the fields are present and the period query fails; 404 exactly when the period query selects no row; otherwise the document holds the user name, the period, one line per selected row in ascending date order, the total of the selected rows' minutes and the current month's total (0 when its query fails) as `HH:MM`; the per-week object it fills and never prints partitions the period total by ISO week |
| PontoReport.Query | Backend-Ponto-Jovem/src/controllers/pontoController.js:215-220 | a query answers exactly the table's rows of the user dated between the two bounds |
| PontoReport.SortSorted | Backend-Ponto-Jovem/src/controllers/pontoController.js:221 | ordering by date gives ascending dates and keeps the rows' total minutes |
| PontoReport.PeriodRowsSpec | Backend-Ponto-Jovem/src/controllers/pontoController.js:215-221 | the period rows are the selected rows, each as often as the table holds it, in ascending date order, with the selected rows' total minutes |
| PontoReport.MonthQuerySpec | Backend-Ponto-Jovem/src/controllers/pontoController.js:239-247 | for a four-digit year the month query selects exactly the user's rows dated in the clock's month |
| Calendar.DayNumberOrder | Backend-Ponto-Jovem/src/controllers/pontoController.js:43-57 | day numbers order valid dates as (year, month, day) |
| Calendar.DayNumberInjective | Backend-Ponto-Jovem/src/controllers/pontoController.js:43-57 | distinct valid dates have distinct day numbers |
| Calendar.YearUnique | Backend-Ponto-Jovem/src/controllers/pontoController.js:51 | the year of a day is the one year whose span contains it |
| Calendar.MondayIndex | Backend-Ponto-Jovem/src/controllers/pontoController.js:48 | the shifted weekday is 0 for Monday through 6 for Sunday |
| Calendar.IsoTextInjective | Backend-Ponto-Jovem/src/controllers/pontoController.js:15-21 | different dates have different `YYYY-MM-DD` texts |
| Calendar.IsoTextOrder | Backend-Ponto-Jovem/src/controllers/pontoController.js:255 | comparing zero-padded ISO texts as strings compares the dates |
| Users.SingleSpec | Backend-Ponto-Jovem/src/services/userService.js:19-24 | `.single()` answers row i exactly when row i is the only matching row |
| Users.SingleNone | Backend-Ponto-Jovem/src/services/userService.js:25-27 | `.single()` fails exactly when no row or two or more rows match |
| UserService.GetUserById | Backend-Ponto-Jovem/src/services/userService.js:4-13 | success exactly when exactly one row has the id; the row returned has it; every failure gives the same message |
| UserService.GetUserByIdSpec | Backend-Ponto-Jovem/src/services/userService.js:4-13 | with unique ids, an existing id is found and a missing one fails |
| UserService.CreateUser | Backend-Ponto-Jovem/src/services/userService.js:16-58 | success exactly when the lookup works, the e-mail is free and the insert works; a duplicate e-mail gets "Email já cadastrado"; on success one row is appended with the name, e-mail and `password \|\| senha_hash` and null birth date and token; a failure changes nothing |
| UserService.CreateUserWithDate | Backend-Ponto-Jovem/src/services/userService.js:33-37 | the same checks and replies as sign-up, and the appended row also holds the forwarded birth date |
| UserService.CreateKeepsUnique | Backend-Ponto-Jovem/src/services/userService.js:29-31 | sign-up keeps e-mails and ids unique |
| UserService.Authenticate | Backend-Ponto-Jovem/src/services/userService.js:61-91 | login succeeds exactly when one row has the e-mail and its stored password equals the given one; the user returned lacks the password; every failure gets the same message |
| UserService.WithoutPasswordKeepsTheRest | Backend-Ponto-Jovem/src/services/userService.js:77 | only the password column is dropped from the returned user |
| UserService.LoginFailuresAlike | Backend-Ponto-Jovem/src/services/userService.js:61-91 | an unknown e-mail and a wrong password get the same reply |
| UserService.SignUpThenLogin | Backend-Ponto-Jovem/src/services/userService.js:16-91 | a user created with a password logs in with it and gets the created row without password |
| UserController.NormalizeDate | Backend-Ponto-Jovem/src/controllers/userController.js:8-30 | a falsy date gives null; a trimmed `YYYY-MM-DD` is kept; `DD/MM/YYYY` and `DD-MM-YYYY` are reordered year first |
| UserController.ShapesExclusive | Backend-Ponto-Jovem/src/controllers/userController.js:12-19 | no text matches both the year-first and a day-first pattern |
| UserController.YearFirstFits | Backend-Ponto-Jovem/src/controllers/userController.js:15-19 | reordering a day-first date gives the year-first shape |
| UserController.NormalizeIdempotent | Backend-Ponto-Jovem/src/controllers/userController.js:8-30 | a pattern date normalises to `YYYY-MM-DD`, and normalising that again changes nothing |
| UserController.GetUsersById | Backend-Ponto-Jovem/src/controllers/userController.js:32-44 | 200 with the row exactly when the service finds it, else 404 with the service's message |
| UserController.SignUpDataOf | Backend-Ponto-Jovem/src/controllers/userController.js:57-64 | the service gets `password \|\| senha_hash` as the password and the normalised birth date |
| UserController.CreateUserAsWritten | Backend-Ponto-Jovem/src/controllers/userController.js:46-91 | 400 without name, e-mail or password, before the service; else 201 exactly when the service succeeds, and the reply shows the normalised request date, which the store lacks |
| UserController.SignUpReplyDisagreesWithStore | Backend-Ponto-Jovem/src/controllers/userController.js:66-76 | a day-first birth date is shown normalised in the 201 reply while the stored row has null |
| UserController.CreateUser | Backend-Ponto-Jovem/src/controllers/userController.js:46-91 | the same validation and statuses; on 201 the reply is exactly the appended row, which holds the normalised birth date; a failure changes nothing |
| UserController.CreateUserAgrees | Backend-Ponto-Jovem/src/controllers/userController.js:66-83 | the corrected and the written sign-up give identical replies |
| UserController.LoginUser | Backend-Ponto-Jovem/src/controllers/userController.js:93-132 | 400 without e-mail or password; 200 with the password-free user exactly when the service accepts; else 401 |
| UserController.UpdateUser | Backend-Ponto-Jovem/src/controllers/userController.js:134-171 | a date that does not normalise gives 400 and no call; an empty update gives 400; otherwise the truthy name and e-mail and the date entry go to the service, whose outcome decides 200 or 400 |
| UserController.DateUpdateSpec | Backend-Ponto-Jovem/src/controllers/userController.js:143-155 | a missing date changes nothing; null or "" clears it; a normalisable text is stored normalised; any other text is refused, and only such text |
| UserController.NullDateIsAnUpdate | Backend-Ponto-Jovem/src/controllers/userController.js:143-159 | a body with only `data_nascimento: null` is an update that clears the date |
| UserController.UpdateCallsService | Backend-Ponto-Jovem/src/controllers/userController.js:140-167 | the service is called exactly when a field came and the date, if any, is acceptable |
| LegacyUserController.CreateUser | Backend-Ponto-Jovem/Backend-Ponto-Jovem/src/controllers/userController.js:14-44 | the body goes to the service unchecked; 201 with the row exactly when it succeeds, else 400 with its message |
| LegacyUserController.AcceptsEmptyBody | Backend-Ponto-Jovem/Backend-Ponto-Jovem/src/controllers/userController.js:14-44 | an empty body creates an all-null row |
| LegacyUserController.CreateUserAsCurrent | Backend-Ponto-Jovem/Backend-Ponto-Jovem/src/controllers/userController.js:14-44 | on a complete body without birth date the older and the current sign-up agree on reply and table |
| LegacyUserController.UpdatesOf | Backend-Ponto-Jovem/Backend-Ponto-Jovem/src/controllers/userController.js:85-87 | a field is sent exactly when it is truthy, unchanged |
| LegacyUserController.UpdateUser | Backend-Ponto-Jovem/Backend-Ponto-Jovem/src/controllers/userController.js:79-103 | 400 when no field is truthy; otherwise the service decides 200 with its data or 400 with its message |
| LegacyUserController.UpdateAgreesOnIsoDates | Backend-Ponto-Jovem/Backend-Ponto-Jovem/src/controllers/userController.js:79-103 | with a `YYYY-MM-DD` date the older and the current update send the same fields and reply alike |
| LegacyUserController.UpdateReordersDayFirst | Backend-Ponto-Jovem/Backend-Ponto-Jovem/src/controllers/userController.js:85-87 | a day-first date is sent as typed by the older update and reordered by the current one |
| PasswordService.Hex | Backend-Ponto-Jovem/src/services/passwordService.js:7-9 | hex text has two lower-case hex digits per byte |
| PasswordService.ResetToken | Backend-Ponto-Jovem/src/services/passwordService.js:7-9 | a token is 64 lower-case hex digits |
| PasswordService.RequestReset | Backend-Ponto-Jovem/src/services/passwordService.js:12-109 | an unknown e-mail or failed lookup gets the generic reply and no change; success unless both updates fail, then the reply carries the error and nothing changes |
| PasswordService.RequestKnownEmail | Backend-Ponto-Jovem/src/services/passwordService.js:31-65 | for a registered e-mail the token lands on that user only, is 64 characters long and expires one hour after now |
| PasswordService.RequestSameReply | Backend-Ponto-Jovem/src/services/passwordService.js:23-100 | a known and an unknown e-mail get the same reply |
| PasswordService.RequestPaired | Backend-Ponto-Jovem/src/services/passwordService.js:41-65 | a request keeps each token paired with an expiry |
| PasswordService.ValidateResetToken | Backend-Ponto-Jovem/src/services/passwordService.js:183-228 | valid exactly when one row has the token and now is not past its expiry; then the e-mail and name are returned; "Token inválido" and "Token expirado" are told apart |
| PasswordService.ValidAtExpiry | Backend-Ponto-Jovem/src/services/passwordService.js:201-210 | a token is still valid at its expiry instant and invalid one millisecond later |
| PasswordService.ResetPassword | Backend-Ponto-Jovem/src/services/passwordService.js:112-180 | success exactly when the token validates and the update works; then only that row changes, with the new password and no token; any failure changes nothing |
| PasswordService.ResetOnce | Backend-Ponto-Jovem/src/services/passwordService.js:152-159 | a token cannot be used twice: the second reset fails as invalid and changes nothing |
| PasswordService.ResetPaired | Backend-Ponto-Jovem/src/services/passwordService.js:152-159 | a reset keeps each token paired with an expiry |
| PasswordService.Cleanup | Backend-Ponto-Jovem/src/services/passwordService.js:231-253 | clears token and expiry on exactly the rows expired strictly before now, changes nothing else, and nothing on a store error |
| PasswordService.CleanupKeepsValid | Backend-Ponto-Jovem/src/services/passwordService.js:231-253 | cleanup never changes the answer for a token valid at the same instant |
| PasswordService.CleanupPaired | Backend-Ponto-Jovem/src/services/passwordService.js:231-253 | cleanup keeps each token paired with an expiry |
| PasswordService.CleanupIdempotent | Backend-Ponto-Jovem/src/services/passwordService.js:231-253 | a second cleanup at the same instant changes nothing |
| PasswordController.PatternIsShape | Backend-Ponto-Jovem/Backend-Ponto-Jovem/src/controllers/passwordController.js:20-26 | the e-mail pattern accepts exactly the texts without white space with one `@`, not first, and a `.` after the character following it and before the last character |
| PasswordController.RequestPasswordReset | Backend-Ponto-Jovem/Backend-Ponto-Jovem/src/controllers/passwordController.js:9-51 | 400 without an e-mail or for one the pattern refuses, before the service; otherwise the service's message and table, with 200 exactly on success and 400 otherwise |
| PasswordController.RequestRevealsNothing | Backend-Ponto-Jovem/Backend-Ponto-Jovem/src/controllers/passwordController.js:9-51 | a registered and an unknown address get the same 200 reply |
| PasswordController.ResetPasswordReply | Backend-Ponto-Jovem/Backend-Ponto-Jovem/src/controllers/passwordController.js:54-95 | 400 without token or password, 400 for fewer than six characters, else the service's message with 200 exactly on success |
| PasswordController.ResetStoresLongPasswords | Backend-Ponto-Jovem/Backend-Ponto-Jovem/src/controllers/passwordController.js:65-70 | whenever the table changes, it now holds the new password, which has at least six characters |
| PasswordController.ValidateToken | Backend-Ponto-Jovem/Backend-Ponto-Jovem/src/controllers/passwordController.js:98-136 | 400 without token; 200 with the owner's e-mail exactly for a valid token; otherwise 400 with the service's message |
| PasswordController.StripClick | Backend-Ponto-Jovem/Backend-Ponto-Jovem/src/controllers/passwordController.js:168-171 | a leading `click:` is removed, and only then |
| PasswordController.HexTokenUnchanged | Backend-Ponto-Jovem/Backend-Ponto-Jovem/src/controllers/passwordController.js:160-171 | a generated token reaches validation unchanged |
| PasswordController.ShowResetPasswordPage | Backend-Ponto-Jovem/Backend-Ponto-Jovem/src/controllers/passwordController.js:139-413 | no token gives the 400 page; otherwise the form exactly when the cleaned token validates, showing its e-mail and name and carrying it hidden; an invalid link shows the service's message |
| PasswordController.FormCheck | Backend-Ponto-Jovem/Backend-Ponto-Jovem/src/controllers/passwordController.js:344-352 | the form posts exactly when the password has six or more characters and matches the confirmation; each failure has its message |
| PasswordController.FormThenReset | Backend-Ponto-Jovem/Backend-Ponto-Jovem/src/controllers/passwordController.js:311-368 | when the page shows the form and its check passes, posting the hidden token succeeds, and a row then holds the new password and no token |
| EditProfile.Digits | Frontend-Ponto-Jovem/screens/EditProfile.js:79 | only digits remain, never more characters than given |
| EditProfile.MaskDate | Frontend-Ponto-Jovem/screens/EditProfile.js:77-83 | the masked text is at most 10 characters of digits and slashes |
| EditProfile.MaskedDigits | Frontend-Ponto-Jovem/screens/EditProfile.js:80-82 | the layout adds nothing but slashes |
| EditProfile.MaskDateSpec | Frontend-Ponto-Jovem/screens/EditProfile.js:77-83 | the mask keeps exactly the first eight digits typed, with a slash at index 2 once a third digit is typed and at index 5 once a fifth is |
| EditProfile.MaskDateIdempotent | Frontend-Ponto-Jovem/screens/EditProfile.js:77-83 | masking a masked value changes nothing |
| EditProfile.MaskEightDigits | Frontend-Ponto-Jovem/screens/EditProfile.js:77-83 | eight digits give the full `DD/MM/YYYY` |
| EditProfile.FormatToInput | Frontend-Ponto-Jovem/screens/EditProfile.js:85-89 | "" stays ""; a non-empty text converts exactly when it has three `-` parts, else the code throws |
| EditProfile.FormatToApi | Frontend-Ponto-Jovem/screens/EditProfile.js:91-95 | "" stays ""; a non-empty text converts exactly when it has a `/`, else the code throws |
| EditProfile.ApiThenInputThenApi | Frontend-Ponto-Jovem/screens/EditProfile.js:85-95 | a stored date with two-digit month and day survives display and conversion back |
| EditProfile.InputThenApiThenInput | Frontend-Ponto-Jovem/screens/EditProfile.js:85-95 | a displayed date with two-digit day and month survives conversion and display |
| EditProfile.FormatToInputPads | Frontend-Ponto-Jovem/screens/EditProfile.js:85-89 | single-digit day and month are zero-padded on display |
| EditProfile.FormatToApiPads | Frontend-Ponto-Jovem/screens/EditProfile.js:91-95 | single-digit day and month are zero-padded in the date sent to the server, `D/M/Y` becoming `Y-0M-0D` |
| EditProfile.HandleSave | Frontend-Ponto-Jovem/screens/EditProfile.js:125-138 | nothing is sent exactly when a non-empty date fails to convert; otherwise exactly the non-empty fields go, the date converted |
| EditProfile.MaskedDateAccepted | Frontend-Ponto-Jovem/screens/EditProfile.js:77-95 | a date typed in full through the mask reaches the server as `YYYY-MM-DD`, which the server's normalisation keeps unchanged |
| ProfileScreen.ShapesExclusive | Frontend-Ponto-Jovem/screens/ProfileScreen.js:73-85 | no text has both the year-first and the day-first shape |
| ProfileScreen.FormatDateBR | Frontend-Ponto-Jovem/screens/ProfileScreen.js:73-85 | a falsy date shows "-"; a pattern date shows as `DD/MM/YYYY`; anything else shows the locale text or the trimmed input |
| ProfileScreen.YearFirstShown | Frontend-Ponto-Jovem/screens/ProfileScreen.js:77-78 | a year-first date is shown day first with slashes, whichever separators it had |
| ProfileScreen.DayFirstShown | Frontend-Ponto-Jovem/screens/ProfileScreen.js:80-81 | a day-first date keeps its order and gets slashes |
| ProfileScreen.FormatDateBRIdempotent | Frontend-Ponto-Jovem/screens/ProfileScreen.js:73-85 | showing a shown date again changes nothing |
| ProfileScreen.AgreesWithReport | Frontend-Ponto-Jovem/screens/ProfileScreen.js:73-85 | the profile and the report document show a stored date identically |
| ProfileScreen.FetchUser | Frontend-Ponto-Jovem/screens/ProfileScreen.js:33-61 | without an id or an ok reply nothing changes; otherwise each field takes the fetched value when truthy and keeps its value otherwise |
| ProfileScreen.MergeIdempotent | Frontend-Ponto-Jovem/screens/ProfileScreen.js:44-53 | merging the same reply twice is merging it once |
| ProfileScreen.MergeKeepsNonEmpty | Frontend-Ponto-Jovem/screens/ProfileScreen.js:44-53 | a non-empty name or e-mail is never replaced by an empty one |
| HomeScreen.FindToday | Frontend-Ponto-Jovem/screens/HomeScreen.js:106 | finds the first entry dated today, or reports that none is |
| HomeScreen.StatusMatchesButton | Frontend-Ponto-Jovem/screens/HomeScreen.js:105-113 | the status is "waiting" exactly when the next punch is the entry; a finished day has no button; an exit button means the exit is pending |
| HomeScreen.TodayRowOf | Frontend-Ponto-Jovem/screens/HomeScreen.js:63-107 | a listed entry dated today shows a stored row of the user dated today |
| HomeScreen.AfterEntrada | Frontend-Ponto-Jovem/screens/HomeScreen.js:74-113 | after the day's first entry punch, the screen offers the exit and says it is pending, whatever the list order |
| HomeScreen.AfterSaida | Frontend-Ponto-Jovem/screens/HomeScreen.js:74-113 | after the exit punch the button disappears, and the day reads as finished exactly when the row shown has an entry |
| HomeScreen.UploadShowsLink | Frontend-Ponto-Jovem/screens/HomeScreen.js:134-210 | a file sent from a row's dialog lands on that row, which then shows the address as a link |
| ReportScreen.SelectDate | Frontend-Ponto-Jovem/screens/ReportScreen.js:72-82 | in daily mode the day is requested as both ends and the calendar closes; otherwise the pick joins a selection of fewer than two or starts a new one |
| ReportScreen.Sort2 | Frontend-Ponto-Jovem/screens/ReportScreen.js:90 | the two days, as a permutation, in ascending string order |
| ReportScreen.ConfirmPeriod | Frontend-Ponto-Jovem/screens/ReportScreen.js:85-93 | without exactly two days an alert and no request; otherwise the two days in order are requested and the calendar closes |
| ReportScreen.HandleReply | Frontend-Ponto-Jovem/screens/ReportScreen.js:96-132 | the link is set exactly for a successful reply with an address; 404 says nothing was found; a failed fetch says the connection failed; any other reply clears the link and shows the server's message, or "Falha ao gerar relatório." without one, as an error; mode, selection and calendar stay |
| ReportReply.ScreenShowsReport | Frontend-Ponto-Jovem/screens/ReportScreen.js:96-132 | a generated report shows as a link exactly when the back end's reply carries an address, and the link is that address |
| ReportReply.ScreenShowsRefusal | Frontend-Ponto-Jovem/screens/ReportScreen.js:96-132 | every other outcome of the back end shows no link: "nothing found" for no rows, and the server's own message for missing fields or a failed query |
| ReportScreen.SelectionBounded | Frontend-Ponto-Jovem/screens/ReportScreen.js:72-141 | no event grows the selection past two days |
| ReportScreen.TwoPicks | Frontend-Ponto-Jovem/screens/ReportScreen.js:72-93 | two picks after a mode change are the selection, and confirming requests them sorted |
| ReportScreen.SortDates | Frontend-Ponto-Jovem/screens/ReportScreen.js:90 | sorting the texts of two dates puts the earlier day first |
| ReportScreen.PeriodInOrder | Frontend-Ponto-Jovem/screens/ReportScreen.js:72-93 | two picks in either order request the period from the earlier day to the later |
| ReportScreen.ThirdPickRestarts | Frontend-Ponto-Jovem/screens/ReportScreen.js:72-93 | a third pick starts over, and confirming then asks for a second day |
| ApiBase.Second172 | Frontend-Ponto-Jovem/utils/api.js:14-18 | the matched second number has at most two digits |
| ApiBase.PrivatePrefixes | Frontend-Ponto-Jovem/utils/api.js:10-12 | every address starting `10.` or `192.168.` is private |
| ApiBase.Private172 | Frontend-Ponto-Jovem/utils/api.js:14-18 | a `172.N.` address is private exactly when N is from 16 to 31 |
| ApiBase.LongSecondNumber | Frontend-Ponto-Jovem/utils/api.js:14-18 | a second number of three or more digits is never private |
| ApiBase.StripSlashes | Frontend-Ponto-Jovem/utils/api.js:66 | the result is a prefix of the input, only slashes were removed, and it does not end in `/` |
| ApiBase.StripSlashesIdempotent | Frontend-Ponto-Jovem/utils/api.js:66 | stripping twice is stripping once |
| ApiBase.GetApiBase | Frontend-Ponto-Jovem/utils/api.js:60-100 | a cached address is answered as is; otherwise the resolved address becomes the cache |
| ApiBase.ResolutionOrder | Frontend-Ponto-Jovem/utils/api.js:60-100 | the configured base, the bundle host, the development server host, a private device address and the platform default are tried in this order |
| ApiBase.EnvBaseNoTrailingSlash | Frontend-Ponto-Jovem/utils/api.js:64-68 | a configured base is answered without trailing slash |
| ApiBase.CacheSticks | Frontend-Ponto-Jovem/utils/api.js:61 | once resolved, every later call answers the same address whatever the sources say |
| ApiBase.AndroidAvoidsLoopback | Frontend-Ponto-Jovem/utils/api.js:22-58 | on Android no host taken from the bundle or the development server is a loopback name |
| MobileAuth.SimpleHash | Front-Mobile/utils/auth.js:6 | the scrambled text is the reversed password followed by `\|h` |
| MobileAuth.SimpleHashInjective | Front-Mobile/utils/auth.js:6 | different passwords scramble differently |
| MobileAuth.FormatDate | Front-Mobile/utils/auth.js:9-14 | a falsy input gives null; every failure is the format error; a truthy input that converts gives a text |
| MobileAuth.FormatDateRearranges | Front-Mobile/utils/auth.js:9-14 | `DD-MM-AAAA` becomes `AAAA-MM-DD`; anything after a third `-` is ignored |
| MobileAuth.FormatDateEmptyPart | Front-Mobile/utils/auth.js:12 | three parts are accepted exactly when none is empty |
| MobileAuth.FormatDateMissingPart | Front-Mobile/utils/auth.js:11-12 | fewer than three parts always fail |
| MobileAuth.RegisterRequest | Front-Mobile/utils/auth.js:40-52 | the date is converted first and its error ends the call; otherwise the body carries the username as `nome` and the unscrambled password as `senha_hash` |
| MobileAuth.RegisterReply | Front-Mobile/utils/auth.js:56-60 | success with the data exactly on a 2xx status; otherwise the server's message or the default one |
| MobileAuth.RegisterThenSignUp | Front-Mobile/utils/auth.js:40-61 | registering a new e-mail with a `DD-MM-AAAA` date on the sign-up route as written is accepted with 201 and stores the password as sent and no birth date, while `register` returns the row with the date year first |
| MobileAuth.RegisterThenCorrectedSignUp | Front-Mobile/utils/auth.js:40-61 | on the corrected sign-up route the same registration stores the date year first, and `register` returns the stored row |

## Left out

- Store I/O: every Supabase call is a parameter telling whether it failed. The tables are sequences and `.single()` is "exactly one matching row". What a lookup with an undefined e-mail filter does in the store is not modelled: such a lookup finds no row.
- The user tables: `gerarRelatorio` reads the name from `tabela_usuario`, while the services use `table_usuario`. The model has one user table; the report's stored name is an input.
- PDF layout, fonts, the logo, and the asynchronous upload of the finished document in its `end` handler are not modelled. The same goes for the final 200 reply with the report's address (pontoController.js:258-284). `PontoReport.GerarRelatorio` stops at what the document says; `ReportReply.ServerReply` takes the address as an input, and its `Generated` case assumes the upload succeeded. A failed upload is thrown inside that handler (pontoController.js:273), outside the `try` of pontoController.js:195-341, so the request is never answered and the rejection goes unhandled; the model has no outcome for that.
- PontoReport.GerarRelatorio: the store compares the `date` column with the request's bounds as dates; the model compares the rows' `YYYY-MM-DD` texts with the bounds as strings, which agrees for bounds written `YYYY-MM-DD` (`Calendar.IsoTextTupleOrder`). A bound the store cannot read as a date makes the store fail, which the model covers only through its failure flag. Rows of one date keep their table order, one of the orders the store may return. The sorted key list `semanasOrdenadas` is not modelled, as nothing reads it.
- PontoTime.IsoWeekOf: the week is computed on the stored year as is. `Date.UTC` reads the years 0 to 99 as 1900 to 1999, so for a date in those years, and for the first days of January of year 100 (whose ISO year is 99), the code computes a week of another century or a wrong week number. `PontoTime.WeekKey` and the per-week totals inherit this gap.
- `listarPontos` is a single ordered query with no logic of its own. The home screen's listing is modelled by `HomeScreen.Listed`.
- Every `catch` block that turns an exception into a 500 reply or an alert is left out; the explicit error replies are modelled.
- JavaScript's `Date`: `new Date(text)` parsing in `normalizeDate` and `formatDateBR`, `toLocaleDateString`, the report screen's `fixLocalDate`, `toLocaleTimeString`, and the local date of `getLocalDateISO` are inputs. The clock is a millisecond count passed in.
- `PontoTime.ToNumber`: `Number(text)` on a time part accepts only trimmed decimal digits. Signs, fractions, exponents and hex forms are read as NaN, which the code would read as numbers.
- Strings are sequences of characters. UTF-16 length and `split('')` on surrogate pairs are not modelled.
- `crypto.randomBytes` is a 32-byte parameter, and the e-mail sending of the reset request is left out. Neither changes a reply.
- `decodeURIComponent` of the reset page is an input: its decoded text, or none when it throws.
- `debugToken` echoes the raw and decoded token back. It is a debugging aid with no logic.
- The reset page's HTML, styles and in-page script are not modelled beyond the form's check and what it posts.
- The older `passwordController.js` imports `../services/passwordService.js` from its own tree, which is not part of this model; `PasswordController` binds it to Backend-Ponto-Jovem/src/services/passwordService.js (`PasswordService`), the only recovery service available.
- `updateUserService` is not part of this model. The user service file does not define it; its reply is an input of `UserController.UpdateUser` and `LegacyUserController.UpdateUser`.
- UserController.UpdateUser: its 200 and 400 replies after the service call assume a service the source lacks. `userController.js:1-6` imports `updateUserService`, which `userService.js` does not export. Loaded as native ES modules, the import fails when the modules are linked, so the server does not start. Compiled to CommonJS, the name is undefined, the call throws, and every update that reaches it answers 500.
- `getUsersById` and `loginUser` of the older controller differ from the current ones as follows. The older `getUsersById` (Backend-Ponto-Jovem/Backend-Ponto-Jovem/src/controllers/userController.js:3-12) puts its 404 error under `error`, without `success: false`, and has no `!data` branch; the service only succeeds with a row, so that branch of the current one never fires and the statuses agree. The older `loginUser` (:50-70) returns `result.user` as it is, while the current one (Backend-Ponto-Jovem/src/controllers/userController.js:103-111) sets `data_nascimento` to the first of `data_nascimento`, `dataNascimento`, `birthDate` that is not null, else null. Every modelled user row has a `data_nascimento` column and no other birth-date column, so the two replies carry the same row. `UserController.GetUsersById` and `UserController.LoginUser` model both, since the model's replies carry a status, a message and a payload but no `success` flag or error key.
- `getColorFromString` picks an avatar colour and is left out.
- The profile editor's `fetchUserData` only copies the fetched fields into the form, converting the date with `formatToInput` (`EditProfile.FormatToInput`).
- Network details of `getApiBase` are inputs: `Network.getIpAddressAsync`, the bundle's script URL (only its parsed host), and the Expo constants. Platform `web` and the default branch behave alike.
- `login`, `resetPassword`, `logout`, `getCurrentUser` and `isAuthenticated` of `Front-Mobile/utils/auth.js` only read or write local storage or repeat the server's login. They are left out.
- React rendering, navigation, alert timing, the date picker widget and notifications are left out.
- The sign-up from the mobile app sends the password in the clear as `senha_hash`. `simpleHash` is modelled, but `register` does not use it.

## Findings

| source | as written | input that shows it | evidently intended | confidence | as-written member | corrected member |
|---|---|---|---|---|---|---|
| Backend-Ponto-Jovem/src/controllers/userController.js:57-76 with Backend-Ponto-Jovem/src/services/userService.js:33-37 | `createUser` passes the normalised birth date to the service and replies with `result.user?.data_nascimento ?? normalizedDate`, but the service inserts only name, e-mail and password, so the date is never stored | body nome "Ana", email "a@b.c", password "segredo", data_nascimento "01/02/2000": the reply is 201 with birth date "2000-02-01" while the stored row has null | the birth date is stored and the reply shows the stored row | not executed | UserController.CreateUserAsWritten, UserController.SignUpReplyDisagreesWithStore | UserController.CreateUser, UserService.CreateUserWithDate |

=== FILE: api_base.dfy ===
/** How the app finds the backend: the private-address test and the order in
    which the candidate sources of the base address are tried, with the
    result cached for the rest of the session. */
module ApiBase {
  import opened Wrappers
  import opened Text

  // ---------------------------------------------------------------------------
  // isPrivateIPv4
  // ---------------------------------------------------------------------------

  /** The number matched by `^172\.(\d{1,2})\.`, if the address starts so. */
  function Second172(ip: string): (r: Option<nat>)
    ensures r.Some? ==> r.value < 100
  {
    if !StartsWith(ip, "172.") || |ip| < 6 || !IsDigit(ip[4]) then None
    else if ip[5] == '.' then Some(DigitValue(ip[4]))
    else if |ip| >= 7 && IsDigit(ip[5]) && ip[6] == '.' then Some(10 * DigitValue(ip[4]) + DigitValue(ip[5]))
    else None
  }

  /** `isPrivateIPv4`: the prefixes `10.` and `192.168.`, and `172.N.` for N
      from 16 to 31. */
  predicate IsPrivateIPv4(ip: string) {
    StartsWith(ip, "10.") || StartsWith(ip, "192.168.")
    || (Second172(ip).Some? && 16 <= Second172(ip).value <= 31)
  }

  /** Every address in `10.0.0.0/8` and `192.168.0.0/16`, written as dotted
      text, is private. */
  lemma PrivatePrefixes(rest: string)
    ensures IsPrivateIPv4("10." + rest) && IsPrivateIPv4("192.168." + rest)
  {
    assert ("10." + rest)[..3] == "10.";
    assert ("192.168." + rest)[..8] == "192.168.";
  }

  /** A `172.` address whose second number is written with one or two digits
      and no leading zero is private exactly when that number is from 16 to
      31 (`172.16.0.0/12`). */
  lemma {:induction false} Private172(n: nat, rest: string)
    requires n < 100
    ensures IsPrivateIPv4("172." + NatToString(n) + "." + rest) <==> 16 <= n <= 31
  {
    var t := NatToString(n);
    var ip := "172." + t + "." + rest;
    NatToStringLength(n);
    NatToStringValue(n);
    assert ip[..4] == "172.";
    assert ip[1] == '7';
    if n < 10 {
      assert ip[4] == t[0] && ip[5] == '.';
      assert t[..0] == [];
    } else {
      assert ip[4] == t[0] && ip[5] == t[1] && ip[6] == '.';
      assert t[..1] == [t[0]];
      assert [t[0]][..0] == [];
    }
  }

  /** A second number of three or more digits is never matched. */
  lemma LongSecondNumber(ip: string)
    requires StartsWith(ip, "172.") && |ip| >= 7
    requires IsDigit(ip[4]) && IsDigit(ip[5]) && IsDigit(ip[6])
    ensures !IsPrivateIPv4(ip)
  {
    assert ip[1] == "172."[1];
  }

  // ---------------------------------------------------------------------------
  // getApiBase
  // ---------------------------------------------------------------------------

  /** `s.replace(/\/+$/, "")`. */
  function StripSlashes(s: string): (r: string)
    ensures |r| <= |s| && r == s[..|r|]
    ensures forall i :: |r| <= i < |s| ==> s[i] == '/'
    ensures !EndsWith(r, "/")
  {
    if |s| > 0 && s[|s| - 1] == '/' then StripSlashes(s[..|s| - 1]) else s
  }

  lemma StripSlashesIdempotent(s: string)
    ensures StripSlashes(StripSlashes(s)) == StripSlashes(s)
  {
    var r := StripSlashes(s);
    assert !(|r| > 0 && r[|r| - 1] == '/') by {
      if |r| > 0 {
        assert r[|r| - 1..] == [r[|r| - 1]];
      }
    }
  }

  datatype Platform = Android | Ios | Web

  /** What the app can see when it resolves the address. */
  datatype Sources = Sources(
    platform: Platform,
    configBase: Option<string>,
    envBase: Option<string>,
    scriptHost: Option<string>,
    expoHostUri: Option<string>,
    deviceIp: Option<string>)

  predicate Loopback(host: string) {
    host == "localhost" || host == "127.0.0.1"
  }

  /** The emulator's alias for the development machine. */
  const EMULATOR_HOST: string := "10.0.2.2"

  /** The Android emulator reaches the host machine's loopback as
      `10.0.2.2`. */
  function ForPlatform(host: string, p: Platform): (r: string)
    ensures p == Android && Loopback(host) ==> r == EMULATOR_HOST
    ensures !(p == Android && Loopback(host)) ==> r == host
  {
    if p == Android && Loopback(host) then EMULATOR_HOST else host
  }

  /** `fromScriptURL`: the host of the bundle's address (None when there is
      none or it does not parse). */
  function FromScriptURL(src: Sources): Option<string> {
    if src.scriptHost.Some? then Some(ForPlatform(src.scriptHost.value, src.platform)) else None
  }

  /** `fromExpoConstants`: the host part before the first `:` of the
      development server's address; none when it is empty. */
  function FromExpoConstants(src: Sources): Option<string> {
    if !Truthy(src.expoHostUri) then None
    else
      var host := Split(src.expoHostUri.value, ':')[0];
      if host == "" then None else Some(ForPlatform(host, src.platform))
  }

  function HostBase(host: string): string {
    "http://" + host + ":3000/bk-mobile"
  }

  function PlatformDefault(p: Platform): string {
    if p == Android then "http://10.0.2.2:3000/bk-mobile" else "http://localhost:3000/bk-mobile"
  }

  /** `getApiBase`: the cached address when there is one; otherwise the
      configured base without trailing slashes, else the bundle's host, else
      the development server's host, else the device's own private address,
      else the platform's default. Returns the address and the new cache. */
  function GetApiBase(cache: Option<string>, src: Sources): (r: (string, Option<string>))
    ensures Truthy(cache) ==> r == (cache.value, cache)
    ensures !Truthy(cache) ==> r.1 == Some(r.0)
  {
    if Truthy(cache) then (cache.value, cache)
    else
      var env := Or(src.configBase, src.envBase);
      var base :=
        if Truthy(env) then StripSlashes(env.value)
        else if Truthy(FromScriptURL(src)) then HostBase(FromScriptURL(src).value)
        else if Truthy(FromExpoConstants(src)) then HostBase(FromExpoConstants(src).value)
        else if Truthy(src.deviceIp) && IsPrivateIPv4(src.deviceIp.value) then HostBase(src.deviceIp.value)
        else PlatformDefault(src.platform);
      (base, Some(base))
  }

  /** The first source that answers decides, in this order. */
  lemma ResolutionOrder(src: Sources)
    ensures var env := Or(src.configBase, src.envBase);
      var base := GetApiBase(None, src).0;
      && (Truthy(env) ==> base == StripSlashes(env.value))
      && (!Truthy(env) && Truthy(src.scriptHost) ==> base == HostBase(ForPlatform(src.scriptHost.value, src.platform)))
      && (!Truthy(env) && !Truthy(src.scriptHost) && Truthy(FromExpoConstants(src)) ==>
            base == HostBase(FromExpoConstants(src).value))
      && ((!Truthy(env) && !Truthy(src.scriptHost) && !Truthy(FromExpoConstants(src))
           && Truthy(src.deviceIp) && IsPrivateIPv4(src.deviceIp.value)) ==> base == HostBase(src.deviceIp.value))
      && ((!Truthy(env) && !Truthy(src.scriptHost) && !Truthy(FromExpoConstants(src))
           && !(Truthy(src.deviceIp) && IsPrivateIPv4(src.deviceIp.value))) ==> base == PlatformDefault(src.platform))
  {
    if src.scriptHost.Some? && Truthy(src.scriptHost) {
      assert |ForPlatform(src.scriptHost.value, src.platform)| > 0;
    }
    if src.scriptHost.Some? && !Truthy(src.scriptHost) {
      assert ForPlatform(src.scriptHost.value, src.platform) == "";
    }
  }

  /** The configured base never ends in `/`. */
  lemma EnvBaseNoTrailingSlash(src: Sources)
    requires Truthy(Or(src.configBase, src.envBase))
    ensures !EndsWith(GetApiBase(None, src).0, "/")
  {
  }

  /** Once an address is resolved, every later call answers it, whatever the
      sources say then. */
  lemma CacheSticks(src1: Sources, src2: Sources)
    requires GetApiBase(None, src1).0 != ""
    ensures var first := GetApiBase(None, src1);
      GetApiBase(first.1, src2) == first
  {
  }

  /** On Android no source-derived host is a loopback name: the bundle's and
      the development server's hosts are rewritten. */
  lemma AndroidAvoidsLoopback(src: Sources)
    requires src.platform == Android
    ensures FromScriptURL(src).Some? ==> !Loopback(FromScriptURL(src).value)
    ensures FromExpoConstants(src).Some? ==> !Loopback(FromExpoConstants(src).value)
  {
  }
}

=== FILE: calendar.dfy ===
/** Proleptic Gregorian calendar arithmetic standing in for JavaScript `Date`
    in UTC: a date is a (year, month, day) triple, and day numbers count days
    from 0001-01-01 (day 0, a Monday). */
module Calendar {
  import opened Text

  datatype Date = Date(year: int, month: int, day: int)

  predicate IsLeap(y: int) {
    (y % 4 == 0 && y % 100 != 0) || y % 400 == 0
  }

  function DaysInMonth(y: int, m: int): int
    requires 1 <= m <= 12
  {
    if m == 2 then (if IsLeap(y) then 29 else 28)
    else if m == 4 || m == 6 || m == 9 || m == 11 then 30
    else 31
  }

  predicate ValidDate(d: Date) {
    1 <= d.month <= 12 && 1 <= d.day <= DaysInMonth(d.year, d.month)
  }

  function YearLength(y: int): int {
    if IsLeap(y) then 366 else 365
  }

  /** Day number of January 1st of year y. */
  function Jan1(y: int): int {
    var k := y - 1;
    365 * k + k / 4 - k / 100 + k / 400
  }

  /** Consecutive New Year's days are one year length apart. */
  lemma YearLengthStep(y: int)
    ensures Jan1(y + 1) == Jan1(y) + YearLength(y)
  {
    var k := y - 1;
    Step4(k);
    Step100(k);
    Step400(k);
  }

  lemma Step4(k: int)
    ensures (k + 1) / 4 == k / 4 + (if (k + 1) % 4 == 0 then 1 else 0)
  {
  }

  lemma Step100(k: int)
    ensures (k + 1) / 100 == k / 100 + (if (k + 1) % 100 == 0 then 1 else 0)
  {
  }

  lemma Step400(k: int)
    ensures (k + 1) / 400 == k / 400 + (if (k + 1) % 400 == 0 then 1 else 0)
  {
  }

  /** Later years start later, at least 365 days per year. */
  lemma {:induction false} Jan1Monotone(y1: int, y2: int)
    requires y1 < y2
    ensures Jan1(y1) + 365 * (y2 - y1) <= Jan1(y2)
    decreases y2 - y1
  {
    YearLengthStep(y2 - 1);
    if y1 < y2 - 1 {
      Jan1Monotone(y1, y2 - 1);
    }
  }

  /** Days of year y before the first day of month m (m = 13: the whole year). */
  function DaysBeforeMonth(y: int, m: int): int
    requires 1 <= m <= 13
    decreases m
  {
    if m == 1 then 0 else DaysBeforeMonth(y, m - 1) + DaysInMonth(y, m - 1)
  }

  lemma WholeYear(y: int)
    ensures DaysBeforeMonth(y, 13) == YearLength(y)
  {
  }

  lemma {:induction false} DaysBeforeMonthMonotone(y: int, m1: int, m2: int)
    requires 1 <= m1 <= m2 <= 13
    ensures DaysBeforeMonth(y, m1) <= DaysBeforeMonth(y, m2)
    decreases m2 - m1
  {
    if m1 < m2 {
      DaysBeforeMonthMonotone(y, m1, m2 - 1);
    }
  }

  /** Day number of a date: days since 0001-01-01. */
  function DayNumber(d: Date): int
    requires 1 <= d.month <= 12
  {
    Jan1(d.year) + DaysBeforeMonth(d.year, d.month) + d.day - 1
  }

  /** A valid date lies within its own year. */
  lemma DayInYear(d: Date)
    requires ValidDate(d)
    ensures Jan1(d.year) <= DayNumber(d) < Jan1(d.year + 1)
    ensures DayNumber(d) + 1 == Jan1(d.year + 1) <==> (d.month == 12 && d.day == 31)
  {
    DaysBeforeMonthMonotone(d.year, d.month + 1, 13);
    WholeYear(d.year);
    YearLengthStep(d.year);
    if d.month < 12 {
      DaysBeforeMonthMonotone(d.year, d.month + 1, 12);
      assert DaysBeforeMonth(d.year, 13) == DaysBeforeMonth(d.year, 12) + 31;
    }
  }

  lemma EarlierYearEarlierDay(a: Date, b: Date)
    requires ValidDate(a) && ValidDate(b) && a.year < b.year
    ensures DayNumber(a) < DayNumber(b)
  {
    DayInYear(a);
    DayInYear(b);
    if a.year + 1 < b.year {
      Jan1Monotone(a.year + 1, b.year);
    }
  }

  lemma EarlierMonthEarlierDay(a: Date, b: Date)
    requires ValidDate(a) && ValidDate(b) && a.year == b.year && a.month < b.month
    ensures DayNumber(a) < DayNumber(b)
  {
    DaysBeforeMonthMonotone(a.year, a.month + 1, b.month);
    assert DaysBeforeMonth(a.year, a.month + 1) == DaysBeforeMonth(a.year, a.month) + DaysInMonth(a.year, a.month);
  }

  /** Day numbers order valid dates as (year, month, day) tuples do. */
  lemma DayNumberOrder(a: Date, b: Date)
    requires ValidDate(a) && ValidDate(b)
    ensures DayNumber(a) < DayNumber(b) <==> TupleLess(a, b)
  {
    if a.year < b.year {
      EarlierYearEarlierDay(a, b);
    } else if b.year < a.year {
      EarlierYearEarlierDay(b, a);
    } else if a.month < b.month {
      EarlierMonthEarlierDay(a, b);
    } else if b.month < a.month {
      EarlierMonthEarlierDay(b, a);
    }
  }

  /** Distinct valid dates have distinct day numbers. */
  lemma DayNumberInjective(a: Date, b: Date)
    requires ValidDate(a) && ValidDate(b) && DayNumber(a) == DayNumber(b)
    ensures a == b
  {
    DayNumberOrder(a, b);
    DayNumberOrder(b, a);
  }

  /** The year containing day t, searched from the guess y. */
  function YearFrom(t: int, y: int): (r: int)
    ensures Jan1(r) <= t < Jan1(r + 1)
    decreases (if t < Jan1(y) then Jan1(y) - t else 0), (if t >= Jan1(y + 1) then t - Jan1(y + 1) + 1 else 0)
  {
    YearLengthStep(y - 1);
    YearLengthStep(y);
    YearLengthStep(y + 1);
    if t < Jan1(y) then YearFrom(t, y - 1)
    else if t >= Jan1(y + 1) then YearFrom(t, y + 1)
    else y
  }

  /** `getUTCFullYear()` of the day with number t. */
  function YearOfDay(t: int): int {
    YearFrom(t, 1)
  }

  /** Exactly one year contains any given day. */
  lemma YearUnique(t: int, y: int)
    requires Jan1(y) <= t < Jan1(y + 1)
    ensures YearOfDay(t) == y
  {
    var r := YearOfDay(t);
    if r < y {
      if r + 1 < y { Jan1Monotone(r + 1, y); }
    } else if y < r {
      if y + 1 < r { Jan1Monotone(y + 1, r); }
    }
  }

  /** `getUTCDay()` of day t: 0 is Sunday. Day 0 is a Monday. */
  function UtcDay(t: int): int {
    (t + 1) % 7
  }

  /** The application's weekday index `(getUTCDay() + 6) % 7`: Monday is 0. */
  function MondayIndex(t: int): (i: int)
    ensures 0 <= i < 7
    ensures i == t % 7
  {
    (UtcDay(t) + 6) % 7
  }

  /** Text of a date in the store's and the calendar widget's `YYYY-MM-DD` form. */
  function IsoText(d: Date): string
    requires d.year >= 0 && d.month >= 0 && d.day >= 0
  {
    Pad4(d.year) + "-" + Pad2(d.month) + "-" + Pad2(d.day)
  }

  /** Dates with four-digit years: `IsoText` pieces. */
  predicate FourDigitYear(d: Date) {
    0 <= d.year <= 9999
  }

  /** Different dates have different texts. */
  lemma IsoTextInjective(a: Date, b: Date)
    requires 0 <= a.year <= 9999 && 0 <= a.month < 100 && 0 <= a.day < 100
    requires 0 <= b.year <= 9999 && 0 <= b.month < 100 && 0 <= b.day < 100
    requires IsoText(a) == IsoText(b)
    ensures a == b
  {
    Pad4Facts(a.year);
    Pad4Facts(b.year);
    Pad2Facts(a.month);
    Pad2Facts(b.month);
    DashPieces(Pad4(a.year), Pad2(a.month), Pad2(a.day));
    DashPieces(Pad4(b.year), Pad2(b.month), Pad2(b.day));
    Pad2Facts(a.day);
    Pad2Facts(b.day);
  }

  /** The three pieces of a `YYYY-MM-…` text. */
  lemma DashPieces(x: string, y: string, z: string)
    requires |x| == 4 && |y| == 2
    ensures var s := x + "-" + y + "-" + z; s[..4] == x && s[5..7] == y && s[8..] == z
  {
  }

  /** Dates ordered as (year, month, day) tuples. */
  predicate TupleLess(a: Date, b: Date) {
    a.year < b.year
    || (a.year == b.year && a.month < b.month)
    || (a.year == b.year && a.month == b.month && a.day < b.day)
  }

  /** Comparing ISO texts compares the (year, month, day) tuples. */
  lemma IsoTextTupleOrder(a: Date, b: Date)
    requires 0 <= a.year <= 9999 && 0 <= a.month < 100 && 0 <= a.day < 100
    requires 0 <= b.year <= 9999 && 0 <= b.month < 100 && 0 <= b.day < 100
    ensures LexLess(IsoText(a), IsoText(b)) <==> TupleLess(a, b)
  {
    Pad4Facts(a.year);
    Pad4Facts(b.year);
    Pad2Facts(a.month);
    Pad2Facts(b.month);
    Pad2Facts(a.day);
    Pad2Facts(b.day);
    var ra := Pad2(a.month) + "-" + Pad2(a.day);
    var rb := Pad2(b.month) + "-" + Pad2(b.day);
    assert IsoText(a) == Pad4(a.year) + "-" + ra;
    assert IsoText(b) == Pad4(b.year) + "-" + rb;
    LexDigitsThen(Pad4(a.year), "-", ra, Pad4(b.year), rb);
    LexDigitsThen(Pad2(a.month), "-", Pad2(a.day), Pad2(b.month), Pad2(b.day));
    LexDigits(Pad2(a.day), Pad2(b.day));
  }

  /** For zero-padded ISO dates, comparing the texts compares the dates. */
  lemma IsoTextOrder(a: Date, b: Date)
    requires ValidDate(a) && ValidDate(b) && FourDigitYear(a) && FourDigitYear(b)
    ensures LexLess(IsoText(a), IsoText(b)) <==> DayNumber(a) < DayNumber(b)
  {
    DayNumberOrder(a, b);
    IsoTextTupleOrder(a, b);
  }
}

=== FILE: edit_profile.dfy ===
/** The profile editor's date helpers: the `DD/MM/AAAA` input mask, the
    conversions between the stored `YYYY-MM-DD` and the displayed
    `DD/MM/YYYY`, and the update object the save button sends. */
module EditProfile {
  import opened Wrappers
  import opened Text
  import UserController

  /** `value.replace(/\D/g, "")`: the ASCII digits of `s`, in order. */
  function Digits(s: string): (r: string)
    ensures AllDigits(r) && |r| <= |s|
  {
    if |s| == 0 then ""
    else if IsDigit(s[0]) then [s[0]] + Digits(s[1..])
    else Digits(s[1..])
  }

  lemma {:induction false} DigitsConcat(a: string, b: string)
    ensures Digits(a + b) == Digits(a) + Digits(b)
    decreases |a|
  {
    if |a| == 0 {
      assert a + b == b;
    } else {
      assert (a + b)[0] == a[0] && (a + b)[1..] == a[1..] + b;
      DigitsConcat(a[1..], b);
      if IsDigit(a[0]) {
        assert Digits(a + b) == [a[0]] + (Digits(a[1..]) + Digits(b));
      }
    }
  }

  lemma {:induction false} DigitsOfDigits(s: string)
    requires AllDigits(s)
    ensures Digits(s) == s
    decreases |s|
  {
    if |s| > 0 {
      DigitsOfDigits(s[1..]);
    }
  }

  /** `.slice(0, 8)`. */
  function First8(s: string): (r: string)
    ensures |r| <= 8
  {
    if |s| <= 8 then s else s[..8]
  }

  /** The layout of up to eight digits: a `/` after the second and after the
      fourth when more follow. */
  function Masked(d: string): (r: string)
    ensures |r| <= |d| + 2
    ensures AllDigits(d) ==> forall i :: 0 <= i < |r| ==> IsDigit(r[i]) || r[i] == '/'
  {
    if |d| <= 2 then d
    else if |d| <= 4 then d[..2] + "/" + d[2..]
    else d[..2] + "/" + d[2..4] + "/" + d[4..]
  }

  /** `maskDate`: the first eight digits typed, laid out as `DD/MM/YYYY`. */
  function MaskDate(value: string): (r: string)
    ensures |r| <= 10
    ensures value == "" ==> r == ""
    ensures forall i :: 0 <= i < |r| ==> IsDigit(r[i]) || r[i] == '/'
  {
    if value == "" then "" else Masked(First8(Digits(value)))
  }

  /** The layout adds nothing but slashes. */
  lemma MaskedDigits(d: string)
    requires AllDigits(d)
    ensures Digits(Masked(d)) == d
  {
    if |d| <= 2 {
      DigitsOfDigits(d);
    } else if |d| <= 4 {
      var a, b := d[..2], d[2..];
      DigitsSlash(a, b);
      DigitsOfDigits(a);
      DigitsOfDigits(b);
      assert a + b == d;
    } else {
      var a, b, c := d[..2], d[2..4], d[4..];
      DigitsTwoSlashes(a, b, c);
      assert a + b + c == d;
    }
  }

  /** Digit texts joined by two slashes give back their concatenation. */
  lemma DigitsTwoSlashes(a: string, b: string, c: string)
    requires AllDigits(a) && AllDigits(b) && AllDigits(c)
    ensures Digits(a + "/" + b + "/" + c) == a + b + c
  {
    var ab := a + "/" + b;
    DigitsSlash(ab, c);
    DigitsSlash(a, b);
    DigitsOfDigits(a);
    DigitsOfDigits(b);
    DigitsOfDigits(c);
  }

  /** A slash between two texts drops out of their digits. */
  lemma DigitsSlash(a: string, b: string)
    ensures Digits(a + "/" + b) == Digits(a) + Digits(b)
  {
    assert a + "/" + b == a + ("/" + b);
    DigitsConcat(a, "/" + b);
    assert ("/" + b)[0] == '/' && ("/" + b)[1..] == b;
  }

  /** Where the slashes go. */
  lemma MaskedSlashes(d: string)
    requires AllDigits(d)
    ensures forall i :: 0 <= i < |Masked(d)| ==>
      (Masked(d)[i] == '/' <==> (i == 2 && |d| > 2) || (i == 5 && |d| > 4))
  {
  }

  /** The mask keeps exactly the first eight digits typed, and puts a slash at
      index 2 once a third digit is typed and at index 5 once a fifth is. */
  lemma MaskDateSpec(value: string)
    ensures var d := First8(Digits(value));
      && Digits(MaskDate(value)) == d
      && (forall i :: 0 <= i < |MaskDate(value)| ==>
            (MaskDate(value)[i] == '/' <==> (i == 2 && |d| > 2) || (i == 5 && |d| > 4)))
  {
    var d := First8(Digits(value));
    if value != "" {
      MaskedDigits(d);
      MaskedSlashes(d);
    }
  }

  /** Masking a masked value changes nothing. */
  lemma MaskDateIdempotent(value: string)
    ensures MaskDate(MaskDate(value)) == MaskDate(value)
  {
    var r := MaskDate(value);
    MaskDateSpec(value);
    var d := First8(Digits(value));
    if r != "" {
      assert Digits(r) == d && First8(d) == d;
    }
  }

  /** Eight digits typed give the full `DD/MM/YYYY`. */
  lemma MaskEightDigits(d: string)
    requires |d| == 8 && AllDigits(d)
    ensures MaskDate(d) == d[..2] + "/" + d[2..4] + "/" + d[4..]
  {
    DigitsOfDigits(d);
  }

  /** `formatToInput`: `Y-M-D` to `DD/MM/Y`; None where the code throws
      (fewer than three parts), and extra parts are ignored. */
  function FormatToInput(s: string): (r: Option<string>)
    ensures s == "" ==> r == Some("")
    ensures s != "" ==> (r.Some? <==> |Split(s, '-')| >= 3)
  {
    if s == "" then Some("")
    else
      var parts := Split(s, '-');
      if |parts| < 3 then None
      else Some(PadStart(parts[2], 2, '0') + "/" + PadStart(parts[1], 2, '0') + "/" + parts[0])
  }

  /** `formatToApi`: `D/M/Y` to `Y-MM-DD`; None where the code throws (no
      `/` at all), and a missing year prints as "undefined". */
  function FormatToApi(s: string): (r: Option<string>)
    ensures s == "" ==> r == Some("")
    ensures s != "" ==> (r.Some? <==> |Split(s, '/')| >= 2)
  {
    if s == "" then Some("")
    else
      var parts := Split(s, '/');
      if |parts| < 2 then None
      else
        var year := if |parts| >= 3 then parts[2] else "undefined";
        Some(year + "-" + PadStart(parts[1], 2, '0') + "-" + PadStart(parts[0], 2, '0'))
  }

  /** A part that cannot hold either separator. */
  predicate Field(s: string) {
    '-' !in s && '/' !in s
  }

  /** Padding a part of two or more characters changes nothing. */
  lemma PadLong(s: string)
    requires |s| >= 2
    ensures PadStart(s, 2, '0') == s
  {
  }

  /** From the stored form to the input and back. */
  lemma ApiInputRoundTrip(y: string, m: string, d: string)
    requires Field(y) && Field(m) && Field(d) && |y| > 0 && |m| >= 2 && |d| >= 2
    ensures FormatToInput(y + "-" + m + "-" + d) == Some(d + "/" + m + "/" + y)
    ensures FormatToApi(d + "/" + m + "/" + y) == Some(y + "-" + m + "-" + d)
  {
    Split3(y, m, d, '-');
    Split3(d, m, y, '/');
  }

  /** `formatToApi(formatToInput(s)) == s` for a stored date with two-digit
      month and day. */
  lemma ApiThenInputThenApi(y: string, m: string, d: string)
    requires Field(y) && Field(m) && Field(d) && |y| > 0 && |m| >= 2 && |d| >= 2
    ensures var shown := FormatToInput(y + "-" + m + "-" + d);
      shown.Some? && FormatToApi(shown.value) == Some(y + "-" + m + "-" + d)
  {
    ApiInputRoundTrip(y, m, d);
  }

  /** `formatToInput(formatToApi(t)) == t` for a displayed date with two-digit
      day and month. */
  lemma InputThenApiThenInput(d: string, m: string, y: string)
    requires Field(y) && Field(m) && Field(d) && |y| > 0 && |m| >= 2 && |d| >= 2
    ensures var sent := FormatToApi(d + "/" + m + "/" + y);
      sent.Some? && FormatToInput(sent.value) == Some(d + "/" + m + "/" + y)
  {
    ApiInputRoundTrip(y, m, d);
  }

  /** A single-digit day and month are zero-padded on display. */
  lemma FormatToInputPads(y: string, m: char, d: char)
    requires Field(y) && Field([m]) && Field([d])
    ensures FormatToInput(y + "-" + [m] + "-" + [d]) == Some(['0', d] + "/" + ['0', m] + "/" + y)
  {
    Split3(y, [m], [d], '-');
    assert y + "-" + [m] + "-" + [d] == y + ['-'] + [m] + ['-'] + [d];
    assert Repeat('0', 1) == ['0'];
    assert PadStart([m], 2, '0') == ['0', m] && PadStart([d], 2, '0') == ['0', d];
  }

  /** A single-digit day and month are zero-padded on the way to the server,
      as for a partly typed date. */
  lemma FormatToApiPads(d: char, m: char, y: string)
    requires Field([d]) && Field([m]) && Field(y)
    ensures FormatToApi([d] + "/" + [m] + "/" + y) == Some(y + "-" + ['0', m] + "-" + ['0', d])
  {
    Split3([d], [m], y, '/');
    assert [d] + "/" + [m] + "/" + y == [d] + ['/'] + [m] + ['/'] + y;
    assert Repeat('0', 1) == ['0'];
    assert PadStart([m], 2, '0') == ['0', m] && PadStart([d], 2, '0') == ['0', d];
  }

  /** The body of the save request: the fields that are non-empty, the date
      converted for the server. */
  datatype ProfileUpdate = ProfileUpdate(nome: Option<string>, email: Option<string>, data_nascimento: Option<string>)

  /** `handleSave` up to the request: the body sent, or None when
      `formatToApi` throws, which ends in the connection-error alert and no
      request. */
  function HandleSave(nome: string, email: string, dob: string): (r: Option<ProfileUpdate>)
    ensures r.None? <==> dob != "" && FormatToApi(dob).None?
    ensures r.Some? ==> (r.value.nome.Some? <==> nome != "") && (r.value.nome.Some? ==> r.value.nome.value == nome)
    ensures r.Some? ==> (r.value.email.Some? <==> email != "") && (r.value.email.Some? ==> r.value.email.value == email)
    ensures r.Some? ==> (r.value.data_nascimento.Some? <==> dob != "")
    ensures r.Some? && dob != "" ==> r.value.data_nascimento == FormatToApi(dob)
  {
    if dob != "" && FormatToApi(dob).None? then None
    else
      Some(ProfileUpdate(if nome != "" then Some(nome) else None,
                         if email != "" then Some(email) else None,
                         if dob != "" then FormatToApi(dob) else None))
  }

  /** A birth date typed in full through the mask reaches the server as
      `YYYY-MM-DD`, which the server's `normalizeDate` stores unchanged. */
  lemma MaskedDateAccepted(digits: string, nome: string, email: string)
    requires |digits| == 8 && AllDigits(digits)
    ensures var body := HandleSave(nome, email, MaskDate(digits));
      && body.Some? && body.value.data_nascimento == Some(digits[4..] + "-" + digits[2..4] + "-" + digits[..2])
      && UserController.Fits(body.value.data_nascimento.value, UserController.ISO_SHAPE)
      && UserController.NormalizeDate(body.value.data_nascimento, None) == body.value.data_nascimento
  {
    MaskEightDigits(digits);
    var dd, mm, yy := digits[..2], digits[2..4], digits[4..];
    assert AllDigits(dd) && AllDigits(mm) && AllDigits(yy);
    assert Field(dd) && Field(mm) && Field(yy) by {
      assert !IsDigit('-') && !IsDigit('/');
    }
    ApiInputRoundTrip(yy, mm, dd);
    var iso := yy + "-" + mm + "-" + dd;
    UserController.IsoFits(yy, mm, dd);
    UserController.IsoShapeTrimmed(iso);
  }
}

=== FILE: home_screen.dfy ===
/** The home screen's reading of the user's punches: today's record, the
    status line, which punch the button sends next, the justification link
    and the upload form of the day dialog. */
module HomeScreen {
  import opened Wrappers
  import opened Text
  import opened Calendar
  import opened PontoRows

  /** A punch as the list endpoint sends it: the date as `YYYY-MM-DD` text. */
  datatype Registro = Registro(
    id_ponto: nat,
    data_registro: string,
    hora_entrada: Option<string>,
    hora_saida: Option<string>,
    justificativa: Option<string>)

  /** The JSON form of a stored row. */
  function Seen(p: PunchRow): Registro {
    var d := p.data_registro;
    Registro(p.id_ponto, if d.year >= 0 && d.month >= 0 && d.day >= 0 then IsoText(d) else "",
             p.hora_entrada, p.hora_saida, p.justificativa)
  }

  /** `registros.find((r) => r.data_registro === hoje)`, as an index. */
  function FindToday(regs: seq<Registro>, hoje: string): (r: Option<nat>)
    ensures r.Some? ==> r.value < |regs| && regs[r.value].data_registro == hoje
    ensures r.Some? ==> forall k :: 0 <= k < r.value ==> regs[k].data_registro != hoje
    ensures r.None? ==> forall k :: 0 <= k < |regs| ==> regs[k].data_registro != hoje
  {
    if |regs| == 0 then None
    else if regs[0].data_registro == hoje then Some(0)
    else match FindToday(regs[1..], hoje)
      case None => None
      case Some(k) => Some(k + 1)
  }

  const WAITING: string := "Aguardando ponto de entrada"
  const PENDING: string := "Ponto de saída pendente"
  const DONE: string := "Jornada diária registrada"

  /** `statusHoje`. */
  function StatusHoje(regs: seq<Registro>, hoje: string): string {
    match FindToday(regs, hoje)
    case None => WAITING
    case Some(k) => if Truthy(regs[k].hora_entrada) && Truthy(regs[k].hora_saida) then DONE else PENDING
  }

  datatype Punch = Entrada | Saida

  /** `proximoTipo`: None stands for `null`, and hides the punch button. */
  function ProximoTipo(regs: seq<Registro>, hoje: string): Option<Punch> {
    match FindToday(regs, hoje)
    case None => Some(Entrada)
    case Some(k) => if !Truthy(regs[k].hora_saida) then Some(Saida) else None
  }

  /** The status line and the button tell the same story: waiting exactly
      when the next punch is the entry, and a finished day shows no button. */
  lemma StatusMatchesButton(regs: seq<Registro>, hoje: string)
    ensures StatusHoje(regs, hoje) == WAITING <==> ProximoTipo(regs, hoje) == Some(Entrada)
    ensures StatusHoje(regs, hoje) == DONE ==> ProximoTipo(regs, hoje).None?
    ensures ProximoTipo(regs, hoje) == Some(Saida) ==> StatusHoje(regs, hoje) == PENDING
  {
  }

  // ---------------------------------------------------------------------------
  // The screen after a punch
  // ---------------------------------------------------------------------------

  /** `regs` lists exactly the user's rows of `table`, in some order: entry
      k of the listing is row `at[k]` of the table. */
  predicate Listed(regs: seq<Registro>, table: seq<PunchRow>, user: string, at: seq<nat>) {
    && |at| == |regs|
    && (forall k :: 0 <= k < |regs| ==>
          at[k] < |table| && table[at[k]].id_usuario == user && regs[k] == Seen(table[at[k]]))
    && (forall i :: 0 <= i < |table| && table[i].id_usuario == user ==> i in at)
  }

  /** Stored dates are in the range where the text decides the date. */
  lemma StoredRange(a: Date)
    requires StoredDate(a)
    ensures 0 <= a.year <= 9999 && 0 <= a.month < 100 && 0 <= a.day < 100
  {
  }

  /** Whichever entry of a listing is dated today, it shows a stored row of
      the user dated today. */
  lemma TodayRowOf(regs: seq<Registro>, table: seq<PunchRow>, user: string, at: seq<nat>, today: Date, k: nat)
    requires StoredRows(table) && StoredDate(today) && Listed(regs, table, user, at)
    requires k < |regs| && regs[k].data_registro == IsoText(today)
    ensures at[k] < |table| && TodayOf(table[at[k]], user, today) && regs[k] == Seen(table[at[k]])
  {
    var d := table[at[k]].data_registro;
    StoredRange(d);
    StoredRange(today);
    IsoTextInjective(d, today);
  }

  /** After the first entry of the day the screen offers the exit punch and
      says the exit is pending, however the list is ordered. `today` is both
      the server's `getLocalDateISO` date of the punch and the client's
      `hoje`: the two clocks are taken to agree on the day. */
  lemma AfterEntrada(table: seq<PunchRow>, user: string, today: Date, hora: string, newId: nat,
                     regs: seq<Registro>, at: seq<nat>)
    requires StoredRows(table) && StoredDate(today) && |hora| > 0
    requires forall i :: 0 <= i < |table| ==> !TodayOf(table[i], user, today)
    requires Listed(regs, RegistrarEntrada(table, user, today, hora, newId, None).table, user, at)
    ensures ProximoTipo(regs, IsoText(today)) == Some(Saida)
    ensures StatusHoje(regs, IsoText(today)) == PENDING
  {
    var t2 := RegistrarEntrada(table, user, today, hora, newId, None).table;
    assert forall i :: 0 <= i < |table| ==> t2[i] == table[i];
    assert StoredRows(t2);
    assert |table| in at;
    var k :| 0 <= k < |at| && at[k] == |table|;
    StoredRange(today);
    assert regs[k].data_registro == IsoText(today);
    var f := FindToday(regs, IsoText(today));
    TodayRowOf(regs, t2, user, at, today, f.value);
  }

  /** After the exit punch the button disappears, and the day reads as
      finished when an entry was recorded on the row shown. `today` is both
      the server's `getLocalDateISO` date of the punch and the client's
      `hoje`: the two clocks are taken to agree on the day. */
  lemma AfterSaida(table: seq<PunchRow>, user: string, today: Date, hora: string, regs: seq<Registro>, at: seq<nat>)
    requires StoredRows(table) && StoredDate(today) && |hora| > 0
    requires Listed(regs, RegistrarSaida(table, user, today, hora, None).table, user, at)
    requires FindToday(regs, IsoText(today)).Some?
    ensures ProximoTipo(regs, IsoText(today)).None?
    ensures StatusHoje(regs, IsoText(today)) == DONE
        <==> Truthy(regs[FindToday(regs, IsoText(today)).value].hora_entrada)
  {
    var t2 := RegistrarSaida(table, user, today, hora, None).table;
    assert StoredRows(t2) by {
      assert forall i :: 0 <= i < |t2| ==> t2[i].data_registro == table[i].data_registro;
    }
    var k := FindToday(regs, IsoText(today)).value;
    TodayRowOf(regs, t2, user, at, today, k);
    var i := at[k];
    assert t2[i].id_usuario == table[i].id_usuario && t2[i].data_registro == table[i].data_registro;
  }

  // ---------------------------------------------------------------------------
  // The day dialog
  // ---------------------------------------------------------------------------

  /** How a justification is shown. */
  datatype JustView = Link(url: string) | Note(text: string) | NoJust

  /** A justification starting with "http" opens as a link, any other
      non-empty one is shown as text. */
  function ShowJustificativa(j: Option<string>): (v: JustView)
    ensures v.Link? <==> Truthy(j) && StartsWith(j.value, "http")
    ensures v.Note? <==> Truthy(j) && !StartsWith(j.value, "http")
    ensures v.Link? ==> v.url == j.value
    ensures v.Note? ==> v.text == j.value
  {
    if Truthy(j) && StartsWith(j.value, "http") then Link(j.value)
    else if Truthy(j) then Note(j.value)
    else NoJust
  }

  /** The upload form's key field. */
  datatype KeyField = IdField(id: nat) | DateField(date: string)

  /** `enviarArquivo` up to the request: None (the "choose a file" alert, no
      request) without a file; otherwise the id when it is truthy, which 0 is
      not, else the day's date. */
  function EnviarArquivo(day: Registro, hasFile: bool): (r: Option<KeyField>)
    ensures r.None? <==> !hasFile
    ensures r.Some? && day.id_ponto != 0 ==> r.value == IdField(day.id_ponto)
    ensures r.Some? && day.id_ponto == 0 ==> r.value == DateField(day.data_registro)
  {
    if !hasFile then None
    else if day.id_ponto != 0 then Some(IdField(day.id_ponto))
    else Some(DateField(day.data_registro))
  }

  /** The form the server reads: the id for a non-zero id, else the date. */
  function ServerRequest(p: PunchRow, user: string, f: KeyField): UploadRequest {
    match f
    case IdField(id) => UploadRequest(user, Some(id), None, true)
    case DateField(_) => UploadRequest(user, None, Some(p.data_registro), true)
  }

  /** A file sent from the dialog of one of the user's rows lands on that row,
      and the row then shows the stored address as a link when it is a web
      address. */
  lemma UploadShowsLink(table: seq<PunchRow>, i: nat, user: string, url: string)
    requires i < |table| && table[i].id_usuario == user
    requires StartsWith(url, "http")
    ensures var f := EnviarArquivo(Seen(table[i]), true).value;
      var r := UploadJustificativa(table, ServerRequest(table[i], user, f), Success(url), None);
      r.0 == Uploaded(url) && ShowJustificativa(Seen(r.1[i]).justificativa) == Link(url)
  {
    var f := EnviarArquivo(Seen(table[i]), true).value;
    var req := ServerRequest(table[i], user, f);
    assert Addressed(table[i], user, TargetOf(req).value);
  }
}

=== FILE: http.dfy ===
/** The JSON replies of the Express controllers: a status code, the message
    and, on some replies, a payload. */
module Http {
  import opened Wrappers

  datatype Response<T> = Response(status: int, message: string, data: Option<T>)

  /** A reply without payload. */
  function Plain<T>(status: int, message: string): Response<T> {
    Response(status, message, None)
  }
}

=== FILE: legacy_user_controller.dfy ===
/** The older account controller kept in the nested backend tree: sign-up
    without field validation and an update that forwards every truthy field
    as given. Its lookup and login replies are those of the current
    controller. */
module LegacyUserController {
  import opened Wrappers
  import opened Text
  import opened Calendar
  import opened Users
  import opened UserService
  import opened Http
  import UserController

  /** `createUser` of the older tree: the body goes to the service with
      `password || senha_hash`, whatever is missing; 201 with the created row
      or 400 with the service's message. */
  function CreateUser(t: seq<User>, nome: Option<string>, email: Option<string>, password: Option<string>,
                      senha_hash: Option<string>, lookupError: Option<string>, insertError: Option<string>,
                      newId: nat): (r: (Response<User>, seq<User>))
    ensures var s := UserService.CreateUser(t, NewUser(nome, email, Or(password, senha_hash), None), lookupError, insertError, newId);
      && r.1 == s.1
      && (r.0.status == 201 <==> s.0.success)
      && (s.0.success ==> r.0.data == s.0.user)
      && (!s.0.success ==> r.0 == Plain(400, s.0.message))
  {
    var s := UserService.CreateUser(t, NewUser(nome, email, Or(password, senha_hash), None), lookupError, insertError, newId);
    if s.0.success then (Response(201, s.0.message, s.0.user), s.1)
    else (Plain(400, s.0.message), s.1)
  }

  /** Without validation, a body with no name, email or password still
      creates a row, in an empty table. */
  lemma AcceptsEmptyBody(newId: nat)
    ensures var r := CreateUser([], None, None, None, None, None, None, newId);
      r.0.status == 201 && r.1 == [User(newId, None, None, None, None, None, None)]
  {
  }

  /** On a complete body without a birth date the older and the current
      sign-up give the same reply and the same table. */
  lemma CreateUserAsCurrent(t: seq<User>, b: UserController.SignUpBody, lookupError: Option<string>,
                            insertError: Option<string>, newId: nat)
    requires UserController.SignUpComplete(b) && !Truthy(b.data_nascimento)
    ensures CreateUser(t, b.nome, b.email, b.password, b.senha_hash, lookupError, insertError, newId)
         == UserController.CreateUserAsWritten(t, b, None, lookupError, insertError, newId)
  {
  }

  /** The `updates` of the older tree: each truthy field, as given. */
  function UpdatesOf(nome: Option<string>, email: Option<string>, dob: Option<string>): (u: UserController.Updates)
    ensures u.nome.Some? <==> Truthy(nome)
    ensures u.email.Some? <==> Truthy(email)
    ensures u.data_nascimento.Some? <==> Truthy(dob)
    ensures u.data_nascimento.Some? ==> u.data_nascimento.value == dob
  {
    UserController.Updates(if Truthy(nome) then nome else None, if Truthy(email) then email else None,
                           if Truthy(dob) then Some(dob) else None)
  }

  /** `updateUser` of the older tree: 400 when no field is truthy, else the
      service's data with 200 or its message with 400. */
  function UpdateUser(nome: Option<string>, email: Option<string>, dob: Option<string>,
                      service: UserController.UpdateServiceReply): (r: (Response<string>, Option<UserController.Updates>))
    ensures !Truthy(nome) && !Truthy(email) && !Truthy(dob) ==> r == (Plain(400, "Nenhum dado para atualizar."), None)
    ensures Truthy(nome) || Truthy(email) || Truthy(dob) ==>
      && r.1 == Some(UpdatesOf(nome, email, dob))
      && (r.0.status == 200 <==> service.success)
      && (service.success ==> r.0.data == service.data)
      && (!service.success ==> r.0 == Plain(400, service.message))
  {
    var u := UpdatesOf(nome, email, dob);
    if UserController.NoUpdates(u) then (Plain(400, "Nenhum dado para atualizar."), None)
    else if service.success then (Response(200, "", service.data), Some(u))
    else (Plain(400, service.message), Some(u))
  }

  /** For a birth date already in `YYYY-MM-DD`, the older and the current
      update send the same fields and give the same reply. */
  lemma UpdateAgreesOnIsoDates(nome: Option<string>, email: Option<string>, dob: string, parsed: Option<Date>,
                               service: UserController.UpdateServiceReply)
    requires parsed.Some? ==> ValidDate(parsed.value)
    requires UserController.Fits(dob, UserController.ISO_SHAPE)
    ensures UpdateUser(nome, email, Some(dob), service)
         == UserController.UpdateUser(nome, email, UserController.Text(dob), parsed, service)
  {
    UserController.IsoShapeTrimmed(dob);
    assert UserController.ISO_SHAPE[0] == '#';
  }

  /** A day-first birth date is stored as typed by the older update and
      reordered by the current one. */
  lemma UpdateReordersDayFirst(dob: string, parsed: Option<Date>, service: UserController.UpdateServiceReply)
    requires parsed.Some? ==> ValidDate(parsed.value)
    requires UserController.Fits(dob, UserController.SLASH_SHAPE)
    ensures UpdateUser(None, None, Some(dob), service).1 == Some(UserController.Updates(None, None, Some(Some(dob))))
    ensures UserController.UpdateUser(None, None, UserController.Text(dob), parsed, service).1
         == Some(UserController.Updates(None, None, Some(Some(UserController.YearFirst(dob)))))
  {
    assert UserController.SLASH_SHAPE[0] == '#' && UserController.SLASH_SHAPE[9] == '#';
    TrimNoop(dob);
  }
}

=== FILE: mobile_auth.dfy ===
/** The mobile app's account helpers: the local password scramble, the
    conversion of a typed `DD-MM-AAAA` birth date to `YYYY-MM-DD`, and
    registration, which converts the date before it sends anything. */
module MobileAuth {
  import opened Wrappers
  import opened Text
  import opened Users
  import opened Http
  import UserService
  import UserController

  // ---------------------------------------------------------------------------
  // simpleHash
  // ---------------------------------------------------------------------------

  /** `simpleHash`: the password reversed, followed by `|h`. */
  function SimpleHash(password: string): (h: string)
    ensures |h| == |password| + 2 && EndsWith(h, "|h")
    ensures h[..|password|] == Reverse(password)
  {
    Reverse(password) + "|h"
  }

  /** Different passwords never scramble to the same text. */
  lemma SimpleHashInjective(p: string, q: string)
    requires SimpleHash(p) == SimpleHash(q)
    ensures p == q
  {
    assert |p| == |q|;
    assert Reverse(p) == Reverse(q) by {
      assert Reverse(p) == SimpleHash(p)[..|p|];
    }
    forall i | 0 <= i < |p|
      ensures p[i] == q[i]
    {
      assert Reverse(p)[|p| - 1 - i] == p[i];
      assert Reverse(q)[|q| - 1 - i] == q[i];
    }
  }

  // ---------------------------------------------------------------------------
  // formatDate
  // ---------------------------------------------------------------------------

  const DATE_ERROR: string := "Formato de data inválido. Use DD-MM-AAAA"

  /** `formatDate`: null for an empty or absent input; otherwise the first
      three `-`-separated parts as day, month and year, written year first;
      an empty or missing part throws. */
  function FormatDate(input: Option<string>): (r: Result<Option<string>, string>)
    ensures !Truthy(input) ==> r == Success(None)
    ensures r.Failure? ==> r.error == DATE_ERROR
    ensures r.Success? && Truthy(input) ==> r.value.Some?
  {
    if !Truthy(input) then Success(None)
    else
      var parts := Split(input.value, '-');
      if |parts| < 3 || parts[0] == "" || parts[1] == "" || parts[2] == "" then Failure(DATE_ERROR)
      else Success(Some(parts[2] + "-" + parts[1] + "-" + parts[0]))
  }

  /** The parts of `a-b-c-rest`. */
  lemma SplitFour(a: string, b: string, c: string, rest: string)
    requires '-' !in a && '-' !in b && '-' !in c
    ensures Split(a + "-" + b + "-" + c + "-" + rest, '-') == [a, b, c] + Split(rest, '-')
  {
    var s3 := c + ['-'] + rest;
    var s2 := b + ['-'] + s3;
    var s1 := a + ['-'] + s2;
    SplitJoin(c, '-', rest);
    SplitJoin(b, '-', s3);
    SplitJoin(a, '-', s2);
    assert a + "-" + b + "-" + c + "-" + rest == s1;
  }

  /** `DD-MM-AAAA` becomes `AAAA-MM-DD`; anything after a third `-` is
      ignored. */
  lemma FormatDateRearranges(d: string, m: string, y: string, rest: string)
    requires d != "" && m != "" && y != ""
    requires '-' !in d && '-' !in m && '-' !in y
    ensures FormatDate(Some(d + "-" + m + "-" + y)) == Success(Some(y + "-" + m + "-" + d))
    ensures FormatDate(Some(d + "-" + m + "-" + y + "-" + rest)) == Success(Some(y + "-" + m + "-" + d))
  {
    Split3(d, m, y, '-');
    assert d + "-" + m + "-" + y == d + ['-'] + m + ['-'] + y;
    SplitFour(d, m, y, rest);
  }

  /** Three dash-free parts are accepted exactly when none is empty. */
  lemma FormatDateEmptyPart(d: string, m: string, y: string)
    requires '-' !in d && '-' !in m && '-' !in y
    ensures FormatDate(Some(d + "-" + m + "-" + y)).Failure? <==> d == "" || m == "" || y == ""
  {
    Split3(d, m, y, '-');
    assert d + "-" + m + "-" + y == d + ['-'] + m + ['-'] + y;
  }

  /** Fewer than three parts always throw. */
  lemma FormatDateMissingPart(a: string, b: string)
    requires '-' !in a && '-' !in b
    ensures a != "" ==> FormatDate(Some(a)).Failure?
    ensures FormatDate(Some(a + "-" + b)).Failure?
  {
    SplitNoSep(a, '-');
    SplitJoin(a, '-', b);
    SplitNoSep(b, '-');
  }

  // ---------------------------------------------------------------------------
  // register
  // ---------------------------------------------------------------------------

  /** The JSON body `register` posts. */
  datatype RegisterBody = RegisterBody(
    nome: Option<string>,
    email: Option<string>,
    senha_hash: Option<string>,
    data_nascimento: Option<string>)

  /** The request `register` sends, or the error it throws first: the date is
      converted before anything is sent, the username goes out as `nome` and
      the password, unscrambled, as `senha_hash`. */
  function RegisterRequest(username: Option<string>, email: Option<string>, birthDate: Option<string>,
                           password: Option<string>): (r: Result<RegisterBody, string>)
    ensures FormatDate(birthDate).Failure? ==> r == Failure(DATE_ERROR)
    ensures FormatDate(birthDate).Success? ==>
      r == Success(RegisterBody(username, email, password, FormatDate(birthDate).value))
  {
    match FormatDate(birthDate)
    case Failure(e) => Failure(e)
    case Success(date) => Success(RegisterBody(username, email, password, date))
  }

  /** How the sign-up route reads the body: no `password` field. */
  function AsSignUp(b: RegisterBody): UserController.SignUpBody {
    UserController.SignUpBody(b.nome, b.email, None, b.senha_hash, b.data_nascimento)
  }

  /** What `register` returns for the server's reply: its data when the
      status is 2xx, else an error with the reply's message or a default. */
  function RegisterReply<T>(reply: Response<T>): (r: Result<Option<T>, string>)
    ensures 200 <= reply.status < 300 <==> r.Success?
    ensures r.Success? ==> r.value == reply.data
    ensures r.Failure? ==> r.error == (if reply.message == "" then "Erro ao criar usuário" else reply.message)
  {
    if 200 <= reply.status < 300 then Success(reply.data)
    else Failure(OrElse(Some(reply.message), "Erro ao criar usuário"))
  }

  /** Registering a new email with a `DD-MM-AAAA` birth date on the sign-up
      route as written: the route accepts the request and stores the password
      as sent but no birth date, while the row `register` returns shows the
      date year first. */
  lemma RegisterThenSignUp(t: seq<User>, username: string, email: string, d: string, m: string, y: string,
                           password: string, newId: nat)
    requires username != "" && email != "" && password != ""
    requires |d| == 2 && |m| == 2 && |y| == 4 && AllDigits(d) && AllDigits(m) && AllDigits(y)
    requires forall i :: 0 <= i < |t| ==> t[i].email != Some(email)
    ensures var req := RegisterRequest(Some(username), Some(email), Some(d + "-" + m + "-" + y), Some(password));
      && req.Success?
      && var server := UserController.CreateUserAsWritten(t, AsSignUp(req.value), None, None, None, newId);
      && server.0.status == 201
      && |server.1| == |t| + 1
      && server.1[|t|].email == Some(email) && server.1[|t|].senha_hash == Some(password)
      && server.1[|t|].data_nascimento.None?
      && RegisterReply(server.0) == Success(Some(server.1[|t|].(data_nascimento := Some(y + "-" + m + "-" + d))))
  {
    var iso := SignUpRequestFits(t, username, email, d, m, y, password);
  }

  /** The same registration on the corrected sign-up route: the stored row
      holds the birth date year first, and `register` returns that row. */
  lemma RegisterThenCorrectedSignUp(t: seq<User>, username: string, email: string, d: string, m: string, y: string,
                                    password: string, newId: nat)
    requires username != "" && email != "" && password != ""
    requires |d| == 2 && |m| == 2 && |y| == 4 && AllDigits(d) && AllDigits(m) && AllDigits(y)
    requires forall i :: 0 <= i < |t| ==> t[i].email != Some(email)
    ensures var req := RegisterRequest(Some(username), Some(email), Some(d + "-" + m + "-" + y), Some(password));
      && req.Success?
      && var server := UserController.CreateUser(t, AsSignUp(req.value), None, None, None, newId);
      && server.0.status == 201
      && server.1[|t|].email == Some(email) && server.1[|t|].senha_hash == Some(password)
      && server.1[|t|].data_nascimento == Some(y + "-" + m + "-" + d)
      && RegisterReply(server.0) == Success(Some(server.1[|t|]))
  {
    var iso := SignUpRequestFits(t, username, email, d, m, y, password);
  }

  /** The request a `DD-MM-AAAA` registration sends is a complete sign-up
      whose date normalises to itself, for an e-mail the table lacks. */
  lemma SignUpRequestFits(t: seq<User>, username: string, email: string, d: string, m: string, y: string,
                          password: string) returns (iso: string)
    requires username != "" && email != "" && password != ""
    requires |d| == 2 && |m| == 2 && |y| == 4 && AllDigits(d) && AllDigits(m) && AllDigits(y)
    requires forall i :: 0 <= i < |t| ==> t[i].email != Some(email)
    ensures iso == y + "-" + m + "-" + d
    ensures RegisterRequest(Some(username), Some(email), Some(d + "-" + m + "-" + y), Some(password))
      == Success(RegisterBody(Some(username), Some(email), Some(password), Some(iso)))
    ensures var b := AsSignUp(RegisterBody(Some(username), Some(email), Some(password), Some(iso)));
      && UserController.SignUpComplete(b)
      && UserController.NormalizeDate(b.data_nascimento, None) == Some(iso)
      && UserService.FindEmail(t, UserController.SignUpDataOf(b, None).user.email).None?
      && UserController.SignUpDataOf(b, None).user.password == Some(password)
  {
    assert '-' !in d && '-' !in m && '-' !in y by {
      assert !IsDigit('-');
    }
    FormatDateRearranges(d, m, y, "");
    iso := y + "-" + m + "-" + d;
    UserController.IsoFits(y, m, d);
    UserController.IsoShapeTrimmed(iso);
    var b := AsSignUp(RegisterBody(Some(username), Some(email), Some(password), Some(iso)));
    assert UserController.SignUpComplete(b);
    SingleNone(t, EmailIs(email));
    var data := UserController.SignUpDataOf(b, None).user;
    assert UserService.FindEmail(t, data.email).None?;
  }
}

=== FILE: password_controller.dfy ===
/** The password-recovery controller: request validation in front of the
    recovery service, and the reset page reached from the email link, whose
    form posts the new password back to the reset endpoint. The recovery
    service it calls is `PasswordService`. */
module PasswordController {
  import opened Wrappers
  import opened Text
  import opened Users
  import opened PasswordService
  import opened Http

  // ---------------------------------------------------------------------------
  // The email pattern `^[^\s@]+@[^\s@]+\.[^\s@]+$`
  // ---------------------------------------------------------------------------

  /** A run of `[^\s@]`. */
  predicate PlainRun(s: string) {
    forall i :: 0 <= i < |s| ==> !IsSpace(s[i]) && s[i] != '@'
  }

  /** The pattern as written: three non-empty plain runs around an `@` and a
      `.`. */
  predicate PatternMatch(s: string) {
    exists p, k :: 0 < p && p + 1 < k < |s| - 1 && s[p] == '@' && s[k] == '.'
      && PlainRun(s[..p]) && PlainRun(s[p + 1..k]) && PlainRun(s[k + 1..])
  }

  /** The same language described by its parts: no white space, exactly one
      `@`, not first, and a `.` after the character following it and before
      the last character. */
  predicate EmailShape(s: string) {
    && (forall i :: 0 <= i < |s| ==> !IsSpace(s[i]))
    && (exists p :: 0 < p < |s| && s[p] == '@'
         && (forall i :: 0 <= i < |s| && i != p ==> s[i] != '@')
         && (exists k :: p + 1 < k < |s| - 1 && s[k] == '.'))
  }

  /** Both descriptions accept the same texts. */
  lemma PatternIsShape(s: string)
    ensures PatternMatch(s) <==> EmailShape(s)
  {
    if PatternMatch(s) {
      var p, k :| 0 < p && p + 1 < k < |s| - 1 && s[p] == '@' && s[k] == '.'
        && PlainRun(s[..p]) && PlainRun(s[p + 1..k]) && PlainRun(s[k + 1..]);
      PlainParts(s, p, k);
    }
    if EmailShape(s) {
      var p :| 0 < p < |s| && s[p] == '@'
        && (forall i :: 0 <= i < |s| && i != p ==> s[i] != '@')
        && (exists k :: p + 1 < k < |s| - 1 && s[k] == '.');
      var k :| p + 1 < k < |s| - 1 && s[k] == '.';
      assert PlainRun(s[..p]) && PlainRun(s[p + 1..k]) && PlainRun(s[k + 1..]);
    }
  }

  /** The three runs of a match cover everything but the `@` and the `.`. */
  lemma PlainParts(s: string, p: int, k: int)
    requires 0 < p && p + 1 < k < |s| - 1 && s[p] == '@' && s[k] == '.'
    requires PlainRun(s[..p]) && PlainRun(s[p + 1..k]) && PlainRun(s[k + 1..])
    ensures forall i :: 0 <= i < |s| ==> !IsSpace(s[i])
    ensures forall i :: 0 <= i < |s| && i != p ==> s[i] != '@'
  {
    forall i | 0 <= i < |s|
      ensures !IsSpace(s[i]) && (i != p ==> s[i] != '@')
    {
      if i < p {
        assert s[i] == s[..p][i];
      } else if p < i < k {
        assert s[i] == s[p + 1..k][i - p - 1];
      } else if k < i {
        assert s[i] == s[k + 1..][i - k - 1];
      }
    }
  }

  // ---------------------------------------------------------------------------
  // requestPasswordReset
  // ---------------------------------------------------------------------------

  /** `requestPasswordReset`: 400 without an email or with one the pattern
      refuses, before the service is called; otherwise the service's message,
      with 200 on success and 400 on failure. */
  function RequestPasswordReset(t: seq<User>, email: Option<string>, random: seq<Byte>, now: int, lookupFails: bool,
                                idUpdateError: Option<string>, emailUpdateError: Option<string>): (r: (Response<string>, seq<User>))
    requires |random| == 32
    ensures !Truthy(email) ==> r == (Plain(400, "Email é obrigatório"), t)
    ensures Truthy(email) && !EmailShape(email.value) ==> r == (Plain(400, "Formato de email inválido"), t)
    ensures Truthy(email) && EmailShape(email.value) ==>
      var s := RequestReset(t, email.value, random, now, lookupFails, idUpdateError, emailUpdateError);
      && r.1 == s.1 && r.0.message == s.0.message
      && (r.0.status == 200 <==> s.0.success)
      && (r.0.status != 200 ==> r.0.status == 400)
  {
    if !Truthy(email) then (Plain(400, "Email é obrigatório"), t)
    else if !(PatternIsShape(email.value); PatternMatch(email.value)) then (Plain(400, "Formato de email inválido"), t)
    else
      var s := RequestReset(t, email.value, random, now, lookupFails, idUpdateError, emailUpdateError);
      (Plain(if s.0.success then 200 else 400, s.0.message), s.1)
  }

  /** The reply does not tell a registered address from an unknown one: with
      the store answering, both get 200 and the same message. */
  lemma RequestRevealsNothing(t: seq<User>, known: string, unknown: string, random: seq<Byte>, now: int, i: nat)
    requires |random| == 32
    requires EmailShape(known) && EmailShape(unknown)
    requires Single(t, EmailIs(known)) == Some(i) && Single(t, EmailIs(unknown)).None?
    ensures RequestPasswordReset(t, Some(known), random, now, false, None, None).0
         == RequestPasswordReset(t, Some(unknown), random, now, false, None, None).0
         == Plain(200, GENERIC_REPLY)
  {
    assert |known| > 0 && |unknown| > 0;
  }

  // ---------------------------------------------------------------------------
  // resetPassword
  // ---------------------------------------------------------------------------

  /** `resetPassword`: 400 without token or password, 400 for a password
      shorter than six characters, otherwise the service's reply with 200 or
      400. */
  function ResetPasswordReply(t: seq<User>, token: Option<string>, newPassword: Option<string>, now: int,
                              lookupFails: bool, updateError: Option<string>): (r: (Response<string>, seq<User>))
    ensures !Truthy(token) || !Truthy(newPassword) ==> r == (Plain(400, "Token e nova senha são obrigatórios"), t)
    ensures Truthy(token) && Truthy(newPassword) && |newPassword.value| < 6 ==>
      r == (Plain(400, "A senha deve ter pelo menos 6 caracteres"), t)
    ensures Truthy(token) && Truthy(newPassword) && |newPassword.value| >= 6 ==>
      var s := ResetPassword(t, token.value, newPassword.value, now, lookupFails, updateError);
      && r.1 == s.1 && r.0.message == s.0.message
      && (r.0.status == 200 <==> s.0.success)
      && (r.0.status != 200 ==> r.0.status == 400)
  {
    if !Truthy(token) || !Truthy(newPassword) then (Plain(400, "Token e nova senha são obrigatórios"), t)
    else if |newPassword.value| < 6 then (Plain(400, "A senha deve ter pelo menos 6 caracteres"), t)
    else
      var s := ResetPassword(t, token.value, newPassword.value, now, lookupFails, updateError);
      (Plain(if s.0.success then 200 else 400, s.0.message), s.1)
  }

  /** Every stored password that arrived through this endpoint has at least
      six characters: the one row a successful reset changes holds the new
      password, which passed the length check. */
  lemma ResetStoresLongPasswords(t: seq<User>, token: Option<string>, newPassword: Option<string>, now: int,
                                 lookupFails: bool, updateError: Option<string>)
    ensures var r := ResetPasswordReply(t, token, newPassword, now, lookupFails, updateError);
      r.1 != t ==> (newPassword.Some? && |newPassword.value| >= 6
        && exists i :: 0 <= i < |r.1| && r.1[i].senha_hash == newPassword)
  {
    var r := ResetPasswordReply(t, token, newPassword, now, lookupFails, updateError);
    if r.1 != t {
      var s := ResetPassword(t, token.value, newPassword.value, now, lookupFails, updateError);
      var i := Single(t, TokenIs(token.value)).value;
      assert r.1[i].senha_hash == newPassword;
    }
  }

  // ---------------------------------------------------------------------------
  // validateToken
  // ---------------------------------------------------------------------------

  /** `validateToken`: 400 without token; 200 with the owner's email for a
      valid token, 400 with the service's message otherwise. */
  function ValidateToken(t: seq<User>, token: Option<string>, now: int, lookupFails: bool): (r: Response<Option<string>>)
    ensures !Truthy(token) ==> r == Plain(400, "Token é obrigatório")
    ensures Truthy(token) ==>
      var v := ValidateResetToken(t, token.value, now, lookupFails);
      && r.message == v.message
      && (r.status == 200 <==> v.valid)
      && (v.valid ==> r.data == Some(v.email))
      && (!v.valid ==> r.status == 400 && r.data.None?)
  {
    if !Truthy(token) then Plain(400, "Token é obrigatório")
    else
      var v := ValidateResetToken(t, token.value, now, lookupFails);
      if v.valid then Response(200, v.message, Some(v.email)) else Plain(400, v.message)
  }

  // ---------------------------------------------------------------------------
  // showResetPasswordPage
  // ---------------------------------------------------------------------------

  const CLICK_PREFIX: string := "click:"

  /** `token.replace('click:', '')` when the token starts with the prefix. */
  function StripClick(token: string): (r: string)
    ensures StartsWith(token, CLICK_PREFIX) ==> r == token[|CLICK_PREFIX|..]
    ensures !StartsWith(token, CLICK_PREFIX) ==> r == token
  {
    if StartsWith(token, CLICK_PREFIX) then
      assert OccursAt(token, CLICK_PREFIX, 0);
      ReplaceFirst(token, CLICK_PREFIX, "")
    else token
  }

  /** The token the page validates: the URI-decoded query value (`decoded`,
      None when decoding throws, which keeps the raw value), without a
      leading `click:`. */
  function PageToken(raw: string, decoded: Option<string>): string {
    StripClick(decoded.GetOr(raw))
  }

  /** A generated token, 64 hex digits, never carries the prefix: it reaches
      validation as decoded. */
  lemma HexTokenUnchanged(token: string, raw: string)
    requires forall i :: 0 <= i < |token| ==> IsHexChar(token[i])
    ensures PageToken(raw, Some(token)) == token
  {
    if |token| >= 2 {
      assert IsHexChar(token[1]) && !IsHexChar(CLICK_PREFIX[1]);
    }
  }

  /** The page: its status and what it shows. */
  datatype Page = TokenMissing | LinkInvalid(message: string) | ResetForm(email: Option<string>, nome: Option<string>, hiddenToken: string)

  function PageStatus(p: Page): int {
    if p.ResetForm? then 200 else 400
  }

  /** `showResetPasswordPage`. */
  function ShowResetPasswordPage(t: seq<User>, raw: Option<string>, decoded: Option<string>, now: int,
                                 lookupFails: bool): (p: Page)
    ensures !Truthy(raw) <==> p.TokenMissing?
    ensures Truthy(raw) ==>
      var tok := PageToken(raw.value, decoded);
      var v := ValidateResetToken(t, tok, now, lookupFails);
      && (p.ResetForm? <==> v.valid)
      && (p.ResetForm? ==> p == ResetForm(v.email, v.nome, tok))
      && (p.LinkInvalid? ==> p.message == v.message)
  {
    if !Truthy(raw) then TokenMissing
    else
      var tok := PageToken(raw.value, decoded);
      var v := ValidateResetToken(t, tok, now, lookupFails);
      if v.valid then ResetForm(v.email, v.nome, tok) else LinkInvalid(v.message)
  }

  /** The form's own check before posting. */
  function FormCheck(newPassword: string, confirmPassword: string): (r: Option<string>)
    ensures r.None? <==> |newPassword| >= 6 && newPassword == confirmPassword
    ensures |newPassword| < 6 ==> r == Some("A senha deve ter pelo menos 6 caracteres")
    ensures |newPassword| >= 6 && newPassword != confirmPassword ==> r == Some("As senhas não coincidem")
  {
    if |newPassword| < 6 then Some("A senha deve ter pelo menos 6 caracteres")
    else if newPassword != confirmPassword then Some("As senhas não coincidem")
    else None
  }

  /** No stored reset token is empty (each is 64 hex digits). */
  predicate TokensNonEmpty(t: seq<User>) {
    forall i :: 0 <= i < |t| ==> t[i].reset_token != Some("")
  }

  /** The recovery path end to end: when the page shows the form and the
      form's check passes, posting the hidden token and the password at the
      same instant succeeds, and a row then holds the new password and no
      token. */
  lemma FormThenReset(t: seq<User>, raw: Option<string>, decoded: Option<string>, now: int,
                      newPassword: string, confirmPassword: string)
    requires TokensNonEmpty(t)
    requires ShowResetPasswordPage(t, raw, decoded, now, false).ResetForm?
    requires FormCheck(newPassword, confirmPassword).None?
    ensures var tok := ShowResetPasswordPage(t, raw, decoded, now, false).hiddenToken;
      var r := ResetPasswordReply(t, Some(tok), Some(newPassword), now, false, None);
      && r.0 == Plain(200, "Senha redefinida com sucesso!")
      && exists i :: 0 <= i < |r.1| && r.1[i].senha_hash == Some(newPassword) && r.1[i].reset_token.None?
  {
    var tok := ShowResetPasswordPage(t, raw, decoded, now, false).hiddenToken;
    var i := Single(t, TokenIs(tok)).value;
    assert t[i].reset_token == Some(tok);
    var r := ResetPasswordReply(t, Some(tok), Some(newPassword), now, false, None);
    assert r.1[i].senha_hash == Some(newPassword) && r.1[i].reset_token.None?;
  }
}

=== FILE: password_service.dfy ===
/** The password-reset token lifecycle of the password service over the user
    table: request (store a fresh token with a one-hour expiry), validate,
    reset (set the password and clear the token) and cleanup (clear expired
    tokens). Times are milliseconds since the epoch; the random bytes of the
    token and the store's failures are inputs. */
module PasswordService {
  import opened Wrappers
  import opened Users

  /** One hour: the lifetime of a reset token. */
  const HOUR_MS: int := 60 * 60 * 1000

  /** The reply to every successful request, whether or not the email exists. */
  const GENERIC_REPLY: string := "Se o email existir em nosso sistema, você receberá um link para redefinir sua senha."

  datatype Reply = Reply(success: bool, message: string)

  // ---------------------------------------------------------------------------
  // The token
  // ---------------------------------------------------------------------------

  newtype Byte = b: int | 0 <= b < 256

  predicate IsHexChar(c: char) {
    '0' <= c <= '9' || 'a' <= c <= 'f'
  }

  function HexDigit(n: int): (c: char)
    requires 0 <= n < 16
    ensures IsHexChar(c)
  {
    if n < 10 then (48 + n) as char else (87 + n) as char
  }

  /** `buffer.toString('hex')`: two lower-case hex digits per byte. */
  function Hex(bytes: seq<Byte>): (s: string)
    ensures |s| == 2 * |bytes|
    ensures forall i :: 0 <= i < |s| ==> IsHexChar(s[i])
  {
    if |bytes| == 0 then ""
    else
      var b := bytes[0] as int;
      [HexDigit(b / 16), HexDigit(b % 16)] + Hex(bytes[1..])
  }

  /** `generateResetToken`: 32 random bytes give a token of 64 hex digits. */
  function ResetToken(random: seq<Byte>): (token: string)
    requires |random| == 32
    ensures |token| == 64
    ensures forall i :: 0 <= i < |token| ==> IsHexChar(token[i])
  {
    Hex(random)
  }

  // ---------------------------------------------------------------------------
  // Request
  // ---------------------------------------------------------------------------

  /** The update `{reset_token, reset_token_expiry}` on the rows matching k. */
  function SetToken(t: seq<User>, k: Key, token: string, expiry: int): (r: seq<User>)
    ensures |r| == |t|
    ensures forall i :: 0 <= i < |t| ==>
      r[i] == if Matches(t[i], k) then t[i].(reset_token := Some(token), reset_token_expiry := Some(expiry)) else t[i]
  {
    seq(|t|, i requires 0 <= i < |t| =>
      if Matches(t[i], k) then t[i].(reset_token := Some(token), reset_token_expiry := Some(expiry)) else t[i])
  }

  /** `requestPasswordResetService`. The user is looked up by email; a failed
      lookup (`lookupFails`, or not exactly one row) gets the generic reply and
      nothing is stored. Otherwise the token is stored with the user's id, or,
      when that update fails, with the email; when both updates fail the reply
      carries the error. The read-back and the email delivery do not change
      the reply. */
  function RequestReset(t: seq<User>, email: string, random: seq<Byte>, now: int,
                        lookupFails: bool, idUpdateError: Option<string>,
                        emailUpdateError: Option<string>): (r: (Reply, seq<User>))
    requires |random| == 32
    ensures lookupFails || Single(t, EmailIs(email)).None? ==> r == (Reply(true, GENERIC_REPLY), t)
    ensures r.0.success <==> lookupFails || Single(t, EmailIs(email)).None? || idUpdateError.None? || emailUpdateError.None?
    ensures r.0.success ==> r.0.message == GENERIC_REPLY
    ensures !r.0.success ==> r.1 == t && r.0.message == "Erro ao salvar token: " + emailUpdateError.value
  {
    if lookupFails then (Reply(true, GENERIC_REPLY), t)
    else
      match Single(t, EmailIs(email))
      case None => (Reply(true, GENERIC_REPLY), t)
      case Some(i) =>
        var token := ResetToken(random);
        var expiry := now + HOUR_MS;
        if idUpdateError.None? then
          (Reply(true, GENERIC_REPLY), SetToken(t, IdIs(t[i].id_usuario), token, expiry))
        else if emailUpdateError.None? then
          (Reply(true, GENERIC_REPLY), SetToken(t, EmailIs(email), token, expiry))
        else
          (Reply(false, "Erro ao salvar token: " + emailUpdateError.value), t)
  }

  /** For a registered email, a stored token lands on that user only, is 64
      hex digits long and expires one hour after `now`; every other row is
      unchanged. */
  lemma RequestKnownEmail(t: seq<User>, email: string, random: seq<Byte>, now: int,
                          idUpdateError: Option<string>, emailUpdateError: Option<string>, i: nat)
    requires |random| == 32 && UniqueIds(t)
    requires Single(t, EmailIs(email)) == Some(i)
    requires idUpdateError.None? || emailUpdateError.None?
    ensures var r := RequestReset(t, email, random, now, false, idUpdateError, emailUpdateError).1;
      && |r| == |t|
      && r[i] == t[i].(reset_token := Some(ResetToken(random)), reset_token_expiry := Some(now + HOUR_MS))
      && |r[i].reset_token.value| == 64
      && (forall j :: 0 <= j < |t| && j != i ==> r[j] == t[j])
  {
    SingleSpec(t, EmailIs(email), i);
  }

  /** The reply does not reveal whether the email is registered: as long as
      the token could be stored, a known and an unknown email get the same
      reply. */
  lemma RequestSameReply(t1: seq<User>, email1: string, t2: seq<User>, email2: string,
                         random: seq<Byte>, now: int, idUpdateError: Option<string>)
    requires |random| == 32
    ensures RequestReset(t1, email1, random, now, false, idUpdateError, None).0
         == RequestReset(t2, email2, random, now, false, idUpdateError, None).0
  {
  }

  lemma SetTokenPaired(t: seq<User>, k: Key, token: string, expiry: int)
    requires AllPaired(t)
    ensures AllPaired(SetToken(t, k, token, expiry))
  {
  }

  /** A request keeps every token paired with its expiry. */
  lemma RequestPaired(t: seq<User>, email: string, random: seq<Byte>, now: int,
                      lookupFails: bool, idUpdateError: Option<string>, emailUpdateError: Option<string>)
    requires |random| == 32 && AllPaired(t)
    ensures AllPaired(RequestReset(t, email, random, now, lookupFails, idUpdateError, emailUpdateError).1)
  {
    if !lookupFails && Single(t, EmailIs(email)).Some? {
      var i := Single(t, EmailIs(email)).value;
      SetTokenPaired(t, IdIs(t[i].id_usuario), ResetToken(random), now + HOUR_MS);
      SetTokenPaired(t, EmailIs(email), ResetToken(random), now + HOUR_MS);
    }
  }

  // ---------------------------------------------------------------------------
  // Validate
  // ---------------------------------------------------------------------------

  datatype Validation = Validation(valid: bool, message: string, email: Option<string>, nome: Option<string>)

  /** `validateResetTokenService`: read-only; the token must select exactly one
      row whose expiry is not before `now`. */
  function ValidateResetToken(t: seq<User>, token: string, now: int, lookupFails: bool): (r: Validation)
    ensures r.valid <==> !lookupFails && Single(t, TokenIs(token)).Some? && now <= ExpiryMs(t[Single(t, TokenIs(token)).value])
    ensures !r.valid ==> r.email.None? && r.nome.None?
    ensures r.valid ==> var u := t[Single(t, TokenIs(token)).value];
      r.message == "Token válido" && r.email == u.email && r.nome == u.nome
    ensures lookupFails || Single(t, TokenIs(token)).None? ==> r.message == "Token inválido"
    ensures !r.valid && !lookupFails && Single(t, TokenIs(token)).Some? ==> r.message == "Token expirado"
  {
    if lookupFails then Validation(false, "Token inválido", None, None)
    else
      match Single(t, TokenIs(token))
      case None => Validation(false, "Token inválido", None, None)
      case Some(i) =>
        var u := t[i];
        if now > ExpiryMs(u) then Validation(false, "Token expirado", None, None)
        else Validation(true, "Token válido", u.email, u.nome)
  }

  /** A token is still accepted in the very millisecond it expires. */
  lemma ValidAtExpiry(t: seq<User>, token: string, i: nat)
    requires i < |t| && Single(t, TokenIs(token)) == Some(i) && t[i].reset_token_expiry.Some?
    ensures ValidateResetToken(t, token, t[i].reset_token_expiry.value, false).valid
    ensures !ValidateResetToken(t, token, t[i].reset_token_expiry.value + 1, false).valid
  {
  }

  // ---------------------------------------------------------------------------
  // Reset
  // ---------------------------------------------------------------------------

  /** The update `{senha_hash, reset_token: null, reset_token_expiry: null}` on
      the rows holding the token. */
  function ClearToken(t: seq<User>, token: string, newPassword: string): (r: seq<User>)
    ensures |r| == |t|
    ensures forall i :: 0 <= i < |t| ==>
      r[i] == if Matches(t[i], TokenIs(token))
              then t[i].(senha_hash := Some(newPassword), reset_token := None, reset_token_expiry := None)
              else t[i]
  {
    seq(|t|, i requires 0 <= i < |t| =>
      if Matches(t[i], TokenIs(token))
      then t[i].(senha_hash := Some(newPassword), reset_token := None, reset_token_expiry := None)
      else t[i])
  }

  /** `resetPasswordService`: the same checks as validation, then the new
      password is stored and the token cleared. Any failure leaves the table
      as it was. */
  function ResetPassword(t: seq<User>, token: string, newPassword: string, now: int,
                         lookupFails: bool, updateError: Option<string>): (r: (Reply, seq<User>))
    ensures !r.0.success ==> r.1 == t
    ensures r.0.success <==> ValidateResetToken(t, token, now, lookupFails).valid && updateError.None?
    ensures lookupFails || Single(t, TokenIs(token)).None? ==> r.0 == Reply(false, "Token inválido ou expirado")
    ensures r.0.success ==> r.0.message == "Senha redefinida com sucesso!"
    ensures r.0.success ==> var i := Single(t, TokenIs(token)).value;
      && |r.1| == |t|
      && r.1[i] == t[i].(senha_hash := Some(newPassword), reset_token := None, reset_token_expiry := None)
      && (forall j :: 0 <= j < |t| && j != i ==> r.1[j] == t[j])
  {
    if lookupFails then (Reply(false, "Token inválido ou expirado"), t)
    else
      match Single(t, TokenIs(token))
      case None => (Reply(false, "Token inválido ou expirado"), t)
      case Some(i) =>
        if now > ExpiryMs(t[i]) then (Reply(false, "Token expirado"), t)
        else if updateError.Some? then (Reply(false, "Erro ao redefinir senha: " + updateError.value), t)
        else
          SingleSpec(t, TokenIs(token), i);
          (Reply(true, "Senha redefinida com sucesso!"), ClearToken(t, token, newPassword))
  }

  /** After a successful reset no row holds the token any more, so using the
      same token again fails as invalid and changes nothing. */
  lemma ResetOnce(t: seq<User>, token: string, p1: string, now1: int, updateError1: Option<string>,
                  p2: string, now2: int, updateError2: Option<string>)
    requires ResetPassword(t, token, p1, now1, false, updateError1).0.success
    ensures var t1 := ResetPassword(t, token, p1, now1, false, updateError1).1;
      ResetPassword(t1, token, p2, now2, false, updateError2) == (Reply(false, "Token inválido ou expirado"), t1)
  {
    var t1 := ClearToken(t, token, p1);
    assert forall j :: 0 <= j < |t1| ==> !Matches(t1[j], TokenIs(token));
    SingleNone(t1, TokenIs(token));
  }

  /** A reset keeps every token paired with its expiry. */
  lemma ResetPaired(t: seq<User>, token: string, newPassword: string, now: int,
                    lookupFails: bool, updateError: Option<string>)
    requires AllPaired(t)
    ensures AllPaired(ResetPassword(t, token, newPassword, now, lookupFails, updateError).1)
  {
  }

  // ---------------------------------------------------------------------------
  // Cleanup
  // ---------------------------------------------------------------------------

  /** The filter `.lt('reset_token_expiry', now)`: a null expiry never
      matches. */
  predicate ExpiredAt(u: User, now: int) {
    u.reset_token_expiry.Some? && u.reset_token_expiry.value < now
  }

  /** `cleanupExpiredTokens`: clears token and expiry on the rows whose expiry
      is before `now`; a store error changes nothing and is only logged. */
  function Cleanup(t: seq<User>, now: int, storeFails: bool): (r: seq<User>)
    ensures |r| == |t|
    ensures storeFails ==> r == t
    ensures !storeFails ==> forall i :: 0 <= i < |t| ==>
      && r[i].(reset_token := t[i].reset_token, reset_token_expiry := t[i].reset_token_expiry) == t[i]
      && (ExpiredAt(t[i], now) ==> r[i].reset_token.None? && r[i].reset_token_expiry.None?)
      && (!ExpiredAt(t[i], now) ==> r[i] == t[i])
  {
    if storeFails then t
    else
      seq(|t|, i requires 0 <= i < |t| =>
        if ExpiredAt(t[i], now) then t[i].(reset_token := None, reset_token_expiry := None) else t[i])
  }

  /** Cleanup never removes a token that validation accepts at the same time:
      the validation answer is unchanged. */
  lemma CleanupKeepsValid(t: seq<User>, token: string, now: int, storeFails: bool)
    requires ValidateResetToken(t, token, now, false).valid
    ensures ValidateResetToken(Cleanup(t, now, storeFails), token, now, false)
         == ValidateResetToken(t, token, now, false)
  {
    var i := Single(t, TokenIs(token)).value;
    var c := Cleanup(t, now, storeFails);
    SingleSpec(t, TokenIs(token), i);
    assert c[i] == t[i];
    assert forall j :: 0 <= j < |c| && Matches(c[j], TokenIs(token)) ==> Matches(t[j], TokenIs(token));
    SingleSpec(c, TokenIs(token), i);
  }

  /** Cleanup keeps every token paired with its expiry. */
  lemma CleanupPaired(t: seq<User>, now: int, storeFails: bool)
    requires AllPaired(t)
    ensures AllPaired(Cleanup(t, now, storeFails))
  {
  }

  /** A second cleanup at the same time finds nothing left to clear. */
  lemma CleanupIdempotent(t: seq<User>, now: int)
    ensures Cleanup(Cleanup(t, now, false), now, false) == Cleanup(t, now, false)
  {
    var c := Cleanup(t, now, false);
    assert forall i :: 0 <= i < |c| ==> !ExpiredAt(c[i], now);
  }
}

=== FILE: ponto_report.dfy ===
/** The report of `gerarRelatorio`: the guards before any work, the period
    and month queries over the punch table, the fold that sums the period
    total alongside per-week subtotals (computed, never printed), the month
    total, and the texts written into the document. */
module PontoReport {
  import opened Wrappers
  import opened Text
  import opened Calendar
  import opened PontoTime
  import opened PontoRows

  // ---------------------------------------------------------------------------
  // Reference sums over the rows
  // ---------------------------------------------------------------------------

  /** `diffMinutes(p.hora_entrada, p.hora_saida)` of one row. */
  function RowMinutes(p: PunchRow): nat {
    DiffMinutes(p.hora_entrada, p.hora_saida)
  }

  /** The elapsed minutes of all rows. */
  function SumMinutes(rows: seq<PunchRow>): nat {
    if |rows| == 0 then 0 else SumMinutes(rows[..|rows| - 1]) + RowMinutes(rows[|rows| - 1])
  }

  predicate Dated(rows: seq<PunchRow>) {
    forall i :: 0 <= i < |rows| ==> ValidDate(rows[i].data_registro)
  }

  lemma StoredIsDated(rows: seq<PunchRow>)
    requires StoredRows(rows)
    ensures Dated(rows)
  {
  }

  /** `getISOWeekKey(p.data_registro)` of one row. */
  function RowKey(p: PunchRow): string
    requires ValidDate(p.data_registro)
  {
    WeekKey(p.data_registro)
  }

  /** The week key of every row, in order. */
  function WeekKeys(rows: seq<PunchRow>): (r: seq<string>)
    requires Dated(rows)
    ensures |r| == |rows|
  {
    if |rows| == 0 then [] else WeekKeys(rows[..|rows| - 1]) + [RowKey(rows[|rows| - 1])]
  }

  /** Each row as the `forEach` sees it: the key it is filed under (`keys`,
      one per row) and its elapsed minutes. */
  function Tag(rows: seq<PunchRow>, keys: seq<string>): (r: seq<WeekTotal>)
    requires |keys| == |rows|
    ensures |r| == |rows|
    ensures forall i :: 0 <= i < |rows| ==> r[i] == WeekTotal(keys[i], RowMinutes(rows[i]))
  {
    if |rows| == 0 then []
    else
      var n := |rows| - 1;
      Tag(rows[..n], keys[..n]) + [WeekTotal(keys[n], RowMinutes(rows[n]))]
  }

  /** The rows filed under their week keys. */
  function Tagged(rows: seq<PunchRow>): seq<WeekTotal>
    requires Dated(rows)
  {
    Tag(rows, WeekKeys(rows))
  }

  /** The elapsed minutes of the rows whose week key is `key`. */
  function WeekMinutes(rows: seq<PunchRow>, key: string): nat
    requires Dated(rows)
  {
    TotalFor(Tagged(rows), key)
  }

  /** The week keys of the rows. */
  function RowKeys(rows: seq<PunchRow>): set<string>
    requires Dated(rows)
  {
    set k | k in WeekKeys(rows)
  }

  /** Filing the rows under any keys keeps their total. */
  lemma {:induction false} TagTotal(rows: seq<PunchRow>, keys: seq<string>)
    requires |keys| == |rows|
    ensures Total(Tag(rows, keys)) == SumMinutes(rows)
    decreases |rows|
  {
    if |rows| > 0 {
      var n := |rows| - 1;
      TagTotal(rows[..n], keys[..n]);
      TotalAppend(Tag(rows[..n], keys[..n]), WeekTotal(keys[n], RowMinutes(rows[n])));
    }
  }

  /** The keys of the filed rows are the keys they were filed under. */
  lemma TagKeys(rows: seq<PunchRow>, keys: seq<string>)
    requires |keys| == |rows|
    ensures Keys(Tag(rows, keys)) == set k | k in keys
  {
  }

  // ---------------------------------------------------------------------------
  // The per-week object `porSemana`
  // ---------------------------------------------------------------------------

  /** One property of `porSemana`: a week key and its minutes. The object is a
      sequence of these in insertion order. */
  datatype WeekTotal = WeekTotal(key: string, minutes: nat)

  /** The minutes of all weeks. */
  function Total(w: seq<WeekTotal>): nat {
    if |w| == 0 then 0 else Total(w[..|w| - 1]) + w[|w| - 1].minutes
  }

  /** The minutes recorded under `key` (0 when the key is absent). */
  function TotalFor(w: seq<WeekTotal>, key: string): nat {
    if |w| == 0 then 0
    else TotalFor(w[..|w| - 1], key) + (if w[|w| - 1].key == key then w[|w| - 1].minutes else 0)
  }

  function Keys(w: seq<WeekTotal>): set<string> {
    set i | 0 <= i < |w| :: w[i].key
  }

  /** An object has each key at most once. */
  predicate DistinctKeys(w: seq<WeekTotal>) {
    forall i, j :: 0 <= i < j < |w| ==> w[i].key != w[j].key
  }

  /** Position of `key` in the object. */
  function IndexOfKey(w: seq<WeekTotal>, key: string): (r: Option<nat>)
    ensures r.Some? ==> r.value < |w| && w[r.value].key == key
    ensures r.None? ==> key !in Keys(w)
  {
    if |w| == 0 then None
    else if w[|w| - 1].key == key then Some(|w| - 1)
    else
      var r := IndexOfKey(w[..|w| - 1], key);
      assert Keys(w) == Keys(w[..|w| - 1]) + {w[|w| - 1].key};
      r
  }

  /** `porSemana[wk] = (porSemana[wk] || 0) + mins`. */
  function AddToWeek(w: seq<WeekTotal>, key: string, mins: nat): seq<WeekTotal> {
    match IndexOfKey(w, key)
    case Some(i) => w[i := WeekTotal(key, w[i].minutes + mins)]
    case None => w + [WeekTotal(key, mins)]
  }

  lemma {:induction false} TotalUpdate(w: seq<WeekTotal>, i: nat, x: WeekTotal)
    requires i < |w|
    ensures Total(w[i := x]) == Total(w) - w[i].minutes + x.minutes
    ensures forall k :: (TotalFor(w[i := x], k)
      == TotalFor(w, k) - (if w[i].key == k then w[i].minutes else 0) + (if x.key == k then x.minutes else 0))
    decreases |w|
  {
    var n := |w| - 1;
    if i < n {
      TotalUpdate(w[..n], i, x);
      assert w[i := x][..n] == w[..n][i := x];
    } else {
      assert w[i := x][..n] == w[..n];
    }
  }

  lemma TotalAppend(w: seq<WeekTotal>, x: WeekTotal)
    ensures Total(w + [x]) == Total(w) + x.minutes
    ensures forall k :: TotalFor(w + [x], k) == TotalFor(w, k) + (if x.key == k then x.minutes else 0)
  {
    assert (w + [x])[..|w|] == w;
  }

  /** Adding minutes to a week adds them to the grand total and to that week
      only, and keeps every key once. */
  lemma AddToWeekSpec(w: seq<WeekTotal>, key: string, mins: nat)
    requires DistinctKeys(w)
    ensures var r := AddToWeek(w, key, mins);
      && DistinctKeys(r)
      && Keys(r) == Keys(w) + {key}
      && Total(r) == Total(w) + mins
      && (forall k :: TotalFor(r, k) == TotalFor(w, k) + (if k == key then mins else 0))
  {
    match IndexOfKey(w, key)
    case Some(i) => AddExisting(w, key, mins, i);
    case None => AddNew(w, key, mins);
  }

  lemma AddExisting(w: seq<WeekTotal>, key: string, mins: nat, i: nat)
    requires DistinctKeys(w) && i < |w| && w[i].key == key
    ensures var r := w[i := WeekTotal(key, w[i].minutes + mins)];
      && DistinctKeys(r)
      && Keys(r) == Keys(w) + {key}
      && Total(r) == Total(w) + mins
      && (forall k :: TotalFor(r, k) == TotalFor(w, k) + (if k == key then mins else 0))
  {
    var r := w[i := WeekTotal(key, w[i].minutes + mins)];
    TotalUpdate(w, i, WeekTotal(key, w[i].minutes + mins));
    assert forall j :: 0 <= j < |w| ==> r[j].key == w[j].key;
    assert Keys(r) == Keys(w);
  }

  lemma AddNew(w: seq<WeekTotal>, key: string, mins: nat)
    requires DistinctKeys(w) && key !in Keys(w)
    ensures var r := w + [WeekTotal(key, mins)];
      && DistinctKeys(r)
      && Keys(r) == Keys(w) + {key}
      && Total(r) == Total(w) + mins
      && (forall k :: TotalFor(r, k) == TotalFor(w, k) + (if k == key then mins else 0))
  {
    var r := w + [WeekTotal(key, mins)];
    TotalAppend(w, WeekTotal(key, mins));
    assert forall j :: 0 <= j < |w| ==> r[j] == w[j];
    assert r[|w|].key == key;
    assert Keys(r) == Keys(w) + {key};
  }

  lemma KeysAppend(w: seq<WeekTotal>, x: WeekTotal)
    ensures Keys(w + [x]) == Keys(w) + {x.key}
  {
    var r := w + [x];
    assert forall j :: 0 <= j < |w| ==> r[j] == w[j];
    assert r[|w|] == x;
  }

  /** Adding up minutes by key, one item at a time in order, as the `forEach`
      fills `porSemana`: the object ends with every key of the items once,
      for each key the minutes of the items under it, and the items' total. */
  method GroupSum(items: seq<WeekTotal>) returns (total: nat, weeks: seq<WeekTotal>)
    ensures total == Total(items) && Total(weeks) == total
    ensures DistinctKeys(weeks) && Keys(weeks) == Keys(items)
    ensures forall k :: TotalFor(weeks, k) == TotalFor(items, k)
  {
    total := 0;
    weeks := [];
    for i := 0 to |items|
      invariant total == Total(items[..i]) && Total(weeks) == total
      invariant DistinctKeys(weeks) && Keys(weeks) == Keys(items[..i])
      invariant forall k :: TotalFor(weeks, k) == TotalFor(items[..i], k)
    {
      assert items[..i + 1] == items[..i] + [items[i]];
      TotalAppend(items[..i], items[i]);
      KeysAppend(items[..i], items[i]);
      AddToWeekSpec(weeks, items[i].key, items[i].minutes);
      total := total + items[i].minutes;
      weeks := AddToWeek(weeks, items[i].key, items[i].minutes);
    }
    assert items[..|items|] == items;
  }

  /** The `forEach` of `gerarRelatorio`: the running period total and the
      per-week object. */
  method AggregatePeriod(rows: seq<PunchRow>) returns (total: nat, weeks: seq<WeekTotal>)
    requires Dated(rows)
    ensures total == SumMinutes(rows)
    ensures Total(weeks) == total
    ensures DistinctKeys(weeks) && Keys(weeks) == RowKeys(rows)
    ensures forall k :: TotalFor(weeks, k) == WeekMinutes(rows, k)
  {
    total, weeks := GroupSum(Tagged(rows));
    TagTotal(rows, WeekKeys(rows));
    TagKeys(rows, WeekKeys(rows));
  }

  // ---------------------------------------------------------------------------
  // Texts of the document
  // ---------------------------------------------------------------------------

  /** A destructured array element: `undefined` renders as "undefined". */
  function Piece(parts: seq<string>, i: nat): string {
    if i < |parts| then parts[i] else "undefined"
  }

  /** `formatDate`: `Y-M-D` to `D/M/Y` by splitting on `-`. */
  function FormatDate(s: string): string {
    var parts := Split(s, '-');
    Piece(parts, 2) + "/" + Piece(parts, 1) + "/" + parts[0]
  }

  /** The three dash-free pieces are swapped around slashes; a text without a
      dash leaves day and month undefined. */
  lemma FormatDatePieces(y: string, m: string, d: string)
    requires '-' !in y && '-' !in m && '-' !in d
    ensures FormatDate(y + "-" + m + "-" + d) == d + "/" + m + "/" + y
    ensures FormatDate(y) == "undefined/undefined/" + y
  {
    assert y + "-" + m + "-" + d == y + ['-'] + m + ['-'] + d;
    Split3(y, m, d, '-');
    SplitNoSep(y, '-');
  }

  lemma NoDash(s: string)
    requires AllDigits(s)
    ensures '-' !in s
  {
    assert forall i :: 0 <= i < |s| ==> s[i] != '-';
  }

  /** A stored date prints as `DD/MM/YYYY`. */
  lemma FormatStoredDate(d: Date)
    requires d.year >= 0 && d.month >= 0 && d.day >= 0
    ensures FormatDate(IsoText(d)) == Pad2(d.day) + "/" + Pad2(d.month) + "/" + Pad4(d.year)
  {
    Pad4Facts(d.year);
    Pad2Facts(d.month);
    Pad2Facts(d.day);
    NoDash(Pad4(d.year));
    NoDash(Pad2(d.month));
    NoDash(Pad2(d.day));
    FormatDatePieces(Pad4(d.year), Pad2(d.month), Pad2(d.day));
  }

  /** `s.slice(a, b)` for non-negative bounds: both clamp to the length, and a
      start past the end gives "". */
  function Slice(s: string, a: nat, b: nat): (r: string)
    ensures a <= b <= |s| ==> r == s[a..b]
    ensures |s| <= a ==> r == ""
  {
    var lo := if a < |s| then a else |s|;
    var hi := if b < |s| then b else |s|;
    if lo <= hi then s[lo..hi] else ""
  }

  /** The `MM/YYYY` label of the current month, cut out of `startISO`. */
  function MonthLabel(startISO: string): string {
    Slice(startISO, 5, 7) + "/" + Slice(startISO, 0, 4)
  }

  /** For a four-digit year the label is the two-digit month and the year. */
  lemma MonthLabelSpec(y: int, m: int)
    requires 1000 <= y <= 9999 && 1 <= m <= 12
    ensures MonthLabel(CurrentMonthBounds(y, m).startISO) == Pad2(m) + "/" + NatToString(y)
  {
    var first := MonthBoundDates(y, m).0;
    NatToStringLength(y);
    Pad2Facts(m);
    Pad2Facts(first.day);
    var s := JsDateText(first);
    assert s == NatToString(y) + "-" + Pad2(m) + "-" + Pad2(first.day);
    assert s[5..7] == Pad2(m);
    assert s[0..4] == NatToString(y);
  }

  /** One table line: date, entry, exit and whether a justification exists. */
  datatype RowLine = RowLine(data: string, entrada: string, saida: string, justificativa: string)

  function LineOf(p: PunchRow): RowLine
    requires StoredDate(p.data_registro)
  {
    RowLine(
      FormatDate(IsoText(p.data_registro)),
      OrElse(p.hora_entrada, "-"),
      OrElse(p.hora_saida, "-"),
      if Truthy(p.justificativa) then "Sim" else "-")
  }

  /** A row's line shows its date as `DD/MM/YYYY`, its times or "-", and "Sim"
      exactly when it has a justification. */
  lemma LineOfSpec(p: PunchRow)
    requires StoredDate(p.data_registro)
    ensures var d := p.data_registro;
      LineOf(p).data == Pad2(d.day) + "/" + Pad2(d.month) + "/" + Pad4(d.year)
    ensures LineOf(p).entrada == (if Truthy(p.hora_entrada) then p.hora_entrada.value else "-")
    ensures LineOf(p).saida == (if Truthy(p.hora_saida) then p.hora_saida.value else "-")
    ensures LineOf(p).justificativa == "Sim" <==> Truthy(p.justificativa)
  {
    FormatStoredDate(p.data_registro);
  }

  /** The table lines, one per row in the rows' order. */
  function Lines(rows: seq<PunchRow>): (r: seq<RowLine>)
    requires StoredRows(rows)
    ensures |r| == |rows| && forall i :: 0 <= i < |rows| ==> r[i] == LineOf(rows[i])
  {
    seq(|rows|, i requires 0 <= i < |rows| => LineOf(rows[i]))
  }

  // ---------------------------------------------------------------------------
  // The two queries of the report
  // ---------------------------------------------------------------------------

  /** `.gte("data_registro", from).lte("data_registro", to)`: the row's
      `YYYY-MM-DD` date lies between the two bounds. */
  predicate InRange(p: PunchRow, from: string, to: string)
    requires StoredDate(p.data_registro)
  {
    var s := IsoText(p.data_registro);
    !LexLess(s, from) && !LexLess(to, s)
  }

  /** The rows a query for `user` and the bounds selects. */
  predicate Selected(p: PunchRow, user: string, from: string, to: string)
    requires StoredDate(p.data_registro)
  {
    p.id_usuario == user && InRange(p, from, to)
  }

  /** The selected rows of the table, in table order. */
  function Query(table: seq<PunchRow>, user: string, from: string, to: string): (r: seq<PunchRow>)
    requires StoredRows(table)
    ensures StoredRows(r)
    ensures forall p :: p in r <==> p in table && Selected(p, user, from, to)
  {
    if |table| == 0 then []
    else
      var n := |table| - 1;
      var rest := Query(table[..n], user, from, to);
      assert forall p :: p in table <==> p in table[..n] || p == table[n];
      if Selected(table[n], user, from, to) then rest + [table[n]] else rest
  }

  /** Rows in ascending date order; rows of one date in any order. */
  predicate SortedByDate(rows: seq<PunchRow>) {
    forall i, j :: 0 <= i < j < |rows| ==> !TupleLess(rows[j].data_registro, rows[i].data_registro)
  }

  /** Puts `p` after every row not later than it. */
  function InsertByDate(rows: seq<PunchRow>, p: PunchRow): (r: seq<PunchRow>)
    ensures multiset(r) == multiset(rows) + multiset{p}
  {
    if |rows| == 0 then [p]
    else
      var n := |rows| - 1;
      if TupleLess(p.data_registro, rows[n].data_registro) then
        assert rows == rows[..n] + [rows[n]];
        InsertByDate(rows[..n], p) + [rows[n]]
      else rows + [p]
  }

  /** `.order("data_registro", { ascending: true })`, as a stable insertion
      sort. */
  function SortByDate(rows: seq<PunchRow>): (r: seq<PunchRow>)
    ensures multiset(r) == multiset(rows)
  {
    if |rows| == 0 then []
    else
      var n := |rows| - 1;
      assert rows == rows[..n] + [rows[n]];
      InsertByDate(SortByDate(rows[..n]), rows[n])
  }

  lemma SumAppend(rows: seq<PunchRow>, x: PunchRow)
    ensures SumMinutes(rows + [x]) == SumMinutes(rows) + RowMinutes(x)
  {
    assert (rows + [x])[..|rows|] == rows;
  }

  lemma {:induction false} InsertSum(rows: seq<PunchRow>, p: PunchRow)
    ensures SumMinutes(InsertByDate(rows, p)) == SumMinutes(rows) + RowMinutes(p)
    decreases |rows|
  {
    if |rows| == 0 {
      SumAppend([], p);
    } else {
      var n := |rows| - 1;
      var front, last := rows[..n], rows[n];
      assert rows == front + [last];
      if TupleLess(p.data_registro, last.data_registro) {
        InsertSum(front, p);
        SumAppend(InsertByDate(front, p), last);
        SumAppend(front, last);
      } else {
        SumAppend(rows, p);
      }
    }
  }

  /** No row is later than `b`. */
  predicate NoneLater(rows: seq<PunchRow>, b: Date) {
    forall i :: 0 <= i < |rows| ==> !TupleLess(b, rows[i].data_registro)
  }

  lemma SortedAppend(rows: seq<PunchRow>, x: PunchRow)
    requires SortedByDate(rows) && NoneLater(rows, x.data_registro)
    ensures SortedByDate(rows + [x])
  {
    var r := rows + [x];
    assert forall i :: 0 <= i < |rows| ==> r[i] == rows[i];
  }

  lemma InsertNoneLater(rows: seq<PunchRow>, p: PunchRow, b: Date)
    requires NoneLater(rows, b) && !TupleLess(b, p.data_registro)
    ensures NoneLater(InsertByDate(rows, p), b)
  {
    var r := InsertByDate(rows, p);
    forall i | 0 <= i < |r|
      ensures !TupleLess(b, r[i].data_registro)
    {
      assert r[i] in multiset(rows) + multiset{p};
      if r[i] != p {
        var k :| 0 <= k < |rows| && rows[k] == r[i];
      }
    }
  }

  lemma {:induction false} InsertSorted(rows: seq<PunchRow>, p: PunchRow)
    requires SortedByDate(rows)
    ensures SortedByDate(InsertByDate(rows, p))
    decreases |rows|
  {
    if |rows| > 0 {
      var n := |rows| - 1;
      var last := rows[n];
      if TupleLess(p.data_registro, last.data_registro) {
        assert SortedByDate(rows[..n]) && NoneLater(rows[..n], last.data_registro);
        InsertSorted(rows[..n], p);
        InsertNoneLater(rows[..n], p, last.data_registro);
        SortedAppend(InsertByDate(rows[..n], p), last);
      } else {
        SortedAppend(rows, p);
      }
    }
  }

  lemma {:induction false} SortSorted(rows: seq<PunchRow>)
    ensures SortedByDate(SortByDate(rows))
    decreases |rows|
  {
    if |rows| > 0 {
      var n := |rows| - 1;
      SortSorted(rows[..n]);
      InsertSorted(SortByDate(rows[..n]), rows[n]);
    }
  }

  lemma {:induction false} SortSum(rows: seq<PunchRow>)
    ensures SumMinutes(SortByDate(rows)) == SumMinutes(rows)
    decreases |rows|
  {
    if |rows| > 0 {
      var n := |rows| - 1;
      SortSum(rows[..n]);
      InsertSum(SortByDate(rows[..n]), rows[n]);
    }
  }

  /** The rows of the period query: the selected rows in ascending date
      order. */
  function PeriodRows(table: seq<PunchRow>, user: string, from: string, to: string): (r: seq<PunchRow>)
    requires StoredRows(table)
    ensures StoredRows(r) && Dated(r) && |r| == |Query(table, user, from, to)|
  {
    var q := Query(table, user, from, to);
    var r := SortByDate(q);
    assert |r| == |multiset(r)| == |multiset(q)| == |q|;
    assert forall i :: 0 <= i < |r| ==> r[i] in multiset(q);
    r
  }

  /** The period query answers exactly the user's rows in the period, each
      as often as the table holds it, in ascending date order; their minutes
      add up as the selected rows' do in any order. */
  lemma PeriodRowsSpec(table: seq<PunchRow>, user: string, from: string, to: string)
    requires StoredRows(table)
    ensures var rows := PeriodRows(table, user, from, to);
      && multiset(rows) == multiset(Query(table, user, from, to))
      && (forall p :: p in rows <==> p in table && Selected(p, user, from, to))
      && SortedByDate(rows)
      && SumMinutes(rows) == SumMinutes(Query(table, user, from, to))
  {
    var q := Query(table, user, from, to);
    SortSorted(q);
    SortSum(q);
    assert forall p :: p in SortByDate(q) <==> p in multiset(q);
  }

  // ---------------------------------------------------------------------------
  // gerarRelatorio
  // ---------------------------------------------------------------------------

  /** The JSON body of the report request. */
  datatype ReportRequest = ReportRequest(
    id_usuario: Option<string>,
    data_inicio: Option<string>,
    data_fim: Option<string>,
    nome_usuario: Option<string>)

  /** What the document says: the user line, the period line, one line per
      row, the period total, and the current month's label and total (both
      totals as `HH:MM`). */
  datatype Report = Report(
    usuario: string,
    periodo: string,
    lines: seq<RowLine>,
    totalPeriodo: string,
    mesLabel: string,
    totalMes: string)

  datatype ReportOutcome = MissingFields | NoRows | StoreFailed | Generated(report: Report)

  function ReportStatus(o: ReportOutcome): int {
    match o
    case MissingFields => 400
    case NoRows => 404
    case StoreFailed => 500
    case Generated(_) => 200
  }

  predicate HasFields(req: ReportRequest) {
    Truthy(req.id_usuario) && Truthy(req.data_inicio) && Truthy(req.data_fim)
  }

  /** `userData?.nome || nome_usuario || "Usuário"`. */
  function UserName(stored: Option<string>, given: Option<string>): string {
    OrElse(Or(stored, given), "Usuário")
  }

  /** The month total: the minutes of the month query's rows, 0 when the
      query failed. */
  function MonthMinutes(table: seq<PunchRow>, user: string, b: MonthBounds, monthFails: bool): nat
    requires StoredRows(table)
  {
    if monthFails then 0 else SumMinutes(Query(table, user, b.startISO, b.endISO))
  }

  /** For a four-digit year the local-date text of a day is its ISO text. */
  lemma JsTextIsIso(d: Date)
    requires 1000 <= d.year <= 9999 && d.month >= 0 && d.day >= 0
    ensures JsDateText(d) == IsoText(d)
  {
    NatToStringLength(d.year);
  }

  /** The month query selects exactly the user's rows dated in the clock's
      month. */
  lemma MonthQuerySpec(p: PunchRow, user: string, y: int, m: int)
    requires StoredDate(p.data_registro) && 1000 <= y <= 9999 && 1 <= m <= 12
    ensures var b := CurrentMonthBounds(y, m);
      (Selected(p, user, b.startISO, b.endISO)
       <==> p.id_usuario == user && p.data_registro.year == y && p.data_registro.month == m)
  {
    var (first, last) := MonthBoundDates(y, m);
    JsTextIsIso(first);
    JsTextIsIso(last);
    IsoTextTupleOrder(p.data_registro, first);
    IsoTextTupleOrder(last, p.data_registro);
  }

  /** `gerarRelatorio` up to the document, over the punch table. `storedName`
      is the user's stored name, `periodFails` and `monthFails` say whether
      the period and the month query failed, and (year, month) is the clock's
      month. `porSemana` is the per-week object the code fills and then never
      prints or sends. */
  method GerarRelatorio(req: ReportRequest, storedName: Option<string>, table: seq<PunchRow>,
                        periodFails: bool, monthFails: bool,
                        year: int, month: int) returns (o: ReportOutcome, porSemana: seq<WeekTotal>)
    requires StoredRows(table)
    requires 1 <= month <= 12
    ensures o == MissingFields <==> !HasFields(req)
    ensures o == StoreFailed <==> HasFields(req) && periodFails
    ensures o == NoRows <==>
      HasFields(req) && !periodFails && |Query(table, req.id_usuario.value, req.data_inicio.value, req.data_fim.value)| == 0
    ensures o.Generated? ==>
      var user, from, to, r := req.id_usuario.value, req.data_inicio.value, req.data_fim.value, o.report;
      var rows := PeriodRows(table, user, from, to);
      && |rows| > 0
      && r.usuario == UserName(storedName, req.nome_usuario)
      && r.periodo == FormatDate(from) + " até " + FormatDate(to)
      && r.lines == Lines(rows)
      && r.totalPeriodo == MinutesToHHMM(SumMinutes(Query(table, user, from, to)))
      && r.mesLabel == MonthLabel(CurrentMonthBounds(year, month).startISO)
      && r.totalMes == MinutesToHHMM(MonthMinutes(table, user, CurrentMonthBounds(year, month), monthFails))
      && Total(porSemana) == SumMinutes(rows) && DistinctKeys(porSemana) && Keys(porSemana) == RowKeys(rows)
      && (forall k :: TotalFor(porSemana, k) == WeekMinutes(rows, k))
  {
    porSemana := [];
    if !HasFields(req) {
      return MissingFields, porSemana;
    }
    var user, from, to := req.id_usuario.value, req.data_inicio.value, req.data_fim.value;
    var usuario := UserName(storedName, req.nome_usuario);
    if periodFails {
      return StoreFailed, porSemana;
    }
    var rows := PeriodRows(table, user, from, to);
    PeriodRowsSpec(table, user, from, to);
    if |rows| == 0 {
      return NoRows, porSemana;
    }
    StoredIsDated(rows);
    var total;
    total, porSemana := AggregatePeriod(rows);
    var bounds := CurrentMonthBounds(year, month);
    var mes := MinutesToHHMM(MonthMinutes(table, user, bounds, monthFails));
    var periodo := FormatDate(from) + " até " + FormatDate(to);
    o := Generated(Report(usuario, periodo, Lines(rows), MinutesToHHMM(total), MonthLabel(bounds.startISO), mes));
  }
}

=== FILE: ponto_rows.dfy ===
/** The punch table `tabela_ponto` and the row changes the punch controller
    makes to it: the entry punch, the exit punch and the justification upload.
    The store is the sequence of rows; its failures are inputs. */
module PontoRows {
  import opened Wrappers
  import opened Calendar

  /** One row of `tabela_ponto`. */
  datatype PunchRow = PunchRow(
    id_ponto: nat,
    id_usuario: string,
    data_registro: Date,
    hora_entrada: Option<string>,
    hora_saida: Option<string>,
    justificativa: Option<string>)

  /** A date the store's `date` column holds and prints as `YYYY-MM-DD`. */
  predicate StoredDate(d: Date) {
    ValidDate(d) && FourDigitYear(d)
  }

  predicate StoredRows(rows: seq<PunchRow>) {
    forall i :: 0 <= i < |rows| ==> StoredDate(rows[i].data_registro)
  }

  /** A controller's reply status together with the table after the call. */
  datatype Outcome = Outcome(status: int, table: seq<PunchRow>)

  // ---------------------------------------------------------------------------
  // Entry and exit punches
  // ---------------------------------------------------------------------------

  /** `registrarEntrada`: a new row for the user dated today, holding only the
      entry time; `newId` is the serial the store assigns. A store error is
      answered with 500 and inserts nothing. */
  function RegistrarEntrada(table: seq<PunchRow>, user: string, today: Date, hora: string,
                            newId: nat, storeError: Option<string>): (r: Outcome)
    ensures storeError.Some? ==> r.status == 500 && r.table == table
    ensures storeError.None? ==> r.status == 200 && |r.table| == |table| + 1 && r.table[..|table|] == table
    ensures storeError.None? ==> var p := r.table[|table|];
      p.id_usuario == user && p.data_registro == today && p.hora_entrada == Some(hora)
      && p.hora_saida.None? && p.justificativa.None?
  {
    if storeError.Some? then Outcome(500, table)
    else Outcome(200, table + [PunchRow(newId, user, today, Some(hora), None, None)])
  }

  /** The rows `registrarSaida` updates: the user's rows dated today. */
  predicate TodayOf(p: PunchRow, user: string, today: Date) {
    p.id_usuario == user && p.data_registro == today
  }

  /** `registrarSaida`: sets the exit time on every row of the user dated today
      and on no other row, and changes no other column. */
  function RegistrarSaida(table: seq<PunchRow>, user: string, today: Date, hora: string,
                          storeError: Option<string>): (r: Outcome)
    ensures storeError.Some? ==> r.status == 500 && r.table == table
    ensures storeError.None? ==> r.status == 200 && |r.table| == |table|
    ensures storeError.None? ==> forall i :: 0 <= i < |table| ==>
      && r.table[i].(hora_saida := table[i].hora_saida) == table[i]
      && (TodayOf(table[i], user, today) ==> r.table[i].hora_saida == Some(hora))
      && (!TodayOf(table[i], user, today) ==> r.table[i] == table[i])
  {
    if storeError.Some? then Outcome(500, table)
    else
      Outcome(200, seq(|table|, i requires 0 <= i < |table| =>
        if TodayOf(table[i], user, today) then table[i].(hora_saida := Some(hora)) else table[i]))
  }

  // ---------------------------------------------------------------------------
  // Justification upload
  // ---------------------------------------------------------------------------

  /** The multipart form of `uploadJustificativa`. `id_ponto` is None when the
      field is absent or empty (falsy); `data_registro` is None when it is
      absent or not a date the store accepts. */
  datatype UploadRequest = UploadRequest(
    id_usuario: string,
    id_ponto: Option<nat>,
    data_registro: Option<Date>,
    hasFile: bool)

  /** Which rows the update addresses: the user's row with the given id when
      an id was sent, else the user's rows of the given day. */
  datatype Target = ById(id: nat) | ByDate(date: Date)

  /** The update's filter; None when it filters on a date the store rejects. */
  function TargetOf(req: UploadRequest): Option<Target> {
    if req.id_ponto.Some? then Some(ById(req.id_ponto.value))
    else if req.data_registro.Some? then Some(ByDate(req.data_registro.value))
    else None
  }

  predicate Addressed(p: PunchRow, user: string, t: Target) {
    p.id_usuario == user
    && match t
       case ById(id) => p.id_ponto == id
       case ByDate(date) => p.data_registro == date
  }

  /** `uploadJustificativa` with the storage answer `upload` (the public URL of
      the stored file, or the storage error) and the outcome `updateError` of
      the row update. The reply carries the URL on success. */
  datatype UploadReply = NoFile | Failed | Uploaded(url: string)

  function UploadStatus(r: UploadReply): int {
    match r
    case NoFile => 400
    case Failed => 500
    case Uploaded(_) => 200
  }

  function UploadJustificativa(table: seq<PunchRow>, req: UploadRequest,
                               upload: Result<string, string>, updateError: Option<string>): (r: (UploadReply, seq<PunchRow>))
    ensures !req.hasFile ==> r.0 == NoFile && r.1 == table
    ensures r.0.Uploaded? <==> req.hasFile && upload.Success? && TargetOf(req).Some? && updateError.None?
    ensures r.0.Uploaded? ==> r.0.url == upload.value
    ensures !r.0.Uploaded? ==> r.1 == table
    ensures |r.1| == |table|
    ensures r.0.Uploaded? ==> forall i :: 0 <= i < |table| ==>
      && r.1[i].(justificativa := table[i].justificativa) == table[i]
      && (Addressed(table[i], req.id_usuario, TargetOf(req).value) ==> r.1[i].justificativa == Some(upload.value))
      && (!Addressed(table[i], req.id_usuario, TargetOf(req).value) ==> r.1[i] == table[i])
  {
    if !req.hasFile then (NoFile, table)
    else if upload.Failure? then (Failed, table)
    else
      match TargetOf(req)
      case None => (Failed, table)
      case Some(t) =>
        if updateError.Some? then (Failed, table)
        else
          var url := upload.value;
          (Uploaded(url), seq(|table|, i requires 0 <= i < |table| =>
            if Addressed(table[i], req.id_usuario, t) then table[i].(justificativa := Some(url)) else table[i]))
  }

  /** With an id, the day sent along is ignored: only the id picks the row. */
  lemma IdTakesPrecedence(table: seq<PunchRow>, req: UploadRequest, day: Option<Date>,
                          upload: Result<string, string>, updateError: Option<string>)
    requires req.id_ponto.Some?
    ensures UploadJustificativa(table, req, upload, updateError)
         == UploadJustificativa(table, req.(data_registro := day), upload, updateError)
  {
  }
}

=== FILE: ponto_time.dfy ===
/** Time and grouping helpers of the punch controller: `HH:MM:SS` parsing,
    elapsed minutes, `HH:MM` rendering, the ISO-8601 week key and the bounds of
    a calendar month. */
module PontoTime {
  import opened Wrappers
  import opened Text
  import opened Calendar

  // ---------------------------------------------------------------------------
  // Minutes
  // ---------------------------------------------------------------------------

  /** JavaScript `+s` on a time component: surrounding white space is ignored,
      "" is 0, a plain decimal digit string is its value; None stands for NaN. */
  function ToNumber(s: string): Option<nat> {
    var t := Trim(s);
    if AllDigits(t) then Some(DigitsValue(t)) else None
  }

  /** Component i of the `:`-separated parts as a number; a missing component
      takes the default "0" of `const [hh = '0', mm = '0', ss = '0']`, which
      reads as 0 (`DefaultComponent`). */
  function Component(parts: seq<string>, i: nat): Option<nat> {
    if i < |parts| then ToNumber(parts[i]) else Some(0)
  }

  /** The default "0" of a missing component is the number 0. */
  lemma DefaultComponent()
    ensures ToNumber("0") == Some(0)
  {
    assert AllDigits("0") && DigitsValue("0") == 0;
    DigitsToNumber("0");
  }

  /** `hh * 60 + mm + Math.floor(ss / 60)` over numbers that may be NaN. */
  function CombineHms(h: Option<nat>, m: Option<nat>, s: Option<nat>): Option<nat> {
    if h.Some? && m.Some? && s.Some? then Some(h.value * 60 + m.value + s.value / 60) else None
  }

  /** `parseHmsToMinutes`: hours * 60 + minutes + whole minutes of the seconds;
      None stands for NaN. */
  function ParseHmsToMinutes(hms: Option<string>): Option<nat> {
    if !Truthy(hms) then Some(0)
    else
      var parts := Split(hms.value, ':');
      CombineHms(Component(parts, 0), Component(parts, 1), Component(parts, 2))
  }

  /** A digit string reads back as its own value. */
  lemma DigitsToNumber(s: string)
    requires AllDigits(s)
    ensures ToNumber(s) == Some(DigitsValue(s))
  {
    assert |s| == 0 || (!IsSpace(s[0]) && !IsSpace(s[|s| - 1]));
    TrimNoop(s);
  }

  lemma NoColon(s: string)
    requires AllDigits(s)
    ensures ':' !in s
  {
    assert forall i :: 0 <= i < |s| ==> s[i] != ':';
  }

  lemma PartsOfThree(h: string, m: string, s: string)
    requires AllDigits(h) && AllDigits(m) && AllDigits(s)
    ensures Split(h + ":" + m + ":" + s, ':') == [h, m, s]
  {
    NoColon(h);
    NoColon(m);
    NoColon(s);
    assert h + ":" + m + ":" + s == h + [':'] + m + [':'] + s;
    Split3(h, m, s, ':');
  }

  lemma PartsOfTwo(h: string, m: string)
    requires AllDigits(h) && AllDigits(m)
    ensures Split(h + ":" + m, ':') == [h, m]
  {
    NoColon(h);
    NoColon(m);
    assert h + ":" + m == h + [':'] + m;
    SplitJoin(h, ':', m);
    SplitNoSep(m, ':');
  }

  lemma ParseUnfold(x: string, parts: seq<string>)
    requires x != "" && parts == Split(x, ':')
    ensures ParseHmsToMinutes(Some(x)) == CombineHms(Component(parts, 0), Component(parts, 1), Component(parts, 2))
  {
  }

  lemma CombineKnown(x: Option<nat>, y: Option<nat>, z: Option<nat>, a: nat, b: nat, c: nat)
    requires x == Some(a) && y == Some(b) && z == Some(c)
    ensures CombineHms(x, y, z) == Some(a * 60 + b + c / 60)
  {
  }

  lemma CombineDigits(h: string, m: string, s: string)
    requires AllDigits(h) && AllDigits(m) && AllDigits(s)
    ensures CombineHms(ToNumber(h), ToNumber(m), ToNumber(s))
         == Some(DigitsValue(h) * 60 + DigitsValue(m) + DigitsValue(s) / 60)
  {
    DigitsToNumber(h);
    DigitsToNumber(m);
    DigitsToNumber(s);
    CombineKnown(ToNumber(h), ToNumber(m), ToNumber(s), DigitsValue(h), DigitsValue(m), DigitsValue(s));
  }

  lemma CombineDigitsTwo(h: string, m: string)
    requires AllDigits(h) && AllDigits(m)
    ensures CombineHms(ToNumber(h), ToNumber(m), Some(0)) == Some(DigitsValue(h) * 60 + DigitsValue(m))
  {
    DigitsToNumber(h);
    DigitsToNumber(m);
    CombineKnown(ToNumber(h), ToNumber(m), Some(0), DigitsValue(h), DigitsValue(m), 0);
  }

  /** Parsing `HH:MM:SS` with decimal components. */
  lemma ParseHmsThree(h: string, m: string, s: string)
    requires AllDigits(h) && AllDigits(m) && AllDigits(s)
    ensures ParseHmsToMinutes(Some(h + ":" + m + ":" + s))
         == Some(DigitsValue(h) * 60 + DigitsValue(m) + DigitsValue(s) / 60)
  {
    PartsOfThree(h, m, s);
    ParseUnfold(h + ":" + m + ":" + s, [h, m, s]);
    CombineDigits(h, m, s);
  }

  /** Parsing `HH:MM`: the missing seconds count as zero. */
  lemma ParseHmsTwo(h: string, m: string)
    requires AllDigits(h) && AllDigits(m)
    ensures ParseHmsToMinutes(Some(h + ":" + m)) == Some(DigitsValue(h) * 60 + DigitsValue(m))
  {
    PartsOfTwo(h, m);
    ParseUnfold(h + ":" + m, [h, m]);
    CombineDigitsTwo(h, m);
  }

  /** Parsing `HH`: the missing minutes and seconds count as zero; an empty or
      absent value is 0. */
  lemma ParseHmsOne(h: string)
    requires AllDigits(h)
    ensures |h| > 0 ==> ParseHmsToMinutes(Some(h)) == Some(DigitsValue(h) * 60)
    ensures ParseHmsToMinutes(None) == Some(0) && ParseHmsToMinutes(Some("")) == Some(0)
  {
    if |h| > 0 {
      NoColon(h);
      SplitNoSep(h, ':');
      ParseUnfold(h, [h]);
      DigitsToNumber(h);
    }
  }

  /** Seconds below a full minute add nothing. */
  lemma SecondsBelowAMinute(h: string, m: string, s: string)
    requires AllDigits(h) && AllDigits(m) && AllDigits(s) && DigitsValue(s) < 60
    ensures ParseHmsToMinutes(Some(h + ":" + m + ":" + s)) == ParseHmsToMinutes(Some(h + ":" + m))
  {
    calc {
      ParseHmsToMinutes(Some(h + ":" + m + ":" + s));
      { ParseHmsThree(h, m, s); }
      Some(DigitsValue(h) * 60 + DigitsValue(m) + DigitsValue(s) / 60);
      Some(DigitsValue(h) * 60 + DigitsValue(m));
      { ParseHmsTwo(h, m); }
      ParseHmsToMinutes(Some(h + ":" + m));
    }
  }

  /** `diffMinutes`: exit minus entry, 0 when that is not positive or when either
      side is not a number. */
  function DiffMinutes(entrada: Option<string>, saida: Option<string>): nat {
    match (ParseHmsToMinutes(entrada), ParseHmsToMinutes(saida))
    case (Some(e), Some(s)) => if s as int - e > 0 then s - e else 0
    case _ => 0
  }

  /** Elapsed minutes are the positive part of exit - entry; a missing exit
      contributes nothing. */
  lemma DiffMinutesSpec(entrada: Option<string>, saida: Option<string>)
    ensures ParseHmsToMinutes(entrada).Some? && ParseHmsToMinutes(saida).Some? ==>
      var e, s := ParseHmsToMinutes(entrada).value, ParseHmsToMinutes(saida).value;
      (s > e ==> DiffMinutes(entrada, saida) == s - e) && (s <= e ==> DiffMinutes(entrada, saida) == 0)
    ensures !Truthy(saida) ==> DiffMinutes(entrada, saida) == 0
    ensures ParseHmsToMinutes(entrada).None? || ParseHmsToMinutes(saida).None? ==> DiffMinutes(entrada, saida) == 0
  {
  }

  /** `minutesToHHMM`: two-digit minutes, at least two-digit hours, no wrap at 24. */
  function MinutesToHHMM(total: nat): string {
    ClockText(total / 60, total % 60)
  }

  /** The `${hh}:${mm}` template with both fields zero-padded to two digits. */
  function ClockText(h: nat, m: nat): string {
    Pad2(h) + ":" + Pad2(m)
  }

  /** The clock text is hours digits (at least two), a colon and exactly two
      minute digits; below 100 hours it is five characters long. */
  lemma ClockTextShape(h: nat, m: nat)
    requires m < 60
    ensures var r := ClockText(h, m);
      && |r| >= 5 && r[|r| - 3] == ':'
      && AllDigits(r[..|r| - 3]) && AllDigits(r[|r| - 2..])
      && DigitsValue(r[..|r| - 3]) == h && DigitsValue(r[|r| - 2..]) == m
      && (h < 100 ==> |r| == 5)
  {
    Pad2Facts(h);
    Pad2Facts(m);
    ColonJoin(Pad2(h), Pad2(m));
  }

  lemma ColonJoin(hh: string, mm: string)
    requires |mm| == 2
    ensures var r := hh + ":" + mm;
      |r| == |hh| + 3 && r[|r| - 3] == ':' && r[..|r| - 3] == hh && r[|r| - 2..] == mm
  {
  }

  /** The clock text of h hours and m minutes reads back as h * 60 + m minutes. */
  lemma ClockTextParses(h: nat, m: nat)
    requires m < 60
    ensures ParseHmsToMinutes(Some(ClockText(h, m))) == Some(h * 60 + m)
  {
    Pad2Facts(h);
    Pad2Facts(m);
    ParseHmsTwo(Pad2(h), Pad2(m));
  }

  /** Rendering a total and parsing it back gives the total. */
  lemma MinutesRoundTrip(total: nat)
    ensures ParseHmsToMinutes(Some(MinutesToHHMM(total))) == Some(total)
  {
    ClockTextParses(total / 60, total % 60);
  }

  /** Any `H:MM` text whose parts are digit strings worth `total` minutes parses
      back to `total`. */
  lemma HoursColonMinutes(r: string, total: nat)
    requires |r| >= 5 && r[|r| - 3] == ':'
    requires AllDigits(r[..|r| - 3]) && AllDigits(r[|r| - 2..])
    requires DigitsValue(r[..|r| - 3]) * 60 + DigitsValue(r[|r| - 2..]) == total
    ensures ParseHmsToMinutes(Some(r)) == Some(total)
  {
    var hh, mm := r[..|r| - 3], r[|r| - 2..];
    assert r == hh + ":" + mm;
    ParseHmsTwo(hh, mm);
  }

  /** Below 100 hours the text is exactly `HH:MM`; from 100 hours on, the hours
      field grows instead of wrapping. */
  lemma ClockTextDigits(h: nat, m: nat)
    requires m < 60
    ensures h < 100 ==> ClockText(h, m) == [DigitChar(h / 10), DigitChar(h % 10), ':', DigitChar(m / 10), DigitChar(m % 10)]
    ensures h >= 100 ==> ClockText(h, m) == NatToString(h) + ":" + Pad2(m)
  {
    Pad2Digits(m);
    if h < 100 {
      Pad2Digits(h);
    }
  }

  // ---------------------------------------------------------------------------
  // ISO-8601 week key
  // ---------------------------------------------------------------------------

  /** `Math.round(x / 7)` for an integer x: floor(x / 7 + 1/2). */
  function RoundDiv7(x: int): int {
    (2 * x + 7) / 14
  }

  lemma RoundDiv7Exact(q: int)
    ensures RoundDiv7(7 * q) == q
  {
  }

  datatype IsoWeek = IsoWeek(year: int, week: int)

  /** The Thursday of the Monday-to-Sunday week of day t. */
  function ThursdayOf(t: int): int {
    t - MondayIndex(t) + 3
  }

  lemma ThursdayFacts(t: int)
    ensures ThursdayOf(t) % 7 == 3
  {
    var q := t / 7;
    assert t - MondayIndex(t) == 7 * q;
  }

  /** The first Thursday on or after January 1st of year y: the Thursday of
      week 1 in section 4.1.4 of ISO 8601:2004. */
  function FirstThursday(y: int): (r: int)
    ensures Jan1(y) <= r < Jan1(y) + 7 && r % 7 == 3
  {
    var j := Jan1(y);
    ThursdayAfter(j);
    j + (10 - j % 7) % 7
  }

  lemma ThursdayAfter(j: int)
    ensures 0 <= (10 - j % 7) % 7 < 7 && (j + (10 - j % 7) % 7) % 7 == 3
  {
  }

  /** `getISOWeekKey` before rendering. */
  function IsoWeekOf(d: Date): (w: IsoWeek)
    requires ValidDate(d)
    ensures 1 <= w.week <= 53
    ensures Jan1(w.year) <= ThursdayOf(DayNumber(d)) < Jan1(w.year + 1)
    ensures (ThursdayOf(DayNumber(d)) - FirstThursday(w.year)) % 7 == 0
    ensures w.week == 1 + (ThursdayOf(DayNumber(d)) - FirstThursday(w.year)) / 7
  {
    IsoWeekOfDay(DayNumber(d))
  }

  /** The ISO week of the day with number t. */
  function IsoWeekOfDay(t: int): (w: IsoWeek)
    ensures 1 <= w.week <= 53
    ensures Jan1(w.year) <= ThursdayOf(t) < Jan1(w.year + 1)
    ensures (ThursdayOf(t) - FirstThursday(w.year)) % 7 == 0
    ensures w.week == 1 + (ThursdayOf(t) - FirstThursday(w.year)) / 7
  {
    var thu := t - MondayIndex(t) + 3;
    ThursdayFacts(t);
    var isoYear := YearOfDay(thu);
    var jan4 := DayNumber(Date(isoYear, 1, 4));
    var x := thu - jan4 - 3 + MondayIndex(jan4);
    WeekOffset(thu, isoYear, x);
    IsoWeek(isoYear, 1 + RoundDiv7(x))
  }

  lemma WeekOffset(thu: int, y: int, x: int)
    requires thu % 7 == 3 && Jan1(y) <= thu < Jan1(y + 1)
    requires x == thu - DayNumber(Date(y, 1, 4)) - 3 + MondayIndex(DayNumber(Date(y, 1, 4)))
    ensures x == thu - FirstThursday(y) && x % 7 == 0
    ensures 0 <= x / 7 <= 52 && RoundDiv7(x) == x / 7
  {
    var j := Jan1(y);
    assert DayNumber(Date(y, 1, 4)) == j + 3;
    YearLengthStep(y);
    WeekArith(j, thu, Jan1(y + 1) - j, x);
  }

  /** The arithmetic of the week number, with j the day number of January 1st
      and n the length of the year. */
  lemma WeekArith(j: int, thu: int, n: int, x: int)
    requires thu % 7 == 3 && j <= thu < j + n && n <= 366
    requires x == thu - (j + 3) - 3 + (j + 3) % 7
    ensures x == thu - (j + (10 - j % 7) % 7) && x % 7 == 0
    ensures 0 <= x / 7 <= 52 && RoundDiv7(x) == x / 7
  {
    assert (j + 3) % 7 + (10 - j % 7) % 7 == 6;
    RoundDiv7Exact(x / 7);
  }

  /** `getISOWeekKey`: `<ISO year>-W<week, two digits>`. */
  function WeekKey(d: Date): string
    requires ValidDate(d)
  {
    var w := IsoWeekOf(d);
    IntToString(w.year) + "-W" + Pad2(w.week)
  }

  /** The Monday of the week containing a date. */
  function MondayOf(d: Date): int
    requires ValidDate(d)
  {
    DayNumber(d) - MondayIndex(DayNumber(d))
  }

  /** All seven days Monday to Sunday of one week share a key. */
  lemma SameWeekSameKey(a: Date, b: Date)
    requires ValidDate(a) && ValidDate(b) && MondayOf(a) == MondayOf(b)
    ensures IsoWeekOf(a) == IsoWeekOf(b) && WeekKey(a) == WeekKey(b)
  {
    assert ThursdayOf(DayNumber(a)) == ThursdayOf(DayNumber(b));
    var ya, yb := IsoWeekOf(a).year, IsoWeekOf(b).year;
    YearUnique(ThursdayOf(DayNumber(a)), ya);
    YearUnique(ThursdayOf(DayNumber(a)), yb);
  }

  /** ISO weeks are ordered as their Mondays. */
  lemma IsoWeekOrder(a: Date, b: Date)
    requires ValidDate(a) && ValidDate(b)
    ensures var wa, wb := IsoWeekOf(a), IsoWeekOf(b);
      MondayOf(a) < MondayOf(b) <==> (wa.year < wb.year || (wa.year == wb.year && wa.week < wb.week))
  {
    WeekOrderDays(DayNumber(a), DayNumber(b));
  }

  /** ISO weeks of day numbers are ordered as their Thursdays. */
  lemma WeekOrderDays(s: int, t: int)
    ensures var ws, wt := IsoWeekOfDay(s), IsoWeekOfDay(t);
      ThursdayOf(s) < ThursdayOf(t) <==> (ws.year < wt.year || (ws.year == wt.year && ws.week < wt.week))
  {
    var ws, wt := IsoWeekOfDay(s), IsoWeekOfDay(t);
    WeekCompare(ThursdayOf(s), ws.year, ws.week, ThursdayOf(t), wt.year, wt.week);
  }

  /** Two Thursdays compare as their (ISO year, week) pairs. */
  lemma WeekCompare(ts: int, ys: int, ks: int, tt: int, yt: int, kt: int)
    requires Jan1(ys) <= ts < Jan1(ys + 1) && Jan1(yt) <= tt < Jan1(yt + 1)
    requires (ts - FirstThursday(ys)) % 7 == 0 && ks == 1 + (ts - FirstThursday(ys)) / 7
    requires (tt - FirstThursday(yt)) % 7 == 0 && kt == 1 + (tt - FirstThursday(yt)) / 7
    ensures ts < tt <==> (ys < yt || (ys == yt && ks < kt))
  {
    if ys < yt {
      YearsApart(ts, ys, tt, yt);
    } else if yt < ys {
      YearsApart(tt, yt, ts, ys);
    } else {
      WeeksApart(ts, tt, FirstThursday(ys));
    }
  }

  /** A day of an earlier year precedes every day of a later year. */
  lemma YearsApart(ta: int, ya: int, tb: int, yb: int)
    requires Jan1(ya) <= ta < Jan1(ya + 1) && Jan1(yb) <= tb && ya < yb
    ensures ta < tb
  {
    if ya + 1 < yb {
      Jan1Monotone(ya + 1, yb);
    }
  }

  lemma WeeksApart(ta: int, tb: int, f: int)
    requires (ta - f) % 7 == 0 && (tb - f) % 7 == 0
    ensures ta < tb <==> (ta - f) / 7 < (tb - f) / 7
  {
  }

  /** For four-digit ISO years, sorting week keys as strings sorts the weeks
      chronologically. */
  lemma WeekKeyOrder(a: Date, b: Date)
    requires ValidDate(a) && ValidDate(b)
    requires 1000 <= IsoWeekOf(a).year <= 9999 && 1000 <= IsoWeekOf(b).year <= 9999
    ensures LexLess(WeekKey(a), WeekKey(b)) <==> MondayOf(a) < MondayOf(b)
  {
    var wa, wb := IsoWeekOf(a), IsoWeekOf(b);
    IsoWeekOrder(a, b);
    NatToStringLength(wa.year);
    NatToStringLength(wb.year);
    NatToStringValue(wa.year);
    NatToStringValue(wb.year);
    Pad2Facts(wa.week);
    Pad2Facts(wb.week);
    LexDigitsThen(NatToString(wa.year), "-W", Pad2(wa.week), NatToString(wb.year), Pad2(wb.week));
    LexDigits(Pad2(wa.week), Pad2(wb.week));
  }

  /** The last day of 2024 belongs to week 1 of 2025, as does New Year's day,
      so both get the same key. */
  lemma WeekKeyExamples()
    ensures IsoWeekOf(Date(2024, 12, 31)) == IsoWeek(2025, 1)
    ensures IsoWeekOf(Date(2025, 1, 1)) == IsoWeek(2025, 1)
    ensures WeekKey(Date(2024, 12, 31)) == WeekKey(Date(2025, 1, 1)) == "2025-W01"
  {
    assert Jan1(2025) == 739251 && Jan1(2026) == 739616;
    assert DayNumber(Date(2024, 12, 31)) == 739250;
    assert DayNumber(Date(2025, 1, 1)) == 739251;
    YearUnique(739252, 2025);
  }

  // ---------------------------------------------------------------------------
  // Month bounds
  // ---------------------------------------------------------------------------

  /** Local-date text as the controller builds it: unpadded year, two-digit
      month and day. */
  function JsDateText(d: Date): string
    requires d.month >= 0 && d.day >= 0
  {
    IntToString(d.year) + "-" + Pad2(d.month) + "-" + Pad2(d.day)
  }

  datatype MonthBounds = MonthBounds(startISO: string, endISO: string)

  /** The first day of month m of year y and `new Date(y, m, 0)`, the day before
      the first of the following month. */
  function MonthBoundDates(y: int, m: int): (r: (Date, Date))
    requires 1 <= m <= 12
    ensures ValidDate(r.0) && ValidDate(r.1)
  {
    (Date(y, m, 1), Date(y, m, DaysInMonth(y, m)))
  }

  /** The first day of the month after month m of year y. */
  function FirstOfNextMonth(y: int, m: int): Date
    requires 1 <= m <= 12
  {
    if m == 12 then Date(y + 1, 1, 1) else Date(y, m + 1, 1)
  }

  /** `getCurrentMonthBoundsLocal` for the month (y, m) of the clock. */
  function CurrentMonthBounds(y: int, m: int): MonthBounds
    requires 1 <= m <= 12
  {
    var (first, last) := MonthBoundDates(y, m);
    MonthBounds(JsDateText(first), JsDateText(last))
  }

  /** The bounds span exactly the month: day 1 to the day before the first of
      the next month; February ends on the 29th exactly in Gregorian leap years. */
  lemma MonthBoundsSpec(y: int, m: int)
    requires 1 <= m <= 12
    ensures var (first, last) := MonthBoundDates(y, m);
      && first.year == y && first.month == m && first.day == 1
      && last.year == y && last.month == m
      && DayNumber(last) + 1 == DayNumber(FirstOfNextMonth(y, m))
      && DayNumber(last) - DayNumber(first) + 1 == DaysInMonth(y, m)
    ensures m == 2 ==> (MonthBoundDates(y, m).1.day == 29 <==> IsLeap(y))
  {
    if m == 12 {
      YearLengthStep(y);
      WholeYear(y);
    }
  }
}

=== FILE: profile_screen.dfy ===
/** The profile screen: the Brazilian rendering of the birth date and the
    merge of the fetched user into the fields shown. */
module ProfileScreen {
  import opened Wrappers
  import opened Text
  import opened Calendar
  import PontoReport

  // ---------------------------------------------------------------------------
  // formatDateBR
  // ---------------------------------------------------------------------------

  /** `[-/]` */
  predicate Sep(c: char) {
    c == '-' || c == '/'
  }

  /** `\d` at every index in [lo, hi). */
  predicate DigitsAt(s: string, lo: nat, hi: nat)
    requires lo <= hi <= |s|
  {
    forall i :: lo <= i < hi ==> IsDigit(s[i])
  }

  /** `^(\d{4})[-/](\d{2})[-/](\d{2})$` */
  predicate YearFirst(s: string) {
    |s| == 10 && DigitsAt(s, 0, 4) && Sep(s[4]) && DigitsAt(s, 5, 7) && Sep(s[7]) && DigitsAt(s, 8, 10)
  }

  /** `^(\d{2})[-/](\d{2})[-/](\d{4})$` */
  predicate DayFirst(s: string) {
    |s| == 10 && DigitsAt(s, 0, 2) && Sep(s[2]) && DigitsAt(s, 3, 5) && Sep(s[5]) && DigitsAt(s, 6, 10)
  }

  /** The `DD/MM/YYYY` output of both pattern branches. */
  predicate Brazilian(s: string) {
    DayFirst(s) && s[2] == '/' && s[5] == '/'
  }

  /** No text has both shapes: the third character is a digit in one and a
      separator in the other. */
  lemma ShapesExclusive(s: string)
    ensures !(YearFirst(s) && DayFirst(s))
  {
    if YearFirst(s) {
      assert IsDigit(s[2]);
    }
  }

  /** `formatDateBR`. `localeText` is what `toLocaleDateString('pt-BR')`
      makes of `new Date(s)`, None for an invalid date, in which case the
      trimmed text is shown as is. */
  function FormatDateBR(d: Option<string>, localeText: Option<string>): (r: string)
    ensures !Truthy(d) ==> r == "-"
    ensures Truthy(d) && (YearFirst(Trim(d.value)) || DayFirst(Trim(d.value))) ==> Brazilian(r)
    ensures Truthy(d) && !YearFirst(Trim(d.value)) && !DayFirst(Trim(d.value)) ==> r == localeText.GetOr(Trim(d.value))
  {
    if !Truthy(d) then "-"
    else
      var s := Trim(d.value);
      if YearFirst(s) then
        assert DigitsAt(s, 8, 10) && DigitsAt(s, 5, 7) && DigitsAt(s, 0, 4);
        s[8..10] + "/" + s[5..7] + "/" + s[..4]
      else if DayFirst(s) then
        s[..2] + "/" + s[3..5] + "/" + s[6..10]
      else localeText.GetOr(s)
  }

  /** A year-first date, with either separator at either place, is shown day
      first with slashes. */
  lemma YearFirstShown(y: string, a: char, m: string, b: char, dd: string, localeText: Option<string>)
    requires |y| == 4 && |m| == 2 && |dd| == 2 && AllDigits(y) && AllDigits(m) && AllDigits(dd)
    requires Sep(a) && Sep(b)
    ensures FormatDateBR(Some(y + [a] + m + [b] + dd), localeText) == dd + "/" + m + "/" + y
  {
    var s := y + [a] + m + [b] + dd;
    TrimNoop(s);
    assert s[..4] == y && s[5..7] == m && s[8..10] == dd;
    assert YearFirst(s);
  }

  /** A day-first date keeps its order and gets slashes. */
  lemma DayFirstShown(dd: string, a: char, m: string, b: char, y: string, localeText: Option<string>)
    requires |y| == 4 && |m| == 2 && |dd| == 2 && AllDigits(y) && AllDigits(m) && AllDigits(dd)
    requires Sep(a) && Sep(b)
    ensures FormatDateBR(Some(dd + [a] + m + [b] + y), localeText) == dd + "/" + m + "/" + y
  {
    var s := dd + [a] + m + [b] + y;
    TrimNoop(s);
    assert s[..2] == dd && s[3..5] == m && s[6..10] == y;
    assert DayFirst(s);
    ShapesExclusive(s);
  }

  /** Showing an already shown pattern date again changes nothing. */
  lemma FormatDateBRIdempotent(s: string, localeText: Option<string>)
    requires Brazilian(s)
    ensures FormatDateBR(Some(s), localeText) == s
  {
    assert DigitsAt(s, 0, 2) && DigitsAt(s, 3, 5) && DigitsAt(s, 6, 10);
    DayFirstShown(s[..2], '/', s[3..5], '/', s[6..10], localeText);
    assert s[..2] + ['/'] + s[3..5] + ['/'] + s[6..10] == s;
  }

  /** The profile and the report document show a stored date alike. */
  lemma AgreesWithReport(d: Date, localeText: Option<string>)
    requires ValidDate(d) && FourDigitYear(d)
    ensures FormatDateBR(Some(IsoText(d)), localeText) == PontoReport.FormatDate(IsoText(d))
  {
    Pad4Facts(d.year);
    Pad2Facts(d.month);
    Pad2Facts(d.day);
    PontoReport.FormatStoredDate(d);
    YearFirstShown(Pad4(d.year), '-', Pad2(d.month), '-', Pad2(d.day), localeText);
  }

  // ---------------------------------------------------------------------------
  // fetchUser
  // ---------------------------------------------------------------------------

  /** The fields the screen shows. */
  datatype Shown = Shown(nome: string, email: string, data_nascimento: string, identificacao: string, avatar: Option<string>)

  /** The fetched user's fields; any may be missing or empty. */
  datatype Fetched = Fetched(nome: Option<string>, email: Option<string>, data_nascimento: Option<string>,
                             identificacao: Option<string>, avatar: Option<string>)

  /** `data.field || prev.field`. */
  function Prefer(fetched: Option<string>, prev: string): (r: string)
    ensures Truthy(fetched) ==> r == fetched.value
    ensures !Truthy(fetched) ==> r == prev
  {
    OrElse(fetched, prev)
  }

  /** The merge in `fetchUser`. */
  function Merge(prev: Shown, data: Fetched): Shown {
    Shown(Prefer(data.nome, prev.nome), Prefer(data.email, prev.email),
          Prefer(data.data_nascimento, prev.data_nascimento),
          Prefer(data.identificacao, prev.identificacao), Or(data.avatar, prev.avatar))
  }

  /** `fetchUser`: without an id or an ok reply with a body, the fields stay. */
  function FetchUser(prev: Shown, hasId: bool, ok: bool, data: Option<Fetched>): (r: Shown)
    ensures !hasId || !ok || data.None? ==> r == prev
    ensures hasId && ok && data.Some? ==>
      && (Truthy(data.value.nome) ==> r.nome == data.value.nome.value)
      && (!Truthy(data.value.nome) ==> r.nome == prev.nome)
      && (Truthy(data.value.email) ==> r.email == data.value.email.value)
      && (!Truthy(data.value.email) ==> r.email == prev.email)
      && (Truthy(data.value.data_nascimento) ==> r.data_nascimento == data.value.data_nascimento.value)
      && (!Truthy(data.value.data_nascimento) ==> r.data_nascimento == prev.data_nascimento)
      && (Truthy(data.value.identificacao) ==> r.identificacao == data.value.identificacao.value)
      && (!Truthy(data.value.identificacao) ==> r.identificacao == prev.identificacao)
      && (Truthy(data.value.avatar) ==> r.avatar == data.value.avatar)
      && (!Truthy(data.value.avatar) ==> r.avatar == prev.avatar)
  {
    if hasId && ok && data.Some? then Merge(prev, data.value) else prev
  }

  /** Applying the same reply twice is applying it once: a refocus with an
      unchanged user changes nothing. */
  lemma MergeIdempotent(prev: Shown, data: Fetched)
    ensures Merge(Merge(prev, data), data) == Merge(prev, data)
  {
  }

  /** A non-empty value shown is never replaced by an empty one. */
  lemma MergeKeepsNonEmpty(prev: Shown, data: Fetched)
    requires |prev.nome| > 0 && |prev.email| > 0
    ensures |Merge(prev, data).nome| > 0 && |Merge(prev, data).email| > 0
  {
  }
}

=== FILE: report_reply.dfy ===
/** The report endpoint seen from both ends: the JSON the back end answers
    for each outcome of `gerarRelatorio`, and what the report screen shows for
    it. */
module ReportReply {
  import opened Wrappers
  import opened PontoReport
  import ReportScreen

  /** The messages of the back end's refusals. */
  const MISSING_FIELDS := "Campos obrigatórios ausentes: id_usuario, data_inicio ou data_fim."
  const STORE_FAILED := "Erro ao gerar relatório."

  /** The back end's JSON reply for each outcome of `gerarRelatorio`, as
      the screen reads it; `url` is the public address of the uploaded
      document. The `Generated` case assumes the upload succeeded: when it
      fails, the code throws inside the document's `end` handler, outside
      its `try`, and the request is never answered. */
  function ServerReply(o: ReportOutcome, url: string): ReportScreen.Reply {
    match o
    case MissingFields => ReportScreen.Reply(true, 400, false, None, Some(MISSING_FIELDS))
    case NoRows => ReportScreen.Reply(true, 404, false, None, Some("Nenhum ponto encontrado."))
    case StoreFailed => ReportScreen.Reply(true, 500, false, None, Some(STORE_FAILED))
    case Generated(_) => ReportScreen.Reply(true, 200, true, Some(url), Some("Relatório gerado com sucesso."))
  }

  /** A generated report shows as a link exactly when the reply carries an
      address; the link is that address. */
  lemma ScreenShowsReport(s: ReportScreen.Screen, report: Report, url: string)
    ensures var r := ReportScreen.HandleReply(s, ServerReply(Generated(report), url));
      && (r.link.Some? <==> url != "")
      && (url != "" ==> r.link == Some(url) && r.alert == Some(("✅ Relatório gerado com sucesso!", ReportScreen.Done)))
      && (url == "" ==> r.alert == Some(("Relatório gerado com sucesso.", ReportScreen.Error)))
  {
  }

  /** Every other outcome shows no link: "nothing found" for no rows, and the
      server's own message for missing fields or a store failure. */
  lemma ScreenShowsRefusal(s: ReportScreen.Screen, o: ReportOutcome, url: string)
    requires !o.Generated?
    ensures var r := ReportScreen.HandleReply(s, ServerReply(o, url));
      && r.link.None?
      && (o == NoRows ==> r.alert == Some(("Nenhum ponto encontrado nesse período.", ReportScreen.Info)))
      && (o == MissingFields ==> r.alert == Some((MISSING_FIELDS, ReportScreen.Error)))
      && (o == StoreFailed ==> r.alert == Some((STORE_FAILED, ReportScreen.Error)))
  {
  }
}

=== FILE: report_screen.dfy ===
/** The report screen: choosing a day or a period on the calendar, the
    request it leads to, and what the screen does with the server's reply. */
module ReportScreen {
  import opened Wrappers
  import opened Text
  import opened Calendar

  datatype Mode = Diario | Periodo

  datatype AlertKind = Info | Done | Error

  /** The screen's state. `mode` None is the initial `null`, which picks as
      the period mode does. */
  datatype Screen = Screen(
    mode: Option<Mode>,
    selected: seq<string>,
    link: Option<string>,
    calendar: bool,
    alert: Option<(string, AlertKind)>)

  /** A report request: start and end day, as sent. */
  datatype Request = Request(data_inicio: string, data_fim: string)

  predicate AtMostTwo(s: Screen) {
    |s.selected| <= 2
  }

  /** `startMode`: a fresh selection and no link, with the calendar open. */
  function StartMode(s: Screen, m: Mode): (r: Screen)
    ensures r.mode == Some(m) && r.selected == [] && r.link.None? && r.calendar && r.alert.None?
  {
    Screen(Some(m), [], None, true, None)
  }

  /** `handleDateSelect` up to the request. In daily mode the picked day is
      requested as both ends, and the calendar then closes; otherwise the pick
      joins the selection while it holds fewer than two days, and starts a new
      one when it holds two. `fix` is the local-date correction the screen
      applies before sending. */
  function SelectDate(s: Screen, date: string, fix: string -> string): (r: (Screen, Option<Request>))
    ensures s.mode == Some(Diario) ==> r.1 == Some(Request(fix(date), fix(date))) && !r.0.calendar
    ensures s.mode == Some(Diario) ==> r.0.selected == s.selected
    ensures s.mode != Some(Diario) ==> r.1.None? && r.0.calendar == s.calendar && r.0.link == s.link
    ensures s.mode != Some(Diario) && |s.selected| < 2 ==> r.0.selected == s.selected + [date]
    ensures s.mode != Some(Diario) && |s.selected| >= 2 ==> r.0.selected == [date]
  {
    if s.mode == Some(Diario) then (s.(calendar := false), Some(Request(fix(date), fix(date))))
    else if |s.selected| < 2 then (s.(selected := s.selected + [date]), None)
    else (s.(selected := [date]), None)
  }

  /** `selectedDates.sort()` on two days, which also reorders the state's
      array in place. */
  function Sort2(a: string, b: string): (r: seq<string>)
    ensures |r| == 2 && multiset(r) == multiset{a, b}
    ensures !LexLess(r[1], r[0])
  {
    if LexLess(b, a) then (LexTrichotomy(a, b); [b, a]) else [a, b]
  }

  /** `handleConfirmPeriod`: without exactly two days, an info alert and no
      request; otherwise the two days in order, and the calendar closes. */
  function ConfirmPeriod(s: Screen, fix: string -> string): (r: (Screen, Option<Request>))
    ensures |s.selected| != 2 ==> r.1.None? && r.0 == s.(alert := Some(("Selecione duas datas para gerar o relatório.", Info)))
    ensures |s.selected| == 2 ==> var sorted := Sort2(s.selected[0], s.selected[1]);
      && r.1 == Some(Request(fix(sorted[0]), fix(sorted[1])))
      && r.0.selected == sorted && !r.0.calendar
  {
    if |s.selected| != 2 then (s.(alert := Some(("Selecione duas datas para gerar o relatório.", Info))), None)
    else
      var sorted := Sort2(s.selected[0], s.selected[1]);
      (s.(selected := sorted, calendar := false), Some(Request(fix(sorted[0]), fix(sorted[1]))))
  }

  /** The server's reply as the screen reads it; `connection` false stands
      for a failed fetch. */
  datatype Reply = Reply(connection: bool, status: int, success: bool, url: Option<string>, message: Option<string>)

  /** The response handling of `gerarRelatorio`: 404 is "nothing found", a
      success with an address sets the link, anything else is an error; only
      the link and the alert change. */
  function HandleReply(s: Screen, reply: Reply): (r: Screen)
    ensures r.mode == s.mode && r.selected == s.selected && r.calendar == s.calendar
    ensures r.link.Some? <==> reply.connection && reply.status != 404 && reply.success && Truthy(reply.url)
    ensures r.link.Some? ==> r.link == reply.url && r.alert == Some(("✅ Relatório gerado com sucesso!", Done))
    ensures reply.connection && reply.status == 404 ==> r.alert == Some(("Nenhum ponto encontrado nesse período.", Info))
    ensures !reply.connection ==> r.alert == Some(("Erro de conexão com o servidor.", Error))
    ensures reply.connection && reply.status != 404 && !(reply.success && Truthy(reply.url)) ==>
      r.link.None? && r.alert == Some((OrElse(reply.message, "Falha ao gerar relatório."), Error))
  {
    if !reply.connection then s.(link := None, alert := Some(("Erro de conexão com o servidor.", Error)))
    else if reply.status == 404 then s.(link := None, alert := Some(("Nenhum ponto encontrado nesse período.", Info)))
    else if reply.success && Truthy(reply.url) then s.(link := reply.url, alert := Some(("✅ Relatório gerado com sucesso!", Done)))
    else s.(link := None, alert := Some((OrElse(reply.message, "Falha ao gerar relatório."), Error)))
  }

  /** No event lets the selection grow past two days. */
  lemma SelectionBounded(s: Screen, date: string, m: Mode, reply: Reply, fix: string -> string)
    requires AtMostTwo(s)
    ensures AtMostTwo(SelectDate(s, date, fix).0)
    ensures AtMostTwo(ConfirmPeriod(s, fix).0)
    ensures AtMostTwo(StartMode(s, m))
    ensures AtMostTwo(HandleReply(s, reply))
  {
  }

  /** Two picks after `startMode` are the selection, in the order picked. */
  lemma TwoPicks(s: Screen, x: string, y: string, fix: string -> string)
    ensures var s1 := SelectDate(SelectDate(StartMode(s, Periodo), x, fix).0, y, fix).0;
      s1.selected == [x, y] && ConfirmPeriod(s1, fix).1 == Some(Request(fix(Sort2(x, y)[0]), fix(Sort2(x, y)[1])))
  {
  }

  /** Sorting the texts of two dates puts the earlier day first. */
  lemma SortDates(a: Date, b: Date)
    requires ValidDate(a) && ValidDate(b) && FourDigitYear(a) && FourDigitYear(b)
    ensures DayNumber(a) <= DayNumber(b) ==> Sort2(IsoText(a), IsoText(b)) == [IsoText(a), IsoText(b)]
    ensures DayNumber(b) < DayNumber(a) ==> Sort2(IsoText(a), IsoText(b)) == [IsoText(b), IsoText(a)]
  {
    IsoTextOrder(b, a);
  }

  /** Two picks after `startMode` make a confirmable period, whose request
      runs from the earlier day to the later, in whichever order they were
      picked. */
  lemma PeriodInOrder(s: Screen, a: Date, b: Date, fix: string -> string)
    requires ValidDate(a) && ValidDate(b) && FourDigitYear(a) && FourDigitYear(b)
    ensures var s1 := SelectDate(SelectDate(StartMode(s, Periodo), IsoText(a), fix).0, IsoText(b), fix).0;
      var req := ConfirmPeriod(s1, fix).1;
      && req.Some?
      && (DayNumber(a) <= DayNumber(b) ==> req.value == Request(fix(IsoText(a)), fix(IsoText(b))))
      && (DayNumber(b) < DayNumber(a) ==> req.value == Request(fix(IsoText(b)), fix(IsoText(a))))
  {
    TwoPicks(s, IsoText(a), IsoText(b), fix);
    SortDates(a, b);
  }

  /** A third pick starts over: after three picks only the last is
      selected, and confirming asks for a second day. */
  lemma ThirdPickRestarts(s: Screen, a: string, b: string, c: string, fix: string -> string)
    ensures var s3 := SelectDate(SelectDate(SelectDate(StartMode(s, Periodo), a, fix).0, b, fix).0, c, fix).0;
      s3.selected == [c] && ConfirmPeriod(s3, fix).1.None?
  {
  }
}

=== FILE: text.dfy ===
/** String helpers with the semantics of the JavaScript built-ins the
    application uses: `String(n)`, `padStart`, `split`, `trim`, `startsWith`,
    `replace` with a string pattern, the default `<` order on strings and the
    `\d` / `\s` regular-expression classes. */
module Text {
  import opened Wrappers

  // ---------------------------------------------------------------------------
  // Truthiness of optional strings
  // ---------------------------------------------------------------------------

  /** JavaScript truthiness of a value that is a string, `null` or `undefined`. */
  predicate Truthy(o: Option<string>) {
    o.Some? && |o.value| > 0
  }

  /** JavaScript `a || b` on optional strings. */
  function Or(a: Option<string>, b: Option<string>): (r: Option<string>)
    ensures Truthy(a) ==> r == a
    ensures !Truthy(a) ==> r == b
  {
    if Truthy(a) then a else b
  }

  /** JavaScript `a || "text"`: the string, or the fallback when it is falsy. */
  function OrElse(a: Option<string>, b: string): string {
    if Truthy(a) then a.value else b
  }

  // ---------------------------------------------------------------------------
  // Decimal digits
  // ---------------------------------------------------------------------------

  /** The regular-expression class `\d`: ASCII digits only. */
  predicate IsDigit(c: char) {
    '0' <= c <= '9'
  }

  predicate AllDigits(s: string) {
    forall i :: 0 <= i < |s| ==> IsDigit(s[i])
  }

  function DigitValue(c: char): nat
    requires IsDigit(c)
  {
    c as int - '0' as int
  }

  function DigitChar(n: nat): (c: char)
    requires n < 10
    ensures IsDigit(c) && DigitValue(c) == n
  {
    ('0' as int + n) as char
  }

  function Pow10(k: nat): (p: nat)
    ensures p >= 1
  {
    if k == 0 then 1 else 10 * Pow10(k - 1)
  }

  /** The value of a decimal digit string read left to right; "" reads as 0
      (as JavaScript's `Number("")` does). */
  function DigitsValue(s: string): nat
    requires AllDigits(s)
    decreases |s|
  {
    if |s| == 0 then 0 else 10 * DigitsValue(s[..|s| - 1]) + DigitValue(s[|s| - 1])
  }

  /** A digit string of length k denotes a number below 10^k. */
  lemma {:induction false} DigitsValueBound(s: string)
    requires AllDigits(s)
    ensures DigitsValue(s) < Pow10(|s|)
    decreases |s|
  {
    if |s| > 0 {
      DigitsValueBound(s[..|s| - 1]);
    }
  }

  /** Reading a digit string from its most significant digit. */
  lemma {:induction false} DigitsValueFront(s: string)
    requires AllDigits(s) && |s| > 0
    ensures DigitsValue(s) == DigitValue(s[0]) * Pow10(|s| - 1) + DigitsValue(s[1..])
    decreases |s|
  {
    var n := |s|;
    if n > 1 {
      var t := s[..n - 1];
      DigitsValueFront(t);
      assert t[0] == s[0];
      assert t[1..] == s[1..][..n - 2];
      assert s[1..][n - 2] == s[n - 1];
      var d, p := DigitValue(s[0]), Pow10(n - 2);
      var a, b := DigitsValue(t[1..]), DigitValue(s[n - 1]);
      assert DigitsValue(s) == 10 * (d * p + a) + b;
      assert DigitsValue(s[1..]) == 10 * a + b;
      ShiftDigit(d, p, a, b);
    } else {
      assert s[..0] == [];
    }
  }

  lemma ShiftDigit(d: nat, p: nat, a: nat, b: nat)
    ensures 10 * (d * p + a) + b == d * (10 * p) + (10 * a + b)
  {
  }


  /** Leading zeros do not change the value of a digit string. */
  lemma {:induction false} LeadingZeros(z: string, s: string)
    requires AllDigits(s)
    requires forall i :: 0 <= i < |z| ==> z[i] == '0'
    ensures AllDigits(z + s) && DigitsValue(z + s) == DigitsValue(s)
    decreases |z|
  {
    var t := z + s;
    assert forall i :: 0 <= i < |t| ==> IsDigit(t[i]) by {
      forall i | 0 <= i < |t| ensures IsDigit(t[i]) {
        if i < |z| { assert t[i] == z[i]; } else { assert t[i] == s[i - |z|]; }
      }
    }
    if |z| > 0 {
      DigitsValueFront(t);
      assert t[0] == '0' && DigitValue(t[0]) == 0;
      assert t[1..] == z[1..] + s;
      LeadingZeros(z[1..], s);
    } else {
      assert t == s;
    }
  }

  // ---------------------------------------------------------------------------
  // Number rendering: String(n) and padStart
  // ---------------------------------------------------------------------------

  /** `String(n)` for a non-negative integer: shortest decimal notation. */
  function NatToString(n: nat): (s: string)
    ensures |s| >= 1 && AllDigits(s)
    ensures n >= 10 ==> s[0] != '0'
    decreases n
  {
    if n < 10 then [DigitChar(n)] else NatToString(n / 10) + [DigitChar(n % 10)]
  }

  /** Reading back the decimal rendering of n gives n. */
  lemma {:induction false} NatToStringValue(n: nat)
    ensures DigitsValue(NatToString(n)) == n
    decreases n
  {
    var s := NatToString(n);
    if n >= 10 {
      NatToStringValue(n / 10);
      assert s[..|s| - 1] == NatToString(n / 10);
    }
  }

  /** Four-digit numbers render with exactly four characters, two-digit numbers
      with at most two. */
  lemma NatToStringLength(n: nat)
    ensures n < 10 ==> |NatToString(n)| == 1
    ensures 10 <= n < 100 ==> |NatToString(n)| == 2
    ensures 1000 <= n < 10000 ==> |NatToString(n)| == 4
  {
    if n >= 10 {
      NatToStringLength(n / 10);
      if n >= 1000 {
        NatToStringLength(n / 100);
        NatToStringLength(n / 1000);
      }
    }
  }

  /** `String(i)` for any integer. */
  function IntToString(i: int): (s: string)
    ensures i >= 0 ==> s == NatToString(i)
    ensures i < 0 ==> s == "-" + NatToString(-i)
  {
    if i < 0 then "-" + NatToString(-i) else NatToString(i)
  }

  function Repeat(c: char, k: nat): (r: string)
    ensures |r| == k
  {
    seq(k, _ => c)
  }

  /** `s.padStart(width, fill)` with a one-character fill. */
  function PadStart(s: string, width: nat, fill: char): (r: string)
    ensures |r| == if |s| >= width then |s| else width
  {
    if |s| >= width then s else Repeat(fill, width - |s|) + s
  }

  /** Zero-padding a digit string keeps it a digit string of the same value. */
  lemma ZeroPadValue(s: string, width: nat)
    requires AllDigits(s)
    ensures AllDigits(PadStart(s, width, '0'))
    ensures DigitsValue(PadStart(s, width, '0')) == DigitsValue(s)
  {
    if |s| < width {
      LeadingZeros(Repeat('0', width - |s|), s);
    }
  }

  /** `String(n).padStart(2, "0")`. */
  function Pad2(n: nat): string {
    PadStart(NatToString(n), 2, '0')
  }

  /** `Pad2` gives at least two digits that read back as n; exactly two below 100. */
  lemma Pad2Facts(n: nat)
    ensures AllDigits(Pad2(n)) && DigitsValue(Pad2(n)) == n
    ensures n < 100 ==> |Pad2(n)| == 2
    ensures |Pad2(n)| >= 2
  {
    NatToStringValue(n);
    NatToStringLength(n);
    ZeroPadValue(NatToString(n), 2);
  }

  /** Below 100, `Pad2` writes the tens digit and the units digit. */
  lemma Pad2Digits(n: nat)
    requires n < 100
    ensures Pad2(n) == [DigitChar(n / 10), DigitChar(n % 10)]
  {
    if n < 10 {
      assert Repeat('0', 1) == [DigitChar(0)];
    } else {
      assert NatToString(n / 10) == [DigitChar(n / 10)];
    }
  }

  /** Zero-padding to four digits, the rendering of a year in an ISO date. */
  function Pad4(n: nat): string {
    PadStart(NatToString(n), 4, '0')
  }

  lemma Pad4Facts(n: nat)
    ensures AllDigits(Pad4(n)) && DigitsValue(Pad4(n)) == n
    ensures n < 10000 ==> |Pad4(n)| == 4
  {
    NatToStringValue(n);
    ZeroPadValue(NatToString(n), 4);
    if n < 10000 {
      NatToStringLength(n);
      if n >= 10 && n < 1000 {
        NatToStringLength(n / 10);
        assert NatToString(n) == NatToString(n / 10) + [DigitChar(n % 10)];
      }
    }
  }

  // ---------------------------------------------------------------------------
  // split, trim, startsWith, replace, reverse
  // ---------------------------------------------------------------------------

  /** `s.split(sep)` for a one-character separator: always at least one part,
      "" splits into [""]. */
  function Split(s: string, sep: char): (parts: seq<string>)
    ensures |parts| >= 1
    decreases |s|
  {
    if |s| == 0 then [""]
    else
      var rest := Split(s[1..], sep);
      if s[0] == sep then [""] + rest
      else [[s[0]] + rest[0]] + rest[1..]
  }

  /** A string without the separator splits into itself. */
  lemma {:induction false} SplitNoSep(s: string, sep: char)
    requires sep !in s
    ensures Split(s, sep) == [s]
    decreases |s|
  {
    if |s| > 0 {
      SplitNoSep(s[1..], sep);
      assert [s[0]] + s[1..] == s;
    }
  }

  /** Splitting `a + sep + b` where `a` has no separator yields `a` followed by
      the parts of `b`. */
  lemma {:induction false} SplitJoin(a: string, sep: char, b: string)
    requires sep !in a
    ensures Split(a + [sep] + b, sep) == [a] + Split(b, sep)
    decreases |a|
  {
    var s := a + [sep] + b;
    if |a| == 0 {
      assert s[1..] == b;
    } else {
      assert s[1..] == a[1..] + [sep] + b;
      SplitJoin(a[1..], sep, b);
      assert [a[0]] + a[1..] == a;
    }
  }

  /** The parts of the three-piece string `a + sep + b + sep + c`. */
  lemma Split3(a: string, b: string, c: string, sep: char)
    requires sep !in a && sep !in b && sep !in c
    ensures Split(a + [sep] + b + [sep] + c, sep) == [a, b, c]
  {
    var tail := b + [sep] + c;
    SplitNoSep(c, sep);
    SplitJoin(b, sep, c);
    SplitJoin(a, sep, tail);
    assert a + [sep] + b + [sep] + c == a + [sep] + tail;
  }

  /** The characters matched by `\s` (and removed by `trim`). */
  predicate IsSpace(c: char) {
    var k := c as int;
    k == 0x20 || (0x09 <= k <= 0x0D) || k == 0xA0 || k == 0x1680
    || (0x2000 <= k <= 0x200A) || k == 0x2028 || k == 0x2029 || k == 0x202F
    || k == 0x205F || k == 0x3000 || k == 0xFEFF
  }

  function TrimStart(s: string): (r: string)
    ensures |r| <= |s|
    decreases |s|
  {
    if |s| > 0 && IsSpace(s[0]) then TrimStart(s[1..]) else s
  }

  function TrimEnd(s: string): (r: string)
    ensures |r| <= |s|
    decreases |s|
  {
    if |s| > 0 && IsSpace(s[|s| - 1]) then TrimEnd(s[..|s| - 1]) else s
  }

  /** `s.trim()`. */
  function Trim(s: string): string {
    TrimEnd(TrimStart(s))
  }

  /** `TrimStart` drops exactly the leading white space. */
  lemma {:induction false} TrimStartSpec(s: string)
    ensures var r := TrimStart(s);
      && r == s[|s| - |r|..]
      && (forall i :: 0 <= i < |s| - |r| ==> IsSpace(s[i]))
      && (|r| == 0 || !IsSpace(r[0]))
    decreases |s|
  {
    if |s| > 0 && IsSpace(s[0]) {
      TrimStartSpec(s[1..]);
      var r := TrimStart(s);
      assert forall i :: 1 <= i < |s| - |r| ==> s[i] == s[1..][i - 1];
    }
  }

  /** `TrimEnd` drops exactly the trailing white space. */
  lemma {:induction false} TrimEndSpec(s: string)
    ensures var r := TrimEnd(s);
      && r == s[..|r|]
      && (forall i :: |r| <= i < |s| ==> IsSpace(s[i]))
      && (|r| == 0 || !IsSpace(r[|r| - 1]))
    decreases |s|
  {
    if |s| > 0 && IsSpace(s[|s| - 1]) {
      TrimEndSpec(s[..|s| - 1]);
      var r := TrimEnd(s);
      assert forall i :: |r| <= i < |s| - 1 ==> s[i] == s[..|s| - 1][i];
    }
  }

  /** A string that neither starts nor ends with white space is its own trim. */
  lemma TrimNoop(s: string)
    requires |s| == 0 || (!IsSpace(s[0]) && !IsSpace(s[|s| - 1]))
    ensures Trim(s) == s
  {
  }

  predicate StartsWith(s: string, prefix: string) {
    |prefix| <= |s| && s[..|prefix|] == prefix
  }

  predicate EndsWith(s: string, suffix: string) {
    |suffix| <= |s| && s[|s| - |suffix|..] == suffix
  }

  /** `pat` occurs in `s` starting at index k. */
  predicate OccursAt(s: string, pat: string, k: nat) {
    k + |pat| <= |s| && s[k..k + |pat|] == pat
  }

  /** Index of the first occurrence of `pat` in `s` at or after `from`. */
  function IndexOfFrom(s: string, pat: string, from: nat): (r: Option<nat>)
    requires from <= |s|
    ensures r.Some? ==> from <= r.value && OccursAt(s, pat, r.value)
    ensures r.Some? ==> forall k :: from <= k < r.value ==> !OccursAt(s, pat, k)
    ensures r.None? ==> forall k :: from <= k ==> !OccursAt(s, pat, k)
    decreases |s| - from
  {
    if from + |pat| > |s| then None
    else if s[from..from + |pat|] == pat then Some(from)
    else IndexOfFrom(s, pat, from + 1)
  }

  /** `s.replace(pat, rep)` with a string pattern: only the first occurrence
      is replaced. */
  function ReplaceFirst(s: string, pat: string, rep: string): string {
    match IndexOfFrom(s, pat, 0)
    case None => s
    case Some(k) => s[..k] + rep + s[k + |pat|..]
  }

  /** `s.split('').reverse().join('')`. */
  function Reverse(s: string): (r: string)
    ensures |r| == |s|
    ensures forall i :: 0 <= i < |s| ==> r[i] == s[|s| - 1 - i]
  {
    seq(|s|, i requires 0 <= i < |s| => s[|s| - 1 - i])
  }

  // ---------------------------------------------------------------------------
  // The default order on strings (JavaScript `<` and `Array.prototype.sort`)
  // ---------------------------------------------------------------------------

  /** Lexicographic order by character code, a proper prefix sorting first. */
  predicate LexLess(a: string, b: string)
    decreases |a|
  {
    if |a| == 0 then |b| > 0
    else if |b| == 0 then false
    else if a[0] != b[0] then a[0] < b[0]
    else LexLess(a[1..], b[1..])
  }

  /** Comparing two strings whose first pieces have equal length: the first
      pieces decide unless they are equal. */
  lemma {:induction false} LexConcat(a1: string, r1: string, a2: string, r2: string)
    requires |a1| == |a2|
    ensures LexLess(a1 + r1, a2 + r2) == if a1 != a2 then LexLess(a1, a2) else LexLess(r1, r2)
    decreases |a1|
  {
    if |a1| > 0 {
      var x, y := a1 + r1, a2 + r2;
      assert x[0] == a1[0] && y[0] == a2[0];
      if a1[0] == a2[0] {
        assert x[1..] == a1[1..] + r1 && y[1..] == a2[1..] + r2;
        LexConcat(a1[1..], r1, a2[1..], r2);
        assert a1 == [a1[0]] + a1[1..] && a2 == [a2[0]] + a2[1..];
      }
    } else {
      assert a1 + r1 == r1 && a2 + r2 == r2;
    }
  }

  /** On digit strings of equal length, lexicographic order is numeric order. */
  lemma {:induction false} LexDigits(a: string, b: string)
    requires AllDigits(a) && AllDigits(b) && |a| == |b|
    ensures LexLess(a, b) <==> DigitsValue(a) < DigitsValue(b)
    decreases |a|
  {
    if |a| > 0 {
      DigitsValueFront(a);
      DigitsValueFront(b);
      DigitsValueBound(a[1..]);
      DigitsValueBound(b[1..]);
      var p := Pow10(|a| - 1);
      var da, db := DigitValue(a[0]), DigitValue(b[0]);
      if a[0] == b[0] {
        LexDigits(a[1..], b[1..]);
      } else if a[0] < b[0] {
        LeadingDigitDecides(da, db, DigitsValue(a[1..]), DigitsValue(b[1..]), p);
      } else {
        LeadingDigitDecides(db, da, DigitsValue(b[1..]), DigitsValue(a[1..]), p);
      }
    }
  }

  /** A smaller leading digit makes a smaller number, whatever follows. */
  lemma LeadingDigitDecides(x: nat, y: nat, rx: nat, ry: nat, p: nat)
    requires x < y && rx < p
    ensures x * p + rx < y * p + ry
  {
    assert (x + 1) * p <= y * p by { MulMono(x + 1, y, p); }
  }

  /** Equal-length digit strings with the same value are the same string. */
  lemma DigitsValueInjective(a: string, b: string)
    requires AllDigits(a) && AllDigits(b) && |a| == |b|
    requires DigitsValue(a) == DigitsValue(b)
    ensures a == b
  {
    LexDigits(a, b);
    LexDigits(b, a);
    LexTrichotomy(a, b);
  }

  /** Comparing `x1 + sep + x2` with `y1 + sep + y2` for equal-length digit
      strings x1, y1: the numbers decide, then the remainders. */
  lemma LexDigitsThen(x1: string, sep: string, x2: string, y1: string, y2: string)
    requires AllDigits(x1) && AllDigits(y1) && |x1| == |y1|
    ensures LexLess(x1 + sep + x2, y1 + sep + y2) <==>
      (DigitsValue(x1) < DigitsValue(y1) || (DigitsValue(x1) == DigitsValue(y1) && LexLess(x2, y2)))
  {
    assert x1 + sep + x2 == x1 + (sep + x2);
    assert y1 + sep + y2 == y1 + (sep + y2);
    LexConcat(x1, sep + x2, y1, sep + y2);
    LexConcat(sep, x2, sep, y2);
    LexDigits(x1, y1);
    if DigitsValue(x1) == DigitsValue(y1) {
      DigitsValueInjective(x1, y1);
    }
  }

  lemma MulMono(x: nat, y: nat, p: nat)
    requires x <= y
    ensures x * p <= y * p
  {
  }

  /** The default order is irreflexive and total on distinct strings. */
  lemma {:induction false} LexTrichotomy(a: string, b: string)
    ensures !(LexLess(a, b) && LexLess(b, a))
    ensures a != b ==> LexLess(a, b) || LexLess(b, a)
    ensures !LexLess(a, a)
    decreases |a|
  {
    if |a| > 0 && |b| > 0 && a[0] == b[0] {
      LexTrichotomy(a[1..], b[1..]);
      if a != b {
        assert a == [a[0]] + a[1..] && b == [b[0]] + b[1..];
      }
    }
    if |a| > 0 {
      LexTrichotomy(a[1..], a[1..]);
    }
  }
}

=== FILE: user_controller.dfy ===
/** The account controller: birth-date normalisation, sign-up validation, the
    partial update builder and the status codes of lookup, sign-up, login and
    update. */
module UserController {
  import opened Wrappers
  import opened Text
  import opened Calendar
  import opened PontoTime
  import opened Users
  import opened UserService
  import opened Http

  // ---------------------------------------------------------------------------
  // normalizeDate
  // ---------------------------------------------------------------------------

  /** `s` matches the anchored pattern `shape`, in which `#` stands for `\d`
      and every other character for itself. */
  predicate Fits(s: string, shape: string) {
    |s| == |shape| && forall i :: 0 <= i < |s| ==> if shape[i] == '#' then IsDigit(s[i]) else s[i] == shape[i]
  }

  /** `^(\d{4})-(\d{2})-(\d{2})$` */
  const ISO_SHAPE: string := "####-##-##"
  /** `^(\d{2})\/(\d{2})\/(\d{4})$` */
  const SLASH_SHAPE: string := "##/##/####"
  /** `^(\d{2})-(\d{2})-(\d{4})$` */
  const DASH_SHAPE: string := "##-##-####"

  /** `${m[3]}-${m[2]}-${m[1]}` for a day-first date. */
  function YearFirst(s: string): string
    requires |s| == 10
  {
    s[6..10] + "-" + s[3..5] + "-" + s[0..2]
  }

  /** `normalizeDate` after the trim. `parsed` is the local date JavaScript's
      `new Date(s)` yields for the text, None for an invalid date. */
  function NormalizeTrimmed(s: string, parsed: Option<Date>): Option<string>
    requires parsed.Some? ==> ValidDate(parsed.value)
  {
    if Fits(s, ISO_SHAPE) then Some(s)
    else if Fits(s, SLASH_SHAPE) || Fits(s, DASH_SHAPE) then Some(YearFirst(s))
    else if parsed.Some? then Some(JsDateText(parsed.value))
    else None
  }

  /** `normalizeDate`: null for a falsy value; otherwise the trimmed text, in
      `YYYY-MM-DD` if it already is, reordered from `DD/MM/YYYY` or
      `DD-MM-YYYY`, else whatever the date parser makes of it. */
  function NormalizeDate(dateStr: Option<string>, parsed: Option<Date>): (r: Option<string>)
    requires parsed.Some? ==> ValidDate(parsed.value)
    ensures !Truthy(dateStr) ==> r.None?
    ensures Truthy(dateStr) && Fits(Trim(dateStr.value), ISO_SHAPE) ==> r == Some(Trim(dateStr.value))
    ensures Truthy(dateStr) && (Fits(Trim(dateStr.value), SLASH_SHAPE) || Fits(Trim(dateStr.value), DASH_SHAPE)) ==>
      r == Some(YearFirst(Trim(dateStr.value)))
  {
    if !Truthy(dateStr) then None
    else
      ShapesExclusive(Trim(dateStr.value));
      NormalizeTrimmed(Trim(dateStr.value), parsed)
  }

  /** No text fits the year-first shape and a day-first shape at once: the
      third character is a digit in one and a separator in the others. */
  lemma ShapesExclusive(s: string)
    ensures !(Fits(s, ISO_SHAPE) && (Fits(s, SLASH_SHAPE) || Fits(s, DASH_SHAPE)))
  {
    if Fits(s, ISO_SHAPE) && |s| == 10 {
      assert ISO_SHAPE[2] == '#' && SLASH_SHAPE[2] == '/' && DASH_SHAPE[2] == '-';
      assert IsDigit(s[2]);
    }
  }

  /** Reordering a day-first date gives the year-first shape. */
  lemma YearFirstFits(s: string)
    requires Fits(s, SLASH_SHAPE) || Fits(s, DASH_SHAPE)
    ensures Fits(YearFirst(s), ISO_SHAPE)
  {
    var o := YearFirst(s);
    assert forall i :: 0 <= i < 2 ==> IsDigit(s[i]) by {
      assert forall i :: 0 <= i < 2 ==> SLASH_SHAPE[i] == '#' && DASH_SHAPE[i] == '#';
    }
    assert forall i :: 3 <= i < 5 ==> IsDigit(s[i]) by {
      assert forall i :: 3 <= i < 5 ==> SLASH_SHAPE[i] == '#' && DASH_SHAPE[i] == '#';
    }
    assert forall i :: 6 <= i < 10 ==> IsDigit(s[i]) by {
      assert forall i :: 6 <= i < 10 ==> SLASH_SHAPE[i] == '#' && DASH_SHAPE[i] == '#';
    }
    assert forall i :: 0 <= i < 4 ==> o[i] == s[6 + i];
    assert forall i :: 5 <= i < 7 ==> o[i] == s[i - 2];
    assert forall i :: 8 <= i < 10 ==> o[i] == s[i - 8];
  }

  /** A `YYYY-MM-DD` text built from digit parts has the ISO shape. */
  lemma IsoFits(y: string, m: string, d: string)
    requires |y| == 4 && |m| == 2 && |d| == 2 && AllDigits(y) && AllDigits(m) && AllDigits(d)
    ensures Fits(y + "-" + m + "-" + d, ISO_SHAPE)
  {
    var s := y + "-" + m + "-" + d;
    assert s == [y[0], y[1], y[2], y[3], '-', m[0], m[1], '-', d[0], d[1]];
  }

  /** A text of the year-first shape has no surrounding white space. */
  lemma IsoShapeTrimmed(s: string)
    requires Fits(s, ISO_SHAPE)
    ensures Trim(s) == s
  {
    assert ISO_SHAPE[0] == '#' && ISO_SHAPE[9] == '#';
    TrimNoop(s);
  }

  /** Every output of the three pattern branches is `YYYY-MM-DD`, and
      normalising it again changes nothing, whatever the date parser says. */
  lemma NormalizeIdempotent(s: string, parsed: Option<Date>, parsed2: Option<Date>)
    requires parsed.Some? ==> ValidDate(parsed.value)
    requires parsed2.Some? ==> ValidDate(parsed2.value)
    requires var t := Trim(s); Fits(t, ISO_SHAPE) || Fits(t, SLASH_SHAPE) || Fits(t, DASH_SHAPE)
    ensures var o := NormalizeDate(Some(s), parsed);
      o.Some? && Fits(o.value, ISO_SHAPE) && NormalizeDate(o, parsed2) == o
  {
    var t := Trim(s);
    assert |t| == 10;
    var o := NormalizeDate(Some(s), parsed).value;
    if !Fits(t, ISO_SHAPE) {
      YearFirstFits(t);
    }
    IsoShapeTrimmed(o);
  }

  // ---------------------------------------------------------------------------
  // getUsersById
  // ---------------------------------------------------------------------------

  /** `getUsersById`: the stored row with 200 (all columns, as the lookup
      selects them), or 404 with the service's error. */
  function GetUsersById(t: seq<User>, id: nat, lookupFails: bool): (r: Response<User>)
    ensures r.status == 200 <==> GetUserById(t, id, lookupFails).Success?
    ensures r.status == 200 ==> r.data == Some(GetUserById(t, id, lookupFails).value)
    ensures r.status != 200 ==> r.status == 404 && r.message == "Erro ao buscar usuario por ID" && r.data.None?
  {
    match GetUserById(t, id, lookupFails)
    case Success(u) => Response(200, "", Some(u))
    case Failure(e) => Plain(404, e)
  }

  // ---------------------------------------------------------------------------
  // createUser
  // ---------------------------------------------------------------------------

  /** The sign-up body. */
  datatype SignUpBody = SignUpBody(
    nome: Option<string>,
    email: Option<string>,
    password: Option<string>,
    senha_hash: Option<string>,
    data_nascimento: Option<string>)

  /** The object handed to the service: the password is `password ||
      senha_hash`, and a birth date only when it normalises. */
  datatype SignUpData = SignUpData(user: NewUser, data_nascimento: Option<string>)

  predicate SignUpComplete(b: SignUpBody) {
    Truthy(b.nome) && Truthy(b.email) && Truthy(Or(b.password, b.senha_hash))
  }

  function SignUpDataOf(b: SignUpBody, parsed: Option<Date>): (d: SignUpData)
    requires parsed.Some? ==> ValidDate(parsed.value)
    ensures d.data_nascimento == NormalizeDate(b.data_nascimento, parsed)
    ensures d.user.password == Or(b.password, b.senha_hash) && d.user.senha_hash.None?
  {
    SignUpData(NewUser(b.nome, b.email, Or(b.password, b.senha_hash), None), NormalizeDate(b.data_nascimento, parsed))
  }

  /** `createUser` as written: 400 without name, email or a password, before
      the service is called; otherwise 201 with the created row or 400 with
      the service's message. The reply's birth date is the stored one, or else
      the normalised one from the request, which the service does not store. */
  function CreateUserAsWritten(t: seq<User>, b: SignUpBody, parsed: Option<Date>, lookupError: Option<string>,
                               insertError: Option<string>, newId: nat): (r: (Response<User>, seq<User>))
    requires parsed.Some? ==> ValidDate(parsed.value)
    ensures !SignUpComplete(b) ==> r.0 == Plain(400, "Nome, e-mail e senha são obrigatórios.") && r.1 == t
    ensures SignUpComplete(b) ==>
      var s := UserService.CreateUser(t, SignUpDataOf(b, parsed).user, lookupError, insertError, newId);
      && r.1 == s.1
      && (r.0.status == 201 <==> s.0.success)
      && (r.0.status != 201 ==> r.0 == Plain(400, s.0.message))
      && (s.0.success ==> r.0.data == Some(s.0.user.value.(data_nascimento := NormalizeDate(b.data_nascimento, parsed))))
  {
    if !SignUpComplete(b) then (Plain(400, "Nome, e-mail e senha são obrigatórios."), t)
    else
      var d := SignUpDataOf(b, parsed);
      var s := UserService.CreateUser(t, d.user, lookupError, insertError, newId);
      if s.0.success then
        var u := s.0.user.value;
        var shown := if u.data_nascimento.Some? then u.data_nascimento else d.data_nascimento;
        (Response(201, s.0.message, Some(u.(data_nascimento := shown))), s.1)
      else (Plain(400, s.0.message), s.1)
  }

  /** A day-first birth date: the sign-up reply shows it normalised while the
      stored row keeps null. */
  lemma SignUpReplyDisagreesWithStore()
    ensures var b := SignUpBody(Some("Ana"), Some("a@b.c"), Some("segredo"), None, Some("01/02/2000"));
      var r := CreateUserAsWritten([], b, None, None, None, 1);
      && r.0.status == 201 && r.0.data.value.data_nascimento == Some("2000-02-01")
      && r.1[0].data_nascimento.None?
  {
    var dob := "01/02/2000";
    TrimNoop(dob);
    assert Fits(dob, SLASH_SHAPE);
    assert YearFirst(dob) == "2000-02-01";
  }

  /** `createUser` with the birth date stored: the same validation and status
      codes, and on success the reply carries exactly the row now at the end
      of the table, whose birth date is the normalised one. */
  function CreateUser(t: seq<User>, b: SignUpBody, parsed: Option<Date>, lookupError: Option<string>,
                      insertError: Option<string>, newId: nat): (r: (Response<User>, seq<User>))
    requires parsed.Some? ==> ValidDate(parsed.value)
    ensures !SignUpComplete(b) ==> r.0 == Plain(400, "Nome, e-mail e senha são obrigatórios.") && r.1 == t
    ensures SignUpComplete(b) ==>
      var s := UserService.CreateUser(t, SignUpDataOf(b, parsed).user, lookupError, insertError, newId);
      && (r.0.status == 201 <==> s.0.success)
      && (r.0.status != 201 ==> r.0 == Plain(400, s.0.message) && r.1 == t)
    ensures r.0.status == 201 ==>
      && |r.1| == |t| + 1 && r.1[..|t|] == t
      && r.0.data == Some(r.1[|t|])
      && r.1[|t|].data_nascimento == NormalizeDate(b.data_nascimento, parsed)
  {
    if !SignUpComplete(b) then (Plain(400, "Nome, e-mail e senha são obrigatórios."), t)
    else
      var d := SignUpDataOf(b, parsed);
      var s := CreateUserWithDate(t, d.user, d.data_nascimento, lookupError, insertError, newId);
      if s.0.success then (Response(201, s.0.message, s.0.user), s.1)
      else (Plain(400, s.0.message), s.1)
  }

  /** Where the stored date is the one shown, the corrected sign-up agrees
      with the written one on every reply; only the table differs, in that
      one column. */
  lemma CreateUserAgrees(t: seq<User>, b: SignUpBody, parsed: Option<Date>, lookupError: Option<string>,
                         insertError: Option<string>, newId: nat)
    requires parsed.Some? ==> ValidDate(parsed.value)
    ensures CreateUser(t, b, parsed, lookupError, insertError, newId).0
         == CreateUserAsWritten(t, b, parsed, lookupError, insertError, newId).0
  {
  }

  // ---------------------------------------------------------------------------
  // loginUser
  // ---------------------------------------------------------------------------

  /** `loginUser`: 400 without email or password, 200 with the user (without
      password) when the service accepts, 401 with its message otherwise. */
  function LoginUser(t: seq<User>, email: Option<string>, password: Option<string>, lookupFails: bool): (r: Response<PublicUser>)
    ensures !Truthy(email) || !Truthy(password) ==> r == Plain(400, "Email e senha são obrigatórios")
    ensures Truthy(email) && Truthy(password) ==>
      var s := Authenticate(t, email.value, password.value, lookupFails);
      && (r.status == 200 <==> s.success)
      && (s.success ==> r.data == s.user)
      && (!s.success ==> r == Plain(401, "Email ou senha incorretos"))
  {
    if !Truthy(email) || !Truthy(password) then Plain(400, "Email e senha são obrigatórios")
    else
      var s := Authenticate(t, email.value, password.value, lookupFails);
      if s.success then Response(200, s.message, s.user) else Plain(401, s.message)
  }

  // ---------------------------------------------------------------------------
  // updateUser
  // ---------------------------------------------------------------------------

  /** A JSON body field that can be missing, `null` or a string. */
  datatype BodyValue = Undefined | Null | Text(s: string)

  /** The `updates` object: a missing key is None; `data_nascimento` may be
      present with the value `null`. */
  datatype Updates = Updates(nome: Option<string>, email: Option<string>, data_nascimento: Option<Option<string>>)

  predicate NoUpdates(u: Updates) {
    u.nome.None? && u.email.None? && u.data_nascimento.None?
  }

  /** The reply of the update service (which the user service file does not
      define): success with a payload, or a message. */
  datatype UpdateServiceReply = UpdateServiceReply(success: bool, message: string, data: Option<string>)

  /** The date entry of the update: `normalizeDate` of a present field, an
      explicit null for `null` and "", and None (a 400) for a text that does
      not normalise. The outer option is the key's presence. */
  function DateUpdate(dob: BodyValue, parsed: Option<Date>): (r: Result<Option<Option<string>>, string>)
    requires parsed.Some? ==> ValidDate(parsed.value)
  {
    match dob
    case Undefined => Success(None)
    case Null => Success(Some(None))
    case Text(s) =>
      var n := NormalizeDate(Some(s), parsed);
      if n.Some? then Success(Some(n))
      else if s == "" then Success(Some(None))
      else Failure("Formato de data inválido. Use DD/MM/AAAA ou AAAA-MM-DD.")
  }

  /** `updateUser`: the reply and the updates sent to the service (None when
      the service is not called). */
  function UpdateUser(nome: Option<string>, email: Option<string>, dob: BodyValue, parsed: Option<Date>,
                      service: UpdateServiceReply): (r: (Response<string>, Option<Updates>))
    requires parsed.Some? ==> ValidDate(parsed.value)
    ensures DateUpdate(dob, parsed).Failure? ==> r.0 == Plain(400, DateUpdate(dob, parsed).error) && r.1.None?
    ensures DateUpdate(dob, parsed).Success? ==>
      var u := Updates(if Truthy(nome) then nome else None, if Truthy(email) then email else None, DateUpdate(dob, parsed).value);
      && (NoUpdates(u) ==> r.0 == Plain(400, "Nenhum dado para atualizar.") && r.1.None?)
      && (!NoUpdates(u) ==> r.1 == Some(u))
    ensures r.1.Some? ==> (r.0.status == 200 <==> service.success)
    ensures r.1.Some? && service.success ==> r.0.data == service.data
    ensures r.1.Some? && !service.success ==> r.0 == Plain(400, service.message)
  {
    match DateUpdate(dob, parsed)
    case Failure(e) => (Plain(400, e), None)
    case Success(d) =>
      var u := Updates(if Truthy(nome) then nome else None, if Truthy(email) then email else None, d);
      if NoUpdates(u) then (Plain(400, "Nenhum dado para atualizar."), None)
      else if service.success then (Response(200, "", service.data), Some(u))
      else (Plain(400, service.message), Some(u))
  }

  /** The date field decides as follows: a normalisable text is stored
      normalised, `null` and "" store null, a missing field stores nothing, and
      any other text is refused. */
  lemma DateUpdateSpec(dob: BodyValue, parsed: Option<Date>)
    requires parsed.Some? ==> ValidDate(parsed.value)
    ensures dob.Undefined? ==> DateUpdate(dob, parsed) == Success(None)
    ensures dob.Null? || dob == Text("") ==> DateUpdate(dob, parsed) == Success(Some(None))
    ensures dob.Text? && NormalizeDate(Some(dob.s), parsed).Some? ==>
      DateUpdate(dob, parsed) == Success(Some(NormalizeDate(Some(dob.s), parsed)))
    ensures DateUpdate(dob, parsed).Failure? <==>
      dob.Text? && dob.s != "" && NormalizeDate(Some(dob.s), parsed).None?
  {
  }

  /** A body holding only `data_nascimento: null` is not empty: it clears the
      stored date. */
  lemma NullDateIsAnUpdate(parsed: Option<Date>, service: UpdateServiceReply)
    requires parsed.Some? ==> ValidDate(parsed.value)
    ensures UpdateUser(None, None, Null, parsed, service).1 == Some(Updates(None, None, Some(None)))
  {
  }

  /** The service is called exactly when a name, an email or a date field
      came and the date field, if any, is acceptable. */
  lemma UpdateCallsService(nome: Option<string>, email: Option<string>, dob: BodyValue, parsed: Option<Date>,
                           service: UpdateServiceReply)
    requires parsed.Some? ==> ValidDate(parsed.value)
    ensures UpdateUser(nome, email, dob, parsed, service).1.Some?
        <==> (Truthy(nome) || Truthy(email) || !dob.Undefined?) && DateUpdate(dob, parsed).Success?
  {
  }
}

=== FILE: user_service.dfy ===
/** The account operations of the user service over the user table: lookup
    by id, sign-up with duplicate-email rejection, and login by comparing the
    stored password with the one given. */
module UserService {
  import opened Wrappers
  import opened Text
  import opened Users

  /** The user as login returns it: every column except `senha_hash`. */
  datatype PublicUser = PublicUser(
    id_usuario: nat,
    nome: Option<string>,
    email: Option<string>,
    data_nascimento: Option<string>,
    reset_token: Option<string>,
    reset_token_expiry: Option<int>)

  /** `const { senha_hash, ...userWithoutPassword } = user`. */
  function WithoutPassword(u: User): PublicUser {
    PublicUser(u.id_usuario, u.nome, u.email, u.data_nascimento, u.reset_token, u.reset_token_expiry)
  }

  /** Putting a password column back into a public user. */
  function WithPassword(p: PublicUser, senha_hash: Option<string>): User {
    User(p.id_usuario, p.nome, p.email, senha_hash, p.data_nascimento, p.reset_token, p.reset_token_expiry)
  }

  /** Only the password column is dropped: restoring it gives the row back. */
  lemma WithoutPasswordKeepsTheRest(u: User)
    ensures WithPassword(WithoutPassword(u), u.senha_hash) == u
  {
  }

  /** The service's `{ success, user, message }`. */
  datatype ServiceReply<T> = ServiceReply(success: bool, user: Option<T>, message: string)

  // ---------------------------------------------------------------------------
  // Lookup by id
  // ---------------------------------------------------------------------------

  /** `getUsersByIdService`: the one row with the id; any failure, including
      an id no row has, ends in the same error. */
  function GetUserById(t: seq<User>, id: nat, lookupFails: bool): (r: Result<User, string>)
    ensures r.Failure? ==> r.error == "Erro ao buscar usuario por ID"
    ensures r.Success? <==> !lookupFails && Single(t, IdIs(id)).Some?
    ensures r.Success? ==> r.value in t && r.value.id_usuario == id
  {
    if lookupFails then Failure("Erro ao buscar usuario por ID")
    else
      match Single(t, IdIs(id))
      case None => Failure("Erro ao buscar usuario por ID")
      case Some(i) => Success(t[i])
  }

  /** In a table keyed by id, an existing id finds its row and a missing id
      fails. */
  lemma GetUserByIdSpec(t: seq<User>, id: nat)
    requires UniqueIds(t)
    ensures (exists i :: 0 <= i < |t| && t[i].id_usuario == id) ==>
      GetUserById(t, id, false).Success?
    ensures (forall i :: 0 <= i < |t| ==> t[i].id_usuario != id) ==>
      GetUserById(t, id, false).Failure?
  {
    if i :| 0 <= i < |t| && t[i].id_usuario == id {
      SingleSpec(t, IdIs(id), i);
    } else {
      SingleNone(t, IdIs(id));
    }
  }

  // ---------------------------------------------------------------------------
  // Sign-up
  // ---------------------------------------------------------------------------

  /** The fields `createUserService` reads from its argument. */
  datatype NewUser = NewUser(
    nome: Option<string>,
    email: Option<string>,
    password: Option<string>,
    senha_hash: Option<string>)

  /** The lookup `.eq('email', email).single()`; an absent email finds no
      row. */
  function FindEmail(t: seq<User>, email: Option<string>): Option<nat> {
    if email.Some? then Single(t, EmailIs(email.value)) else None
  }

  /** The inserted row: name, email and `password || senha_hash`; every other
      column starts null. `newId` is the id the store assigns. */
  function NewRow(data: NewUser, newId: nat): User {
    User(newId, data.nome, data.email, Or(data.password, data.senha_hash), None, None, None)
  }

  /** `createUserService`. `lookupError` is a lookup failure other than the
      store's "not exactly one row" (PGRST116), `insertError` a failed
      insert. */
  function CreateUser(t: seq<User>, data: NewUser, lookupError: Option<string>,
                      insertError: Option<string>, newId: nat): (r: (ServiceReply<User>, seq<User>))
    ensures !r.0.success ==> r.1 == t && r.0.user.None?
    ensures lookupError.Some? ==> r.0.message == "Erro ao verificar email: " + lookupError.value
    ensures lookupError.None? && FindEmail(t, data.email).Some? ==> !r.0.success && r.0.message == "Email já cadastrado"
    ensures r.0.success <==> lookupError.None? && FindEmail(t, data.email).None? && insertError.None?
    ensures r.0.success ==> r.0.user.Some? && r.0.message == "Usuário criado com sucesso" && r.1 == t + [r.0.user.value]
    ensures r.0.success ==> var u := r.0.user.value;
      && u.nome == data.nome && u.email == data.email
      && u.senha_hash == (if Truthy(data.password) then data.password else data.senha_hash)
      && u.data_nascimento.None? && u.reset_token.None? && u.reset_token_expiry.None?
  {
    if lookupError.Some? then (ServiceReply(false, None, "Erro ao verificar email: " + lookupError.value), t)
    else if FindEmail(t, data.email).Some? then (ServiceReply(false, None, "Email já cadastrado"), t)
    else if insertError.Some? then (ServiceReply(false, None, insertError.value), t)
    else
      var u := NewRow(data, newId);
      (ServiceReply(true, Some(u), "Usuário criado com sucesso"), t + [u])
  }

  /** Sign-up that also stores the birth date the controller forwards
      (normalised, or null): the same checks and replies as `CreateUser`, and
      the inserted row differs only in `data_nascimento`. */
  function CreateUserWithDate(t: seq<User>, data: NewUser, dob: Option<string>, lookupError: Option<string>,
                              insertError: Option<string>, newId: nat): (r: (ServiceReply<User>, seq<User>))
    ensures var plain := CreateUser(t, data, lookupError, insertError, newId);
      && r.0.success == plain.0.success && r.0.message == plain.0.message
      && (!r.0.success ==> r == plain)
      && (r.0.success ==> r.0.user == Some(plain.0.user.value.(data_nascimento := dob)) && r.1 == t + [r.0.user.value])
  {
    var plain := CreateUser(t, data, lookupError, insertError, newId);
    if plain.0.success then
      var u := NewRow(data, newId).(data_nascimento := dob);
      (ServiceReply(true, Some(u), plain.0.message), t + [u])
    else plain
  }

  /** No two rows share an email. */
  predicate UniqueEmails(t: seq<User>) {
    forall i, j :: 0 <= i < j < |t| && t[i].email.Some? ==> t[i].email != t[j].email
  }

  /** Sign-up keeps emails unique and ids unique, given a fresh id. */
  lemma CreateKeepsUnique(t: seq<User>, data: NewUser, lookupError: Option<string>,
                          insertError: Option<string>, newId: nat)
    requires UniqueEmails(t) && UniqueIds(t)
    requires forall i :: 0 <= i < |t| ==> t[i].id_usuario != newId
    ensures var t2 := CreateUser(t, data, lookupError, insertError, newId).1;
      UniqueEmails(t2) && UniqueIds(t2)
  {
    var r := CreateUser(t, data, lookupError, insertError, newId);
    if r.0.success && data.email.Some? {
      FreeEmail(t, data.email.value);
    }
  }

  /** With unique emails, `.single()` finds no row for an email only when no
      row has it. */
  lemma FreeEmail(t: seq<User>, e: string)
    requires UniqueEmails(t) && Single(t, EmailIs(e)).None?
    ensures forall j :: 0 <= j < |t| ==> t[j].email != Some(e)
  {
    SingleNone(t, EmailIs(e));
    assert forall i, j :: 0 <= i < j < |t| ==> !(Matches(t[i], EmailIs(e)) && Matches(t[j], EmailIs(e)));
  }

  // ---------------------------------------------------------------------------
  // Login
  // ---------------------------------------------------------------------------

  /** `authenticateUserService`: the one row with the email, if its stored
      password equals the given one, returned without the password. */
  function Authenticate(t: seq<User>, email: string, password: string, lookupFails: bool): (r: ServiceReply<PublicUser>)
    ensures r.success <==>
      (!lookupFails && Single(t, EmailIs(email)).Some? && t[Single(t, EmailIs(email)).value].senha_hash == Some(password))
    ensures r.success ==>
      r.message == "Login realizado com sucesso" && r.user == Some(WithoutPassword(t[Single(t, EmailIs(email)).value]))
    ensures !r.success ==> r.message == "Email ou senha incorretos" && r.user.None?
  {
    if lookupFails then ServiceReply(false, None, "Email ou senha incorretos")
    else
      match Single(t, EmailIs(email))
      case None => ServiceReply(false, None, "Email ou senha incorretos")
      case Some(i) =>
        if t[i].senha_hash != Some(password) then ServiceReply(false, None, "Email ou senha incorretos")
        else ServiceReply(true, Some(WithoutPassword(t[i])), "Login realizado com sucesso")
  }

  /** An unknown email and a wrong password get the same reply. */
  lemma LoginFailuresAlike(t: seq<User>, unknown: string, known: string, wrong: string, i: nat)
    requires forall j :: 0 <= j < |t| ==> t[j].email != Some(unknown)
    requires Single(t, EmailIs(known)) == Some(i) && t[i].senha_hash != Some(wrong)
    ensures Authenticate(t, unknown, wrong, false) == Authenticate(t, known, wrong, false)
  {
    SingleNone(t, EmailIs(unknown));
  }

  /** A row created by sign-up with a password logs in with that password,
      when its email is set and no other row has it. */
  lemma SignUpThenLogin(t: seq<User>, data: NewUser, newId: nat)
    requires UniqueEmails(t) && data.email.Some? && Truthy(data.password)
    requires CreateUser(t, data, None, None, newId).0.success
    ensures var t2 := CreateUser(t, data, None, None, newId).1;
      var r := Authenticate(t2, data.email.value, data.password.value, false);
      r.success && r.user == Some(WithoutPassword(NewRow(data, newId)))
  {
    var e := data.email.value;
    var t2 := t + [NewRow(data, newId)];
    FreeEmail(t, e);
    assert forall j :: 0 <= j < |t2| && j != |t| ==> !Matches(t2[j], EmailIs(e));
    SingleSpec(t2, EmailIs(e), |t|);
  }
}

=== FILE: users.dfy ===
/** The user table `table_usuario` as a sequence of rows, and the store's
    `.eq(column, value).single()` lookup: it answers the one matching row, and
    fails (code PGRST116) when no row or more than one row matches. */
module Users {
  import opened Wrappers

  /** One row of the user table; nullable columns are options. The two reset
      columns are separate, as in the store. */
  datatype User = User(
    id_usuario: nat,
    nome: Option<string>,
    email: Option<string>,
    senha_hash: Option<string>,
    data_nascimento: Option<string>,
    reset_token: Option<string>,
    reset_token_expiry: Option<int>)

  /** The column filter of a lookup. */
  datatype Key = IdIs(id: nat) | EmailIs(email: string) | TokenIs(token: string)

  predicate Matches(u: User, k: Key) {
    match k
    case IdIs(id) => u.id_usuario == id
    case EmailIs(e) => u.email == Some(e)
    case TokenIs(tok) => u.reset_token == Some(tok)
  }

  /** The first row at or after `from` that matches. */
  function FirstMatch(t: seq<User>, k: Key, from: nat): (r: Option<nat>)
    requires from <= |t|
    ensures r.Some? ==> from <= r.value < |t| && Matches(t[r.value], k)
    ensures r.Some? ==> forall j :: from <= j < r.value ==> !Matches(t[j], k)
    ensures r.None? ==> forall j :: from <= j < |t| ==> !Matches(t[j], k)
    decreases |t| - from
  {
    if from == |t| then None
    else if Matches(t[from], k) then Some(from)
    else FirstMatch(t, k, from + 1)
  }

  /** `.single()`: the index of the only matching row. */
  function Single(t: seq<User>, k: Key): (r: Option<nat>)
    ensures r.Some? ==> r.value < |t| && Matches(t[r.value], k)
  {
    match FirstMatch(t, k, 0)
    case None => None
    case Some(i) => if FirstMatch(t, k, i + 1).None? then Some(i) else None
  }

  /** `.single()` answers row i exactly when row i is the one row that
      matches. */
  lemma SingleSpec(t: seq<User>, k: Key, i: nat)
    ensures Single(t, k) == Some(i)
        <==> i < |t| && Matches(t[i], k) && forall j :: 0 <= j < |t| && j != i ==> !Matches(t[j], k)
  {
    if i < |t| && Matches(t[i], k) && forall j :: 0 <= j < |t| && j != i ==> !Matches(t[j], k) {
      var f := FirstMatch(t, k, 0);
      assert f == Some(i);
    }
  }

  /** `.single()` fails exactly when no row or at least two rows match. */
  lemma SingleNone(t: seq<User>, k: Key)
    ensures Single(t, k).None? <==>
      ((forall j :: 0 <= j < |t| ==> !Matches(t[j], k))
       || (exists i, j :: 0 <= i < j < |t| && Matches(t[i], k) && Matches(t[j], k)))
  {
    var f := FirstMatch(t, k, 0);
    if f.Some? {
      var i := f.value;
      var g := FirstMatch(t, k, i + 1);
      if g.Some? {
        assert Matches(t[i], k) && Matches(t[g.value], k);
      } else {
        SingleSpec(t, k, i);
      }
    }
  }

  /** No two rows share an id (the table's primary key). */
  predicate UniqueIds(t: seq<User>) {
    forall i, j :: 0 <= i < j < |t| ==> t[i].id_usuario != t[j].id_usuario
  }

  /** A reset token and its expiry are both set or both null. */
  predicate Paired(u: User) {
    u.reset_token.Some? <==> u.reset_token_expiry.Some?
  }

  predicate AllPaired(t: seq<User>) {
    forall i :: 0 <= i < |t| ==> Paired(t[i])
  }

  /** `new Date(user.reset_token_expiry)` in milliseconds; a null expiry reads
      as the epoch. */
  function ExpiryMs(u: User): int {
    u.reset_token_expiry.GetOr(0)
  }
}

=== FILE: wrappers.dfy ===
/** Failure-compatible helper datatypes shared by every module of the model. */
module Wrappers {

  /** A value that may be missing: JavaScript's `null`/`undefined` on one side,
      a present value on the other. */
  datatype Option<+T> = None | Some(value: T) {

    /** Returns the value, or `default` when there is none. */
    function GetOr(default: T): T {
      match this
      case Some(v) => v
      case None => default
    }
  }

  /** A computation that either produced a value or failed with an error value. */
  datatype Result<+R, +E> = Success(value: R) | Failure(error: E)
}
